=== FILE: README.md ===
# ResultAI pathology pipeline — a Dafny model

ResultAI takes a pathology report as a PDF and turns it into stored,
explained test results. This project models the core of that pipeline and
proves what it promises:

- **Text extraction.** The runs of text that pdf2json reports are flattened
  into one string. Every run is percent-decoded, as `decodeURIComponent`
  does, and the result is trimmed.
- **Report parsing.** The text has its whitespace normalised. The patient
  fields (NHS number, name, date of birth, GP, sample id) are then captured
  by label. The test results come from a six-entry catalogue of known tests,
  or, when none of those matches, from a filtered general fallback. Each
  value is classified against its `<X`, `>X` or `A - B` reference range.
- **Sample-id extraction.** A catalogue of twelve priority-ranked patterns
  is searched with first-match-wins. An "all candidates" mode removes
  duplicate ids, scores each id's confidence from its priority and sorts
  the list.
- **Two reconciliation routes** over one store of patients, letters and
  test-result rows. They are kept apart because their policies differ:
  - `report-analizer` groups rows by the analysis timestamp. It replays a
    session that already exists and filters exact duplicates within one
    second.
  - `result-ai` keys rows by a sample id that must be new anywhere in the
    store. A stored sample id answers 409 before the assistant is asked.
  - Both routes clean up the assistant's reply the same way: code fences
    are removed, the text from the first `{` to the last `}` is kept and
    control characters are dropped. The reply is then validated before
    anything is written.
- **The upload hook.** It calls the extraction route, checks the required
  fields in order, builds the payload for `result-ai` and sets its progress
  stage by stage.
- **Two navigation helpers.** One computes the page title for a pathname.
  The other decides which sidebar items are active and open.

## Modules

- `Wrappers`: `Option` and `Result`.
- `Search`: the leftmost-match search of `match` and `exec`, shared by
  every scanner.
- `Text`: JavaScript string operations used across the core.
  - `\s` whitespace;
  - `trim`, whitespace collapsing and removal;
  - `startsWith` and `includes`;
  - upper and lower case for ASCII;
  - `split` on one character.
- `ReportStatus`: `parseFloat` and `determineStatus`.
- `ReportFields`: `parsePatientDetails`. Its five regular expressions are
  written out as scanners, with the leftmost-match, greedy, lazy and
  backtracking behaviour they have on these label-then-value shapes.
- `ReportTests`: `parseTestResults`. It models the section capture, the
  known-test catalogue and its loop, and the fallback filter and loop.
- `ReportParser`: `parsePathologyReport`.
- `Uri`: `decodeURIComponent` and its inverse `encodeURIComponent`. The
  escapes are percent-encoded UTF-8 octets, as in section 2.1 of RFC 3986.
  Decoding follows section 19.2.6.5 of ECMA-262, including when it throws
  `URIError`.
- `SampleIds`: the pattern catalogue as an array that the primary extraction
  sorts in place, the first-match loop, and the all-candidates collection,
  deduplication and sort.
- `PdfText`: the flattening loops of the extraction route and the route's
  request checks.
- `AiReply`: the parts shared by both reconciliation routes:
  - `mapTestStatus`;
  - the reply cleanup;
  - the shape of the assistant's analysis;
  - the assistant, as an object that answers a question through a fixed
    function and counts its calls.
- `Store`: the Prisma store as a class.
  - The patients are a map from NHS number.
  - The letters are a map from patient id.
  - The test-result rows are a sequence.
  - The invariant is that each NHS number and each id belongs to one
    patient, that letters and rows point at stored patients, and that no
    two rows share the key `(patientId, testName, analyzedAt)`.
- `ApiResponse`: the JSON answer of both routes.
- `ReportAnalyzer`: the session policy of `report-analizer`.
- `ResultAi`: the sample-id policy of `result-ai`.
- `Upload`: `usePdfUpload`.
- `PageHeader`: `generateTitleFromUrl` and `useAutoPageTitle`.
- `NavGroup`: `isItemActive`, `hasActiveSubItem`, `toggleOpen` and the
  open state of a collapsible item.

## Parameters standing in for the outside world

- **The clock** (`new Date()`) is an integer number of milliseconds, `now`.
- **The assistant's answer** to a question is a function the assistant
  object holds. Its replies are plain text, or an error message.
- **`JSON.parse`** of the cleaned reply is a parameter, `parse`. It gives
  the analysis or nothing.
- **A failure of `createMany` other than its own key clash** is a parameter,
  `fault`. This covers a unique-constraint violation raised by a concurrent
  writer.
- **pdf2json** gives its page/text/run tree, or its parser error.
- **The fallback `generalPattern`** gives its successive matches in a
  section.
- **Each sample-id regular expression** is a matcher, `find`. It gives the
  capture of group 1 for a pattern name, or nothing.
- **In the upload hook**, the two routes' answers and `JSON.stringify` are
  functions of the request.

The extraction route answers with the flattened text under `text`, not
`plainText`. `usePdfUpload` reads `plainText`, so the text it sends to
`result-ai` is always the JSON of the parsed report (`Upload.PayloadOf`).

## Model

| member | source | states |
|---|---|---|
| Text.Trim | src/lib/utils.ts:32 | the result has no whitespace at either end and is the slice of the input that starts after its leading whitespace |
| Text.CollapseWhitespace | src/lib/utils.ts:32 | a whitespace run becomes one space; empty iff the input is empty; starts with a space iff the input starts with whitespace |
| Text.CollapseIsCollapsed | src/lib/utils.ts:32 | after collapsing, every whitespace character is a space and no two spaces are adjacent |
| Text.CollapseKeepsContent | src/lib/utils.ts:32 | collapsing keeps every non-whitespace character, in order |
| Text.NormaliseShape | src/lib/utils.ts:32 | the normalised text is trimmed and collapsed, and has the same non-whitespace characters as the input |
| Text.NormaliseCollapsed | src/lib/utils.ts:32 | the normalised text has single spaces only |
| Text.NormaliseKeepsContent | src/lib/utils.ts:32 | normalising loses no non-whitespace character |
| Text.TrimKeepsContent | src/lib/utils.ts:32 | trimming removes only whitespace |
| Text.TrimKeepsCollapsed | src/lib/utils.ts:32 | trimming a collapsed text leaves it collapsed |
| Text.SliceKeepsCollapsed | src/lib/utils.ts:32 | every slice of a collapsed text is collapsed |
| Text.RemoveWhitespace | src/lib/utils.ts:67 | `replace(/\s/g, '')`: the result has no whitespace and is no longer than the input |
| Text.RemoveWhitespaceAppend | src/lib/utils.ts:67 | removing whitespace distributes over concatenation |
| Text.AllWhitespaceRemoved | src/lib/utils.ts:67 | a text of whitespace only becomes empty |
| Text.NothingToRemove | src/lib/utils.ts:67 | a text without whitespace is kept as it is |
| Text.DropWhitespaceInvisible | src/lib/utils.ts:67 | dropping leading whitespace changes nothing once all whitespace is removed |
| Text.DropTrailingInvisible | src/lib/utils.ts:67 | dropping trailing whitespace changes nothing once all whitespace is removed |
| Text.Upper | src/app/api/report-analizer/route.ts:86 | `toUpperCase`, one character at a time, length kept |
| Text.Lower | src/lib/utils.ts:185 | `toLowerCase`, one character at a time, length kept |
| Text.Split | src/hooks/use-page-header.ts:48 | `split(sep)`: at least one part, and no part holds the separator |
| Text.SplitJoin | src/hooks/use-page-header.ts:55 | joining the parts of a split with the separator gives back the text |
| Text.ContainsFromMeaning | src/lib/utils.ts:185 | `includes` holds iff the pattern occurs at some position |
| ReportStatus.ParseFloat | src/lib/utils.ts:210 | `parseFloat`: NaN for text of whitespace only; a finite non-negative number when the first non-blank character is a digit |
| ReportStatus.Threshold | src/lib/utils.ts:215 | the capture of `<([\d\.]+)` or `>([\d\.]+)` is a non-empty run of digits and dots |
| ReportStatus.ThresholdIsLeftmost | src/lib/utils.ts:215 | nothing is captured iff no `<` (or `>`) is followed by a digit or dot; otherwise the capture is the whole number run after the first one that is |
| ReportStatus.Range | src/lib/utils.ts:232 | the two captures of `([\d\.]+)\s*-\s*([\d\.]+)` are non-empty runs of digits and dots |
| ReportStatus.RangeIsLeftmost | src/lib/utils.ts:232 | nothing is captured iff no start matches `A - B`; otherwise the captures are those of the first start that matches |
| ReportStatus.DetermineStatus | src/lib/utils.ts:206-211 | an absent or empty value or range gives null, and so does a value that parses to NaN |
| ReportStatus.NoSignNoThreshold | src/lib/utils.ts:214-215 | a range without `<` (or `>`) has no threshold capture |
| ReportStatus.NullExactly | src/lib/utils.ts:206-246 | null exactly when an argument is absent or empty, the value is NaN, or neither threshold is captured and there is no `A - B` capture or one of its bounds is NaN |
| ReportStatus.UnreadableThreshold | src/lib/utils.ts:214-229 | a captured threshold that is NaN (such as ".") fails the comparison: High for `<`, Low for `>` |
| ReportStatus.BelowThreshold | src/lib/utils.ts:214-220 | for `<X…`, Normal iff the value is below X, otherwise High |
| ReportStatus.StatusBelow | src/lib/utils.ts:214-220 | whenever the range holds `<` and a threshold follows it, the `<` rule decides |
| ReportStatus.AboveThreshold | src/lib/utils.ts:223-229 | for `>X…` with no `<`, Normal iff the value is above X, otherwise Low |
| ReportStatus.StatusAbove | src/lib/utils.ts:223-229 | the `>` rule decides only when the range has no `<` |
| ReportStatus.RangeOfShape | src/lib/utils.ts:232 | `A - B` followed by a non-number is captured as (A, B) |
| ReportStatus.WithinRange | src/lib/utils.ts:232-242 | for `A - B`: Low below A, High above B, Normal in between; for A ≤ B, Normal iff A ≤ v ≤ B, both ends inclusive |
| ReportStatus.StatusBetween | src/lib/utils.ts:232-242 | with neither `<` nor `>` in the range, a captured range decides as above |
| ReportStatus.NoComparisonSign | src/lib/utils.ts:214-223 | a captured number holds neither `<` nor `>` |
| ReportStatus.ParseDecimal | src/lib/utils.ts:210 | `parseFloat` of `ip.fp` is the exact decimal it spells |
| ReportStatus.Parse14_2 | src/lib/utils.ts:210 | "14.2" parses to 14.2 |
| ReportStatus.Parse10 | src/lib/utils.ts:210 | "10" parses to 10 |
| ReportStatus.BoundaryExamples | src/lib/utils.ts:214-229 | a value equal to its threshold is never Normal: 10 against "<10" is High, against ">10" Low |
| ReportStatus.BelowExample | src/lib/utils.ts:214-220 | 9 against "<10" is Normal |
| ReportStatus.InsideRangeExample | src/lib/utils.ts:232-242 | 14.2 against "13.0 - 17.0" is Normal |
| ReportStatus.AboveRangeExample | src/lib/utils.ts:232-242 | 18 against "13.0 - 17.0" is High |
| ReportFields.ClassEnd | src/lib/utils.ts:65 | a greedy character-class run: all of it in the class, and it stops at the first character outside it |
| ReportFields.LazyEnd | src/lib/utils.ts:71 | a lazy run ends at the first place where a stop word or the end of the text follows, and stays inside the class |
| ReportFields.CaptureAt | src/lib/utils.ts:65-89 | a capture is a non-empty slice in the class at the value position: the whole run without stop words, the lazy run with them |
| ReportFields.Backtrack | src/lib/utils.ts:65-89 | backtracking into the separators finds the same capture as the first value position whenever that one succeeds |
| Search.Leftmost | src/lib/utils.ts:65 | the start found is in the searched interval and the attempt there succeeds with what is returned |
| Search.LeftmostIsFirst | src/lib/utils.ts:65 | the leftmost match: no earlier start succeeds, and none found means no start succeeds |
| ReportFields.FindField | src/lib/utils.ts:65 | `text.match(re)` gives a position where the label matches and its capture |
| ReportFields.FindFieldIsLeftmost | src/lib/utils.ts:65 | the match found is the leftmost one, and none is found only when no position matches |
| ReportFields.ParsePatientDetails | src/lib/utils.ts:55-95 | each of the five fields is the trimmed capture of its own rule, or null; the NHS number is digits only; name and GP are trimmed |
| ReportFields.NhsDigitsOnly | src/lib/utils.ts:65-68 | the NHS number kept has no whitespace and only digits |
| ReportFields.RemovedSpaceLeavesDigits | src/lib/utils.ts:67 | removing the spaces of a digits-and-spaces capture leaves digits only |
| ReportFields.FieldNeedsLabel | src/lib/utils.ts:65-92 | a field is captured only where its label occurs, followed by a separator |
| ReportFields.NhsLabelWithoutDigits | src/lib/utils.ts:65-68 | "NHS Number: " followed by no digit captures the single space, which gives an empty NHS number |
| ReportTests.SectionEnd | src/lib/utils.ts:101 | the lazy `(.*?)` section stops at the first "Comments", "All results" or end of line |
| ReportTests.Section | src/lib/utils.ts:101-107 | no section without the header "Test Results Test Result Reference Range"; the captured section is trimmed |
| ReportTests.TokensAt | src/lib/utils.ts:110-141 | matching a known test's pattern keeps the groups already captured |
| ReportTests.MatchFrom | src/lib/utils.ts:145 | `match` gives the groups of the known test's pattern at a start where it matches, no earlier start matching; and none only when no start does |
| ReportTests.GroupsCaptured | src/lib/utils.ts:145-149 | a match captures exactly as many groups as the pattern has |
| ReportTests.KnownMatchExists | src/lib/utils.ts:145-146 | a known test with two groups yields a row iff its pattern matches |
| ReportTests.DisplayName | src/lib/utils.ts:147-157 | the name without backslashes and parentheses, the four parenthesised names restored |
| ReportTests.KnownRow | src/lib/utils.ts:159-168 | unit is the catalogue unit, referenceRange the captured range plus " " plus the unit, meaning null, status from the value and the range |
| ReportTests.KnownTier | src/lib/utils.ts:144-170 | at most one row per catalogue entry |
| ReportTests.KnownTierStep | src/lib/utils.ts:144-170 | one iteration of the loop adds the entry's row when it matches and nothing otherwise |
| ReportTests.KnownTierOrder | src/lib/utils.ts:144-170 | the rows come from strictly increasing catalogue positions, each the row of its entry |
| ReportTests.GeneralRow | src/lib/utils.ts:178-198 | the name is trimmed, referenceRange is range plus " " plus rangeUnit, meaning null |
| ReportTests.FallbackTier | src/lib/utils.ts:177-201 | at most one row per match |
| ReportTests.FallbackTierStep | src/lib/utils.ts:177-201 | one iteration adds a row iff the trimmed name passes the filter |
| ReportTests.FallbackFilter | src/lib/utils.ts:185-187 | every fallback row has a name of at least 3 characters without "test" or "result" in any case, and a null meaning |
| ReportTests.FallbackKeepsAll | src/lib/utils.ts:185-199 | when every name passes the filter, every match gives a row |
| ReportTests.KnownRows | src/lib/utils.ts:144-170 | the loop over the catalogue builds exactly the known tier |
| ReportTests.FallbackRows | src/lib/utils.ts:177-201 | the `exec` loop builds exactly the fallback tier |
| ReportTests.ParseTestResults | src/lib/utils.ts:97-204 | no section gives no rows; otherwise the known tier, or the fallback tier when the known tier is empty |
| ReportParser.ParsePathologyReport | src/lib/utils.ts:30-53 | the patient fields and test results are those of the normalised text, each field independent; the NHS number is digits only |
| Uri.EscapeAt | src/app/api/extract-pdf-text/route.ts:54 | `%XX` with two hex digits gives one octet |
| Uri.Continuations | src/app/api/extract-pdf-text/route.ts:54 | a multi-octet sequence needs the right number of `%XX` continuation octets |
| Uri.Decode | src/app/api/extract-pdf-text/route.ts:54 | `decodeURIComponent`: the decoded text is never longer than the input |
| Uri.HexDigit | src/app/api/extract-pdf-text/route.ts:54 | encoding a hex digit decodes back to its value |
| Uri.EscapeOf | src/app/api/extract-pdf-text/route.ts:54 | an octet's escape is three characters and reads back as that octet |
| Uri.Utf8 | src/app/api/extract-pdf-text/route.ts:54 | UTF-8 encodes a character into one to four octets |
| Uri.Encode | src/app/api/extract-pdf-text/route.ts:54 | `encodeURIComponent` never shortens the text |
| Uri.DecodeWithoutPercent | src/app/api/extract-pdf-text/route.ts:54 | a text without `%` decodes to itself |
| Uri.MalformedEscapeFails | src/app/api/extract-pdf-text/route.ts:54 | the first `%` not followed by two hex digits makes decoding throw |
| Uri.DecodeEscapedChar | src/app/api/extract-pdf-text/route.ts:54 | the escapes of a character's UTF-8 octets decode to that character |
| Uri.Utf8Lead | src/app/api/extract-pdf-text/route.ts:54 | the lead octet announces the sequence length; the others are continuation octets |
| Uri.Utf8Decodes | src/app/api/extract-pdf-text/route.ts:54 | the code point read from a multi-octet sequence is the character encoded |
| Uri.DecodeEncode | src/app/api/extract-pdf-text/route.ts:54 | decoding the encoding of any text gives the text back |
| PdfText.ExtractedText | src/app/api/extract-pdf-text/route.ts:44-67 | the flattened text is trimmed, and exists iff every run decodes |
| PdfText.FlattenText | src/app/api/extract-pdf-text/route.ts:44-67 | the three nested loops append exactly the extracted text, or fail as it does |
| PdfText.ConcatAllSucceeds | src/app/api/extract-pdf-text/route.ts:47-61 | concatenating the pieces succeeds iff every piece does |
| PdfText.ConcatAllAppend | src/app/api/extract-pdf-text/route.ts:47-61 | concatenation of pieces distributes over sequence concatenation |
| PdfText.ItemFailsOnlyOnBadRun | src/app/api/extract-pdf-text/route.ts:50-56 | a text item fails iff one of its runs has text that does not decode |
| PdfText.PageFailsOnlyOnBadItem | src/app/api/extract-pdf-text/route.ts:48-59 | a page fails iff one of its items fails |
| PdfText.ExtractionFailsOnlyOnBadRun | src/app/api/extract-pdf-text/route.ts:46-67 | extraction fails iff some page fails |
| PdfText.PageLineBreaks | src/app/api/extract-pdf-text/route.ts:48-59 | a page with a Texts list adds exactly one line break, and a page without one adds none |
| PdfText.OneLineBreakPerPage | src/app/api/extract-pdf-text/route.ts:46-62 | before trimming, the text holds one line break per page that has a Texts list |
| PdfText.ExtractPdfText | src/app/api/extract-pdf-text/route.ts:5-100 | 400 for a missing file or a type other than `application/pdf`; 500 with the parser error or "Failed to extract text from PDF"; otherwise the text, its parsed report, the name and the size |
| SampleIds.Catalogue | src/lib/sampleIdPatterns.ts:9-91 | twelve rules with priorities 1 to 10, 20 and 21 |
| SampleIds.CatalogueAscending | src/lib/sampleIdPatterns.ts:9-91 | the priorities are strictly increasing, so they are distinct and the catalogue is already sorted |
| SampleIds.InsertBy | src/lib/sampleIdPatterns.ts:97 | inserting one rule lengthens the sequence by one |
| SampleIds.SortBy | src/lib/sampleIdPatterns.ts:97 | sorting keeps the length |
| SampleIds.InsertByPermutes | src/lib/sampleIdPatterns.ts:97 | inserting adds exactly that rule |
| SampleIds.InsertBySorted | src/lib/sampleIdPatterns.ts:97 | inserting into a sorted sequence keeps it sorted |
| SampleIds.SortBySortsAndPermutes | src/lib/sampleIdPatterns.ts:97 | the sort is sorted by priority and a permutation of its input |
| SampleIds.SortByOfSorted | src/lib/sampleIdPatterns.ts:97 | sorting a sorted sequence changes nothing, so a second sort leaves the catalogue as it was |
| SampleIds.PatternCatalogue.constructor | src/lib/sampleIdPatterns.ts:9-91 | the shared array holds the catalogue |
| SampleIds.PatternCatalogue.SortPatterns | src/lib/sampleIdPatterns.ts:97 | the array is sorted in place by insertion, to the sort of its old contents |
| SampleIds.PatternCatalogue.InsertNext | src/lib/sampleIdPatterns.ts:97 | one insertion step sorts one more element into the prefix and leaves the rest alone |
| SampleIds.PatternCatalogue.ExtractSampleIdWithPatterns | src/lib/sampleIdPatterns.ts:93-110 | sorts the shared array, then returns the first non-empty capture in priority order, trimmed and without whitespace |
| SampleIds.PatternCatalogue.ExtractAllPossibleSampleIds | src/lib/sampleIdPatterns.ts:113-135 | the candidates of the array's rules, deduplicated by first occurrence and sorted by confidence |
| SampleIds.CollectHits | src/lib/sampleIdPatterns.ts:116-128 | the loop collects one candidate per matching rule, in catalogue order |
| SampleIds.CleanIdTrimsThenStrips | src/lib/sampleIdPatterns.ts:102 | the cleaned id is the capture trimmed, then stripped of whitespace, so it has no whitespace and is trimmed |
| SampleIds.Hit | src/lib/sampleIdPatterns.ts:100-101 | a rule hits iff its match has a non-empty group 1 |
| SampleIds.FindIndex | src/lib/sampleIdPatterns.ts:132 | `findIndex` by id: the first index with that id, or -1 when none has it |
| SampleIds.CatalogueConfidence | src/lib/sampleIdPatterns.ts:120 | each rule's confidence is 22 minus its priority, lies in [1, 21] and strictly decreases along the catalogue |
| SampleIds.ConfidenceAntitone | src/lib/sampleIdPatterns.ts:120 | a larger priority never has a larger confidence; up to 21, strictly smaller |
| SampleIds.FirstMatchIsFirstHit | src/lib/sampleIdPatterns.ts:99-109 | null iff no rule hits; otherwise the hit of a rule with no hit before it |
| SampleIds.NhsSampleIdWins | src/lib/sampleIdPatterns.ts:11-16 | a clean capture of NHS_SAMPLE_ID is the answer for the catalogue |
| SampleIds.ReturnedIdsAreClean | src/lib/sampleIdPatterns.ts:102 | every returned id, in both modes, is trimmed and has no whitespace |
| SampleIds.DedupIsSubset | src/lib/sampleIdPatterns.ts:131-133 | deduplication keeps only candidates that were there |
| SampleIds.DedupDistinct | src/lib/sampleIdPatterns.ts:131-133 | the kept ids are pairwise distinct |
| SampleIds.DedupKeepsFirstOccurrences | src/lib/sampleIdPatterns.ts:131-133 | each kept candidate is the first with its id |
| SampleIds.DedupLosesNoId | src/lib/sampleIdPatterns.ts:131-133 | the first candidate with each id is kept |
| SampleIds.DedupKeepsOrder | src/lib/sampleIdPatterns.ts:131-133 | deduplication keeps a sorted list sorted |
| SampleIds.CollectOrder | src/lib/sampleIdPatterns.ts:116-128 | for rules in priority order the candidates come in non-increasing confidence |
| SampleIds.AllCandidatesAgreeWithPrimary | src/lib/sampleIdPatterns.ts:93-135 | for sorted rules, the list is empty iff the primary answer is null, and its head is the primary answer |
| SampleIds.AllCandidatesShape | src/lib/sampleIdPatterns.ts:131-135 | the list is in non-increasing confidence, its ids are distinct, and it is a permutation of the deduplicated candidates |
| AiReply.MapTestStatus | src/app/api/report-analizer/route.ts:85-94 | the upper-cased status names the result, or the result is NORMAL for any other text |
| AiReply.MapTestStatusOfName | src/app/api/report-analizer/route.ts:85-94 | each status name maps to itself |
| AiReply.MapTestStatusIdempotent | src/app/api/report-analizer/route.ts:85-94 | mapping the name of a mapped status changes nothing |
| AiReply.MapTestStatusIgnoresCase | src/app/api/report-analizer/route.ts:85-94 | lower- or upper-casing the input does not change the status |
| AiReply.MapTestStatusExamples | src/app/api/result-ai/route.ts:295-304 | "High" is HIGH, "low" is LOW, "Borderline" is NORMAL |
| AiReply.RemoveFence | src/app/api/report-analizer/route.ts:555 | removing fences never lengthens the text |
| AiReply.FencesRemoved | src/app/api/report-analizer/route.ts:555 | after the two replacements no three backticks remain |
| AiReply.UnfencedTextKept | src/app/api/report-analizer/route.ts:555 | a text without fences is unchanged |
| AiReply.RemoveControls | src/app/api/report-analizer/route.ts:569 | no character in U+0000–U+001F or U+007F–U+009F remains, and a text without any is unchanged |
| AiReply.FirstIndexOf | src/app/api/report-analizer/route.ts:558 | `indexOf`: the first position of the character, or -1 iff it is absent |
| AiReply.LastIndexOf | src/app/api/report-analizer/route.ts:559 | `lastIndexOf`: the last position of the character, or -1 iff it is absent |
| AiReply.ObjectSpanBounds | src/app/api/report-analizer/route.ts:558-563 | the brace test passes iff some `{` comes before some `}` |
| AiReply.ObjectText | src/app/api/report-analizer/route.ts:558-569 | fails iff there is no `{` before a `}`; otherwise starts with `{`, ends with `}` and has no control characters |
| AiReply.ObjectTextOfObject | src/app/api/report-analizer/route.ts:558-569 | a bare object without control characters is kept whole |
| AiReply.CleanObjectUnchanged | src/app/api/report-analizer/route.ts:552-569 | the whole cleanup keeps a clean object reply as it is |
| AiReply.ReadReply | src/app/api/report-analizer/route.ts:550-579 | any failure of the cleanup or the parse becomes "Failed to parse AI response as JSON"; otherwise the parse of the cleaned text |
| AiReply.Assistant.Ask | src/app/api/result-ai/route.ts:109-227 | the reply is the assistant's answer to the question, and the call is counted |
| Store.Select | src/app/api/report-analizer/route.ts:189-194 | `findMany` with a filter: exactly the stored rows that pass, in store order |
| Store.SelectAppend | src/app/api/report-analizer/route.ts:283-289 | selecting from appended rows selects from each part |
| Store.SelectEmpty | src/app/api/report-analizer/route.ts:196 | nothing is selected iff no row passes |
| Store.StoredUnit | src/app/api/report-analizer/route.ts:246 | `test.unit \|\| null`: null iff the unit is missing or empty |
| Store.RowsFor | src/app/api/report-analizer/route.ts:242-251 | one row per test, with the patient, the sample id, one shared analyzedAt, the mapped status and the stored unit |
| Store.ClashesWithMeaning | src/app/api/report-analizer/route.ts:257-264 | a row clashes iff some row has its key |
| Store.KeysUniqueMeaning | src/app/api/report-analizer/route.ts:257-264 | no two rows share `(patientId, testName, analyzedAt)` |
| Store.NewPatientKeepsInvariant | src/app/api/report-analizer/route.ts:132-139 | creating a patient under a new NHS number with the next id keeps the store invariant |
| Store.Database.constructor | src/app/api/report-analizer/route.ts:112 | an empty store satisfies the invariant |
| Store.Database.RowsWithSample | src/app/api/result-ai/route.ts:56-63 | no row is selected iff no stored row carries the sample id |
| Store.Database.HandlePatient | src/app/api/report-analizer/route.ts:101-143 | by the trimmed NHS number: an existing patient is returned with the store unchanged; otherwise one patient is created with the next id and isNewPatient is true |
| Store.Database.HandleLetter | src/app/api/report-analizer/route.ts:148-173 | afterwards the patient has exactly one letter, holding the new content; isNewLetter iff there was none |
| Store.Database.CreateMany | src/app/api/report-analizer/route.ts:255-280 | all rows are inserted, or none when the batch clashes with a stored row or itself (P2002) or another fault occurs |
| Store.BatchIsSession | src/app/api/report-analizer/route.ts:283-289 | when no row had the timestamp, the rows at it after the insert are the batch |
| Store.BatchIsSample | src/app/api/result-ai/route.ts:374-377 | when no row had the sample id, the rows with it after the insert are the batch |
| ApiResponse.ErrorText | src/app/api/report-analizer/route.ts:629 | `error?.message \|\| 'Internal server error'`: never empty, the message when it has one |
| ReportAnalyzer.UploadError | src/app/api/report-analizer/route.ts:335-353 | accepted iff there is a file of type `application/pdf` of at most 10 MB; otherwise one of the three messages, in that order |
| ReportAnalyzer.Interpret | src/app/api/report-analizer/route.ts:546-584 | an assistant error propagates; a reply that does not parse, or lacks the NHS number, the results or the letter, is rejected before any write |
| ReportAnalyzer.CatchStatus | src/app/api/report-analizer/route.ts:636 | 400 iff the message contains "PDF file", otherwise 500 |
| ReportAnalyzer.KeepNew | src/app/api/report-analizer/route.ts:219-232 | a test is kept iff no recent row has its name, value and unit within one second |
| ReportAnalyzer.NothingRecentKeepsAll | src/app/api/report-analizer/route.ts:219-232 | with no recent rows every test is kept |
| ReportAnalyzer.AllDuplicatesDropped | src/app/api/report-analizer/route.ts:219-239 | when every test is a duplicate nothing is kept |
| ReportAnalyzer.RetryAbsorbed | src/app/api/report-analizer/route.ts:202-239 | rows stored less than a second earlier absorb the same tests |
| ReportAnalyzer.ReplayInsertsNothing | src/app/api/report-analizer/route.ts:189-199 | a second call at the same timestamp inserts nothing and returns the session's rows with count 0 |
| ReportAnalyzer.QuickRetryInsertsNothing | src/app/api/report-analizer/route.ts:202-239 | the same tests sent again within a second insert nothing, count 0 |
| ReportAnalyzer.HandleTestResults | src/app/api/report-analizer/route.ts:178-295 | replay, duplicate filter, insert, and P2002 fallback as the session policy says; only the rows change |
| ReportAnalyzer.SaveToDatabase | src/app/api/report-analizer/route.ts:300-322 | patient, then letter, then results; the filed patient is the stored one or a new record with the next id and the analysis's details, and the answer reports it, the letter as written and whether each was new |
| ReportAnalyzer.Post | src/app/api/report-analizer/route.ts:325-638 | a bad upload gives 400 without asking the assistant or writing; a rejected reply gives the caught status and message with no write; for a valid analysis the patient (the stored one, or a new record with the next id) and letter are filed and no other patient or letter changes, a success answers that patient, the letter, whether each was new and the session policy's rows and count, and a failure is the insert's fault with the rows unchanged |
| ResultAi.RequestError | src/app/api/result-ai/route.ts:412-424 | accepted iff patientDetails, plainText, sampleId and the NHS number are all present; the missing-fields check comes first |
| ResultAi.CheckPatientAndSample | src/app/api/result-ai/route.ts:52-106 | a stored sample id wins, whatever the NHS number; otherwise patientExists iff a patient has the trimmed NHS number |
| ResultAi.ConflictMessage | src/app/api/result-ai/route.ts:434 | the 409 message names both the sample id and the NHS number |
| ResultAi.Interpret | src/app/api/result-ai/route.ts:224-258 | an empty reply is "No response from AI"; a reply that does not parse, or lacks patientDetails, testResults or the letter, is rejected |
| ResultAi.FreshSampleAnswersBatch | src/app/api/result-ai/route.ts:356-380 | for a new sample id the answer is the inserted rows, and the count is the number of tests |
| ResultAi.RepeatedTestNameFails | src/app/api/result-ai/route.ts:358-372 | two tests with one name clash on the row key, so nothing is inserted and the call fails |
| ResultAi.HandleTestResults | src/app/api/result-ai/route.ts:353-381 | every row carries the sample id and one analyzedAt; the answer is the rows with that sample id; only the rows change |
| ResultAi.SaveToDatabase | src/app/api/result-ai/route.ts:383-400 | patient, letter and results as above; an analysis without an NHS number throws before any write |
| ResultAi.Post | src/app/api/result-ai/route.ts:403-477 | 400 before any lookup; 409 for a stored sample id with no assistant call and no write; otherwise one assistant call, 500 with no write for a rejected reply; for a valid analysis without an NHS number 500 with no write; otherwise the patient (the stored one, or a new record with the next id) and letter are filed and no other patient or letter changes, a success answers that patient, the letter and whether each was new and has added exactly the batch of rows it answers, and a failure is 500 with the insert's fault or key clash and the rows unchanged |
| ResultAi.InsertFailure | src/app/api/result-ai/route.ts:370-372 | a failed insert's message is the fault met, or the unique-key clash when there is no other fault |
| ResultAi.StoredSampleIsTaken | src/app/api/result-ai/route.ts:429-436 | once a success has recorded at least one result of a sample, the same sample id is refused |
| Upload.FieldError | src/hooks/usePdfUpload.ts:91-105 | the sample id, NHS number, name and a non-empty results list are checked in that order, and the first missing one gives the message |
| Upload.OrNotSpecified | src/hooks/usePdfUpload.ts:121-122 | the field when it is non-empty, "Not specified" otherwise |
| Upload.PayloadOf | src/hooks/usePdfUpload.ts:117-128 | both sample id slots hold the report's sample id; date of birth and GP default to "Not specified"; the plain text is the report's JSON |
| Upload.PayloadPassesRouteChecks | src/hooks/usePdfUpload.ts:91-128 | a payload built from a report that passes the field checks passes the result-ai route's request checks |
| Upload.AnalyzerError | src/hooks/usePdfUpload.ts:144-153 | a 409 keeps the route's message behind "This report has already been processed. "; other errors pass through, with a default |
| Upload.Outcome | src/hooks/usePdfUpload.ts:49-209 | an upload sets at least two stages; it succeeds iff it reaches the fifth |
| Upload.SuccessStagesIncrease | src/hooks/usePdfUpload.ts:51-162 | the stage percentages strictly increase from 5 to 100 |
| Upload.TraceShape | src/hooks/usePdfUpload.ts:49-208 | every upload begins validating and extracting; a success ends at Complete, a failure at the error stage with 0 and its message |
| Upload.Uploader.constructor | src/hooks/usePdfUpload.ts:40-44 | idle at 0, not uploading |
| Upload.Uploader.ResetProgress | src/hooks/usePdfUpload.ts:211-216 | back to idle at 0 |
| Upload.Uploader.SetProgress | src/hooks/usePdfUpload.ts:51-55 | the progress shown is the one set |
| Upload.Uploader.UploadPdf | src/hooks/usePdfUpload.ts:49-209 | resolves to the outcome, sets exactly its stages in order, shows the last one, and is not uploading afterwards |
| PageHeader.Capitalise | src/hooks/use-page-header.ts:50 | the first character upper-cased, the rest kept |
| PageHeader.HyphensToSpaces | src/hooks/use-page-header.ts:58 | each hyphen becomes a space, nothing else changes |
| PageHeader.NonEmpty | src/hooks/use-page-header.ts:55 | `filter(Boolean)`: exactly the non-empty parts |
| PageHeader.SegmentTitle | src/hooks/use-page-header.ts:58 | a segment's title has its length |
| PageHeader.TitleFromUrl | src/hooks/use-page-header.ts:36-62 | never empty; a fixed route's own title wins |
| PageHeader.SplitAppend | src/hooks/use-page-header.ts:48 | splitting at a separator splits the two sides apart |
| PageHeader.PatientTitle | src/hooks/use-page-header.ts:43-45 | every path below /patient/ is "Patient Details" |
| PageHeader.ResultsTitle | src/hooks/use-page-header.ts:47-52 | below /results/, the capitalised second segment followed by " Results" |
| PageHeader.NestedTitle | src/hooks/use-page-header.ts:55-59 | otherwise the last non-empty segment, capitalised, with hyphens read as spaces; trailing slashes are ignored |
| PageHeader.NoSegmentIsDashboard | src/hooks/use-page-header.ts:61 | a path of slashes only that is not a fixed route is "Dashboard" |
| PageHeader.FixedTitleExample | src/hooks/use-page-header.ts:27 | "/results/pathology" is "Pathology Results" |
| PageHeader.AutoTitle.constructor | src/hooks/use-page-header.ts:67 | the last path seen starts empty |
| PageHeader.AutoTitle.Effect | src/hooks/use-page-header.ts:69-75 | the title is set, to the pathname's title, only when the pathname changed |
| NavGroup.HasActiveSubItem | src/components/layout/nav-group.tsx:39-41 | true iff some sub-item is active |
| NavGroup.ActiveExamples | src/components/layout/nav-group.tsx:34-37 | "/results" is active on "/results" and "/results/mri" but not "/resultsx"; no url or an empty one is never active |
| NavGroup.ParentActive | src/components/layout/nav-group.tsx:36 | wherever an item is active, so is an item whose url is its ancestor |
| NavGroup.Toggled | src/components/layout/nav-group.tsx:50 | toggling adds the key and keeps every other key |
| NavGroup.ToggleFlipsOnlyKey | src/components/layout/nav-group.tsx:50-62 | the key flips, an absent key counting as closed; every other key keeps its value |
| NavGroup.ToggleTwice | src/components/layout/nav-group.tsx:50-62 | toggling twice leaves every item as open as it was |
| NavGroup.NavGroupState.constructor | src/components/layout/nav-group.tsx:47 | no item is open at first |
| NavGroup.NavGroupState.ToggleOpen | src/components/layout/nav-group.tsx:49-51 | the open items become the toggled map |
| NavGroup.NavGroupState.Click | src/components/layout/nav-group.tsx:71 | only an item with children toggles |
| NavGroup.Collapsible.constructor | src/components/layout/nav-group.tsx:181-184 | the item starts open iff one of its links is active |
| NavGroup.Collapsible.Effect | src/components/layout/nav-group.tsx:198-202 | an active item is open afterwards; nothing else changes |
| NavGroup.Collapsible.OpenChange | src/components/layout/nav-group.tsx:205 | the user's choice is the new state |

## Left out

- The assistant's internals are not modelled: the vector store, assistant and thread creation, the run-polling loop with its 60-second timeout, chat completions, the prompt text and the cleanup of the assistant's resources. These are calls over the network. The assistant is a fixed function from question to reply.
- pdf2json's parsing of PDF bytes is a foreign library. Only the flattening of its page/text/run tree is modelled.
- `parseDate`, `new Date()` and `Date.now()` depend on JavaScript dates and the system clock. The clock is an integer millisecond parameter, and a date of birth is stored as its text.
- `processingTime` and the `meta` block of the answers are not modelled.
- ReportStatus.ParseFloat: values are exact decimals (reals), not IEEE-754 doubles, so rounding is not modelled; `Infinity`, signs and exponents are read as `parseFloat` reads them.
- The fallback `generalPattern` of `parseTestResults` is not written out. Its lazy quantifier and backtracking over five groups are taken as a parameter that lists its successive matches.
- The twelve sample-id regular expressions are not written out: each is a matcher from pattern name and text to a capture.
- The `description` strings of the sample-id patterns and the console logging are not modelled.
- Prisma's `orderBy: { testName: 'asc' }` is not modelled. The rows are returned in store order, and the `select` and `include` projections are left out.
- Store.Database.HandlePatient, Store.Database.HandleLetter: a failure of the patient or letter write itself is not modelled. Only `createMany` can fail, through its key clash or an injected fault.
- Concurrency is not modelled. The P2002 race between two requests appears only as an injected `createMany` fault.
- ResultAi.Post: a body that `request.json()` cannot parse is not modelled (the route then answers 500 with the parser's message); the request arrives already parsed.
- ReportAnalyzer.Post: a body that `request.formData()` cannot read is not modelled (the catch block then answers with the parser's message); the upload arrives already read.
- PdfText.ExtractPdfText: a body that `request.formData()` cannot read is not modelled (the catch block then answers 500 "Failed to parse PDF" with the message as details); the upload arrives already read.
- JSON values of the wrong type are not modelled, in a request body or in the assistant's analysis: every field is text or absent. In particular a result whose `status` is not a string, on which `mapTestStatus` throws after the patient and letter are written, does not arise.
- Strings are sequences of Unicode scalar values: the lone surrogates a JavaScript string may hold, and lengths counted in UTF-16 code units, are not modelled.
- Text.Upper, Text.Lower, PageHeader.Capitalise, PageHeader.SegmentTitle, PageHeader.TitleFromUrl: only the case mapping of ASCII letters, plus the two characters whose upper case is an ASCII letter (U+0131 and U+017F), is modelled. Full Unicode case mapping is not. This is enough for the four status names, and it is weaker than `toUpperCase` for titles with other letters. In particular, the claim that a segment's title keeps the segment's length holds only under this mapping: JavaScript's `"ß".toUpperCase()` is `"SS"`.
- `urlToTitleMap` is read as a plain object, so JavaScript would also find keys inherited from the object prototype. The model does not: only the ten entries of the map count, and a path that names an inherited property is titled like any other path.
- Network failures of `fetch` in `usePdfUpload` are not modelled, and neither is an extraction answer without `success` or `parsedData`. The extraction route always sends both when it succeeds.
- `usePdfUpload` also invalidates queries and holds a router. Neither changes its result, so neither is modelled.
- Upload.Uploader.UploadPdf: of the analyzer's `data`, only the saved records are kept. The rest of the spread (and `processingTime`) is not modelled.
- `useSetPageHeader`, `useSetHeaderContent` and every rendering concern are not modelled.
- The nav item key `${title}-${index}` is taken as a parameter.

=== FILE: ai_reply.dfy ===
/** What both reconciliation routes do with the assistant's reply: strip the
    markdown code fences, cut out the outermost JSON object, drop control
    characters, hand the text to a JSON parser and map each status word onto
    the stored enumeration. The assistant itself is a collaborator seen only
    through the text it returns. */
module AiReply {
  import opened Wrappers
  import opened Text

  // ---------------------------------------------------------------------
  // Test status
  // ---------------------------------------------------------------------

  datatype TestStatus = NORMAL | HIGH | LOW | CRITICAL

  function StatusName(s: TestStatus): string {
    match s
    case NORMAL => "NORMAL"
    case HIGH => "HIGH"
    case LOW => "LOW"
    case CRITICAL => "CRITICAL"
  }

  /** `mapTestStatus`: the upper-cased word names a status, and any word that
      names none of them stands for NORMAL. */
  function MapTestStatus(status: string): (s: TestStatus)
    ensures Upper(status) == StatusName(s)
            || (s == NORMAL && Upper(status) !in {"HIGH", "LOW", "CRITICAL"})
  {
    var normalized := Upper(status);
    if normalized == "NORMAL" then NORMAL
    else if normalized == "HIGH" then HIGH
    else if normalized == "LOW" then LOW
    else if normalized == "CRITICAL" then CRITICAL
    else NORMAL
  }

  lemma UpperOfName(s: TestStatus)
    ensures Upper(StatusName(s)) == StatusName(s)
  {
    var n := StatusName(s);
    assert forall i :: 0 <= i < |n| ==> 'A' <= n[i] <= 'Z';
  }

  /** Each status name maps back onto its own status. */
  lemma MapTestStatusOfName(s: TestStatus)
    ensures MapTestStatus(StatusName(s)) == s
  {
    UpperOfName(s);
  }

  /** Mapping is idempotent: feeding the stored name back in changes nothing. */
  lemma MapTestStatusIdempotent(status: string)
    ensures MapTestStatus(StatusName(MapTestStatus(status))) == MapTestStatus(status)
  {
    MapTestStatusOfName(MapTestStatus(status));
  }

  lemma UpperCharIgnoresCase(c: char)
    ensures UpperChar(LowerChar(c)) == UpperChar(c)
    ensures UpperChar(UpperChar(c)) == UpperChar(c)
  {
    if 'A' <= c <= 'Z' {
      assert LowerChar(c) as int == c as int + 32;
    }
  }

  lemma UpperIgnoresCase(s: string)
    ensures Upper(Lower(s)) == Upper(s)
    ensures Upper(Upper(s)) == Upper(s)
  {
    var u, l, uu, ul := Upper(s), Lower(s), Upper(Upper(s)), Upper(Lower(s));
    forall i | 0 <= i < |s| ensures ul[i] == u[i] && uu[i] == u[i] {
      UpperCharIgnoresCase(s[i]);
    }
  }

  /** Mapping ignores case: the lower-cased and the upper-cased word map
      where the word itself does. */
  lemma MapTestStatusIgnoresCase(status: string)
    ensures MapTestStatus(Lower(status)) == MapTestStatus(status)
    ensures MapTestStatus(Upper(status)) == MapTestStatus(status)
  {
    UpperIgnoresCase(status);
  }

  lemma MapTestStatusExamples()
    ensures MapTestStatus("High") == HIGH
    ensures MapTestStatus("low") == LOW
    ensures MapTestStatus("Borderline") == NORMAL
  {
    assert Upper("High") == "HIGH";
    assert Upper("low") == "LOW";
    assert Upper("Borderline")[0] == 'B';
  }

  // ---------------------------------------------------------------------
  // Code fences
  // ---------------------------------------------------------------------

  const JsonFence := "```json"
  const Fence := "```"

  /** `s.replace(/<fence>\s*\/g, '')`: scanning from the left, every
      occurrence of the fence is removed together with the whitespace run
      that follows it. */
  function RemoveFence(s: string, fence: string): (r: string)
    requires fence != []
    ensures |r| <= |s|
    decreases |s|
  {
    if s == [] then []
    else if StartsWith(s, fence) then RemoveFence(DropLeadingWhitespace(s[|fence|..]), fence)
    else [s[0]] + RemoveFence(s[1..], fence)
  }

  /** No three backticks in a row. */
  predicate NoFence(s: string) {
    forall i :: 0 <= i < |s| - 2 ==> !(s[i] == '`' && s[i + 1] == '`' && s[i + 2] == '`')
  }

  /** Both passes of the fence removal, after the outer `trim`. */
  function Unfenced(reply: string): string {
    RemoveFence(RemoveFence(Trim(reply), JsonFence), Fence)
  }

  lemma FenceKeepsHead(s: string)
    requires s != [] && s[0] != '`'
    ensures RemoveFence(s, Fence) != [] && RemoveFence(s, Fence)[0] == s[0]
  {
    assert !StartsWith(s, Fence) by {
      if |s| >= 3 {
        assert s[..3][0] == s[0];
      }
    }
  }

  /** After the second pass no fence is left anywhere in the text. */
  lemma {:induction false} FencesRemoved(s: string)
    ensures NoFence(RemoveFence(s, Fence))
    decreases |s|
  {
    if s == [] {
    } else if StartsWith(s, Fence) {
      FencesRemoved(DropLeadingWhitespace(s[3..]));
    } else {
      var rest := RemoveFence(s[1..], Fence);
      FencesRemoved(s[1..]);
      assert RemoveFence(s, Fence) == [s[0]] + rest;
      if s[0] == '`' {
        NoBacktickPairAfter(s);
      }
      ConsNoFence(s[0], rest);
    }
  }

  /** When the text opens with a backtick but not with a fence, what the
      removal keeps after that backtick does not open with two more. */
  lemma NoBacktickPairAfter(s: string)
    requires s != [] && s[0] == '`' && !StartsWith(s, Fence)
    ensures var rest := RemoveFence(s[1..], Fence);
            |rest| < 2 || !(rest[0] == '`' && rest[1] == '`')
  {
    var t := s[1..];
    if |t| == 0 {
    } else if t[0] != '`' {
      FenceKeepsHead(t);
    } else if |t| == 1 {
      assert !StartsWith(t, Fence);
      assert RemoveFence(t, Fence) == [t[0]] + RemoveFence(t[1..], Fence);
      assert t[1..] == [];
    } else {
      assert s[..3][0] == '`' && s[..3][1] == '`' && s[..3] != Fence;
      assert s[2] != '`';
      assert !StartsWith(t, Fence) by {
        if |t| >= 3 {
          assert t[..3][1] == t[1] == s[2];
        }
      }
      assert t[1..] == s[2..];
      FenceKeepsHead(s[2..]);
      assert RemoveFence(t, Fence) == [t[0]] + RemoveFence(s[2..], Fence);
    }
  }

  lemma ConsNoFence(c: char, rest: string)
    requires NoFence(rest)
    requires c == '`' ==> |rest| < 2 || !(rest[0] == '`' && rest[1] == '`')
    ensures NoFence([c] + rest)
  {
    var r := [c] + rest;
    forall i | 0 <= i < |r| - 2
      ensures !(r[i] == '`' && r[i + 1] == '`' && r[i + 2] == '`')
    {
      if i > 0 {
        assert r[i] == rest[i - 1] && r[i + 1] == rest[i] && r[i + 2] == rest[i + 1];
      } else {
        assert r[1] == rest[0] && r[2] == rest[1];
      }
    }
  }

  /** A text holding no three backticks in a row is left as it is. */
  lemma {:induction false} UnfencedTextKept(s: string, fence: string)
    requires |fence| >= 3 && fence[..3] == Fence && NoFence(s)
    ensures RemoveFence(s, fence) == s
    decreases |s|
  {
    if s != [] {
      assert !StartsWith(s, fence) by {
        if |fence| <= |s| {
          assert s[..|fence|][..3] == s[..3];
          assert !(s[0] == '`' && s[1] == '`' && s[2] == '`');
          assert s[..3][0] == s[0] && s[..3][1] == s[1] && s[..3][2] == s[2];
          assert s[..3] != Fence;
        }
      }
      assert NoFence(s[1..]) by {
        forall i | 0 <= i < |s[1..]| - 2
          ensures !(s[1..][i] == '`' && s[1..][i + 1] == '`' && s[1..][i + 2] == '`')
        {
          assert s[1..][i] == s[i + 1];
        }
      }
      UnfencedTextKept(s[1..], fence);
      assert s == [s[0]] + s[1..];
    }
  }

  // ---------------------------------------------------------------------
  // JSON slice
  // ---------------------------------------------------------------------

  /** The characters U+0000–U+001F and U+007F–U+009F. */
  predicate IsControl(c: char) {
    c <= '\U{1F}' || ('\U{7F}' <= c <= '\U{9F}')
  }

  predicate NoControls(s: string) {
    forall i :: 0 <= i < |s| ==> !IsControl(s[i])
  }

  /** `s.replace(/[\u0000-\u001F\u007F-\u009F]/g, '')` */
  function RemoveControls(s: string): (r: string)
    ensures NoControls(r) && |r| <= |s|
    ensures NoControls(s) ==> r == s
    ensures |s| > 0 && !IsControl(s[0]) ==> |r| > 0 && r[0] == s[0]
    ensures |s| > 0 && !IsControl(s[|s| - 1]) ==> |r| > 0 && r[|r| - 1] == s[|s| - 1]
  {
    if s == [] then []
    else if IsControl(s[0]) then RemoveControls(s[1..])
    else [s[0]] + RemoveControls(s[1..])
  }

  /** `s.indexOf(c)` */
  function FirstIndexOf(s: string, c: char): (i: int)
    ensures -1 <= i < |s|
    ensures i == -1 <==> c !in s
    ensures i >= 0 ==> s[i] == c && forall k :: 0 <= k < i ==> s[k] != c
  {
    if s == [] then -1
    else if s[0] == c then 0
    else
      var k := FirstIndexOf(s[1..], c);
      if k == -1 then -1 else k + 1
  }

  /** `s.lastIndexOf(c)` */
  function LastIndexOf(s: string, c: char): (i: int)
    ensures -1 <= i < |s|
    ensures i == -1 <==> c !in s
    ensures i >= 0 ==> s[i] == c && forall k :: i < k < |s| ==> s[k] != c
  {
    if s == [] then -1
    else if s[|s| - 1] == c then |s| - 1
    else LastIndexOf(s[..|s| - 1], c)
  }

  /** Some '{' comes before some '}'. */
  predicate HasObjectSpan(t: string) {
    exists i, k :: 0 <= i < k < |t| && t[i] == '{' && t[k] == '}'
  }

  /** The first '{' comes before the last '}' exactly when some '{' comes
      before some '}'. */
  lemma ObjectSpanBounds(t: string)
    ensures HasObjectSpan(t) <==>
      (FirstIndexOf(t, '{') != -1 && LastIndexOf(t, '}') != -1 && FirstIndexOf(t, '{') < LastIndexOf(t, '}'))
  {
    var start := FirstIndexOf(t, '{');
    var end := LastIndexOf(t, '}');
    if HasObjectSpan(t) {
      var i, k :| 0 <= i < k < |t| && t[i] == '{' && t[k] == '}';
      assert t[i] in t && t[k] in t;
      assert start <= i && k <= end;
    }
    if start != -1 && end != -1 && start < end {
      assert t[start] == '{' && t[end] == '}';
    }
  }

  /** From the first '{' to the last '}' of `t`, control characters removed;
      None where the route throws "No valid JSON object found". */
  function ObjectText(t: string): (r: Option<string>)
    ensures r.None? <==> !HasObjectSpan(t)
    ensures r.Some? ==> var j := r.value;
      |j| >= 2 && j[0] == '{' && j[|j| - 1] == '}' && NoControls(j)
  {
    var start := FirstIndexOf(t, '{');
    var end := LastIndexOf(t, '}');
    ObjectSpanBounds(t);
    if start == -1 || end == -1 || start >= end then None
    else
      var slice := t[start..end + 1];
      assert slice[0] == '{' && slice[|slice| - 1] == '}';
      Some(RemoveControls(slice))
  }

  /** The whole cleanup of a reply. */
  function JsonSlice(reply: string): Option<string> {
    ObjectText(Unfenced(reply))
  }

  lemma ObjectTextOfObject(t: string)
    requires |t| >= 2 && t[0] == '{' && t[|t| - 1] == '}' && NoControls(t)
    ensures ObjectText(t) == Some(t)
  {
    assert FirstIndexOf(t, '{') == 0;
    assert LastIndexOf(t, '}') == |t| - 1;
    assert t[0..|t|] == t;
  }

  lemma TrimmedKept(s: string)
    requires IsTrimmed(s)
    ensures Trim(s) == s
  {
    assert DropLeadingWhitespace(s) == s;
    assert DropTrailingWhitespace(s) == s;
  }

  /** A reply that already is a bare JSON object (no surrounding whitespace,
      no fence, no control character) is passed on unchanged. */
  lemma CleanObjectUnchanged(reply: string)
    requires |reply| >= 2 && reply[0] == '{' && reply[|reply| - 1] == '}'
    requires NoFence(reply) && NoControls(reply)
    ensures JsonSlice(reply) == Some(reply)
  {
    assert IsTrimmed(reply);
    TrimmedKept(reply);
    UnfencedTextKept(reply, JsonFence);
    UnfencedTextKept(reply, Fence);
    assert Unfenced(reply) == reply;
    ObjectTextOfObject(reply);
  }

  // ---------------------------------------------------------------------
  // Parsed reply
  // ---------------------------------------------------------------------

  datatype AiPatient = AiPatient(nhsNumber: Option<string>, name: string, dateOfBirth: string, gp: string)

  datatype AiTest = AiTest(
    testName: string, value: string, unit: Option<string>,
    referenceRange: string, status: string, meaning: string)

  /** The object `JSON.parse` returns; a field the reply does not carry is None. */
  datatype Analysis = Analysis(
    patientDetails: Option<AiPatient>,
    testResults: Option<seq<AiTest>>,
    doctorsLetter: Option<string>)

  /** `JSON.parse`, None where it throws. */
  type JsonParser = string -> Option<Analysis>

  const ParseFailure := "Failed to parse AI response as JSON"
  const InvalidStructure := "Invalid response structure from AI"

  /** JavaScript truthiness of an optional string: present and non-empty. */
  predicate Truthy(o: Option<string>) {
    o.Some? && o.value != ""
  }

  /** The try-block around cleanup and `JSON.parse`: any failure in it is
      rethrown as one message. */
  function ReadReply(reply: string, parse: JsonParser): (r: Result<Analysis, string>)
    ensures r.Err? <==> JsonSlice(reply).None? || parse(JsonSlice(reply).value).None?
    ensures r.Err? ==> r.error == ParseFailure
    ensures r.Ok? ==> Some(r.value) == parse(JsonSlice(reply).value)
  {
    match JsonSlice(reply)
    case None => Err(ParseFailure)
    case Some(json) =>
      match parse(json)
      case None => Err(ParseFailure)
      case Some(a) => Ok(a)
  }

  /** The assistant: whatever it is asked, it answers with reply text or
      fails with an error message. It counts the times it was asked. */
  class Assistant<Question> {
    const respond: Question -> Result<string, string>
    var calls: nat

    constructor(respond: Question -> Result<string, string>)
      ensures this.respond == respond && calls == 0
    {
      this.respond := respond;
      calls := 0;
    }

    method Ask(question: Question) returns (reply: Result<string, string>)
      modifies this
      ensures reply == respond(question)
      ensures calls == old(calls) + 1
    {
      reply := respond(question);
      calls := calls + 1;
    }
  }
}

=== FILE: api_response.dfy ===
/** The JSON body both reconciliation routes answer with. */
module ApiResponse {
  import opened Wrappers
  import opened Text
  import opened Store

  /** What `handleTestResults` returns. */
  datatype TestBatch = TestBatch(testResults: seq<ResultRow>, newTestResultsCount: nat)

  /** What `saveToDatabase` returns. */
  datatype SaveResult = SaveResult(
    patient: Patient, letter: Letter, testResults: seq<ResultRow>,
    isNewPatient: bool, isNewLetter: bool, newTestResultsCount: nat)

  /** The patient `handlePatient` files for `details`, given the patients and
      the next id before it: the one already filed under the trimmed NHS
      number, or else a new record with the next id and the given details. */
  function FiledPatient(patients: map<string, Patient>, nextId: nat, details: PatientDetails): Patient {
    var key := Trim(details.nhsNumber);
    if key in patients then patients[key]
    else Patient(nextId, key, details.name, details.dateOfBirth, details.gp)
  }

  /** The answer of a save against the patients, letters and next id before
      it: the filed patient, the letter as written for that patient, and
      whether each was new. */
  predicate SavedAs(patients: map<string, Patient>, letters: map<nat, Letter>, nextId: nat,
                    details: PatientDetails, content: string, data: SaveResult)
  {
    && data.patient == FiledPatient(patients, nextId, details)
    && data.isNewPatient == (Trim(details.nhsNumber) !in patients)
    && data.letter == Letter(data.patient.id, content)
    && data.isNewLetter == (data.patient.id !in letters)
  }

  /** The outcome of the results step inside the outcome of the save. */
  function BatchOf(r: Result<SaveResult, string>): Result<TestBatch, string> {
    match r
    case Err(m) => Err(m)
    case Ok(d) => Ok(TestBatch(d.testResults, d.newTestResultsCount))
  }

  /** `{ success: false, error }` with its HTTP status, or `{ success: true, data }`.
      The `meta` block (model name, processing time, timestamp) is not modelled. */
  datatype Response = Failure(status: nat, error: string) | Success(data: SaveResult)

  const InternalError := "Internal server error"

  /** `error?.message || 'Internal server error'` */
  function ErrorText(message: string): (e: string)
    ensures e != ""
    ensures message != "" ==> e == message
  {
    if message == "" then InternalError else message
  }
}

=== FILE: nav_group.dfy ===
/** The sidebar's navigation group: which items are active for the current
    path, which collapsible items are open, and how clicks and navigation
    change that. */
module NavGroup {
  import opened Wrappers
  import opened Text

  /** A link of a collapsible item. */
  datatype SubItem = SubItem(title: string, url: string)

  /** `isItemActive`: an item with no url, or an empty one, is never active;
      otherwise it is active on its own path and on every path below it. */
  predicate IsItemActive(url: Option<string>, currentPath: string) {
    url.Some? && url.value != "" && (currentPath == url.value || StartsWith(currentPath, url.value + "/"))
  }

  /** `hasActiveSubItem`: `items.some(...)`, scanning from the first. */
  function HasActiveSubItem(items: seq<SubItem>, currentPath: string): (b: bool)
    ensures b <==> exists i :: 0 <= i < |items| && IsItemActive(Some(items[i].url), currentPath)
  {
    if items == [] then false
    else if IsItemActive(Some(items[0].url), currentPath) then true
    else
      var rest := HasActiveSubItem(items[1..], currentPath);
      assert forall i :: 1 <= i < |items| ==> items[i] == items[1..][i - 1];
      rest
  }

  /** An item is active on its own path, and on the paths below it but not
      on a path that merely extends its last segment. */
  lemma ActiveExamples()
    ensures IsItemActive(Some("/results"), "/results")
    ensures IsItemActive(Some("/results"), "/results/mri")
    ensures !IsItemActive(Some("/results"), "/resultsx")
    ensures !IsItemActive(None, "/results") && !IsItemActive(Some(""), "/results")
  {
    assert "/results/mri"[..9] == "/results/";
    assert "/resultsx"[..9] != "/results/" by {
      assert "/resultsx"[8] != "/results/"[8];
    }
  }

  /** Wherever an item is active, so is every item whose url is an ancestor
      of its url. */
  lemma ParentActive(parent: string, child: string, currentPath: string)
    requires parent != ""
    requires IsItemActive(Some(parent + "/" + child), currentPath)
    ensures IsItemActive(Some(parent), currentPath)
  {
    var url := parent + "/" + child;
    assert url[..|parent| + 1] == parent + "/";
    if currentPath == url {
      assert currentPath[..|parent| + 1] == parent + "/";
    } else {
      assert currentPath[..|url| + 1] == url + "/";
      assert currentPath[..|parent| + 1] == (url + "/")[..|parent| + 1];
    }
  }

  // ---------------------------------------------------------------------
  // openItems
  // ---------------------------------------------------------------------

  /** `openItems[key] || false` */
  function IsOpen(openItems: map<string, bool>, key: string): bool {
    key in openItems && openItems[key]
  }

  /** `{ ...prev, [key]: !prev[key] }` */
  function Toggled(openItems: map<string, bool>, key: string): (r: map<string, bool>)
    ensures r.Keys == openItems.Keys + {key}
  {
    openItems[key := !IsOpen(openItems, key)]
  }

  /** Toggling flips the given key, an absent key counting as closed, and
      leaves every other key as it was. */
  lemma ToggleFlipsOnlyKey(openItems: map<string, bool>, key: string, other: string)
    ensures IsOpen(Toggled(openItems, key), key) == !IsOpen(openItems, key)
    ensures other != key ==> IsOpen(Toggled(openItems, key), other) == IsOpen(openItems, other)
    ensures other != key && other in openItems ==> Toggled(openItems, key)[other] == openItems[other]
  {
  }

  /** Toggling twice leaves every item as open as it was. */
  lemma ToggleTwice(openItems: map<string, bool>, key: string, other: string)
    ensures IsOpen(Toggled(Toggled(openItems, key), key), other) == IsOpen(openItems, other)
  {
    ToggleFlipsOnlyKey(openItems, key, other);
    ToggleFlipsOnlyKey(Toggled(openItems, key), key, other);
  }

  /** The state of `NavGroup`. */
  class NavGroupState {
    var openItems: map<string, bool>

    constructor()
      ensures openItems == map[]
    {
      openItems := map[];
    }

    /** `toggleOpen` */
    method ToggleOpen(key: string)
      modifies this
      ensures openItems == Toggled(old(openItems), key)
    {
      openItems := openItems[key := !IsOpen(openItems, key)];
    }

    /** A click on an item: only an item with children toggles. */
    method Click(key: string, hasChildren: bool)
      modifies this
      ensures hasChildren ==> openItems == Toggled(old(openItems), key)
      ensures !hasChildren ==> openItems == old(openItems)
    {
      if hasChildren {
        ToggleOpen(key);
      }
    }
  }

  // ---------------------------------------------------------------------
  // SidebarMenuCollapsible
  // ---------------------------------------------------------------------

  /** The open state of one collapsible item. */
  class Collapsible {
    var isOpen: bool

    /** The item starts open exactly when one of its links is active. */
    constructor(items: seq<SubItem>, currentPath: string)
      ensures isOpen == HasActiveSubItem(items, currentPath)
    {
      isOpen := HasActiveSubItem(items, currentPath);
    }

    /** The effect after each render: an active item that is closed is
        opened; nothing else changes. */
    method Effect(items: seq<SubItem>, currentPath: string)
      modifies this
      ensures isOpen == (old(isOpen) || HasActiveSubItem(items, currentPath))
      ensures HasActiveSubItem(items, currentPath) ==> isOpen
    {
      var isActive := HasActiveSubItem(items, currentPath);
      if isActive && !isOpen {
        isOpen := true;
      }
    }

    /** `onOpenChange`: the user opens or closes the item. */
    method OpenChange(open: bool)
      modifies this
      ensures isOpen == open
    {
      isOpen := open;
    }
  }
}

=== FILE: page_header.dfy ===
/** The page title the header shows for a pathname, and the effect that
    keeps it in step with navigation. */
module PageHeader {
  import opened Text

  /** The titles of the fixed routes. */
  const UrlTitles: map<string, string> := map[
    "/" := "Dashboard",
    "/home" := "Home",
    "/patients" := "Patients",
    "/results" := "Results",
    "/results/pathology" := "Pathology Results",
    "/results/radiology" := "Radiology Results",
    "/results/laboratory" := "Laboratory Results",
    "/upload" := "Upload Results",
    "/settings" := "Settings",
    "/profile" := "Profile"]

  /** `s.charAt(0).toUpperCase() + s.slice(1)` */
  function Capitalise(s: string): (r: string)
    ensures |r| == |s|
    ensures s != [] ==> r[0] == UpperChar(s[0]) && r[1..] == s[1..]
  {
    if s == [] then [] else [UpperChar(s[0])] + s[1..]
  }

  /** `s.replace(/-/g, ' ')` */
  function HyphensToSpaces(s: string): (r: string)
    ensures |r| == |s|
    ensures forall i :: 0 <= i < |s| ==> r[i] == (if s[i] == '-' then ' ' else s[i])
  {
    seq(|s|, i requires 0 <= i < |s| => if s[i] == '-' then ' ' else s[i])
  }

  /** `parts.filter(Boolean)`: the non-empty parts, in order. */
  function NonEmpty(parts: seq<string>): (r: seq<string>)
    ensures forall k :: 0 <= k < |r| ==> r[k] != []
    ensures forall p :: p in r <==> p in parts && p != []
  {
    if parts == [] then []
    else if parts[0] == [] then NonEmpty(parts[1..])
    else [parts[0]] + NonEmpty(parts[1..])
  }

  /** The title of the last non-empty segment: first character upper-cased,
      the hyphens after it turned into spaces. */
  function SegmentTitle(segment: string): (r: string)
    ensures |r| == |segment|
  {
    if segment == [] then [] else [UpperChar(segment[0])] + HyphensToSpaces(segment[1..])
  }

  /** `generateTitleFromUrl`: a fixed route's own title; "Patient Details"
      under /patient/; the capitalised second segment and " Results" under
      /results/ when that segment is not empty; otherwise the title of the
      last non-empty segment, and "Dashboard" when there is none. */
  function TitleFromUrl(pathname: string): (title: string)
    ensures title != ""
    ensures pathname in UrlTitles ==> title == UrlTitles[pathname]
  {
    var parts := Split(pathname, '/');
    var segments := NonEmpty(parts);
    if pathname in UrlTitles then UrlTitles[pathname]
    else if StartsWith(pathname, "/patient/") then "Patient Details"
    else if StartsWith(pathname, "/results/") && |parts| > 2 && parts[2] != [] then
      Capitalise(parts[2]) + " Results"
    else if segments != [] then SegmentTitle(segments[|segments| - 1])
    else "Dashboard"
  }

  // ---------------------------------------------------------------------
  // Splitting on '/'
  // ---------------------------------------------------------------------

  /** Splitting at a separator splits the two sides apart. */
  lemma {:induction false} SplitAppend(a: string, b: string, sep: char)
    ensures Split(a + [sep] + b, sep) == Split(a, sep) + Split(b, sep)
    decreases |a|
  {
    var s := a + [sep] + b;
    if a == [] {
      assert s == [sep] + b;
      assert s[1..] == b;
    } else {
      assert s[1..] == a[1..] + [sep] + b;
      SplitAppend(a[1..], b, sep);
    }
  }

  /** A string without the separator is one part. */
  lemma {:induction false} SplitWhole(s: string, sep: char)
    requires sep !in s
    ensures Split(s, sep) == [s]
    decreases |s|
  {
    if s != [] {
      SplitWhole(s[1..], sep);
      assert s == [s[0]] + s[1..];
    }
  }

  /** A string of separators only has only empty parts. */
  lemma {:induction false} SplitSeparators(s: string, sep: char)
    requires forall i :: 0 <= i < |s| ==> s[i] == sep
    ensures forall k :: 0 <= k < |Split(s, sep)| ==> Split(s, sep)[k] == []
    decreases |s|
  {
    if s != [] {
      SplitSeparators(s[1..], sep);
    }
  }

  lemma {:induction false} NonEmptyAppend(a: seq<string>, b: seq<string>)
    ensures NonEmpty(a + b) == NonEmpty(a) + NonEmpty(b)
  {
    if a != [] {
      assert (a + b)[1..] == a[1..] + b;
      NonEmptyAppend(a[1..], b);
    } else {
      assert a + b == b;
    }
  }

  lemma {:induction false} NonEmptyOfEmpties(parts: seq<string>)
    requires forall k :: 0 <= k < |parts| ==> parts[k] == []
    ensures NonEmpty(parts) == []
  {
    if parts != [] {
      NonEmptyOfEmpties(parts[1..]);
    }
  }

  // ---------------------------------------------------------------------
  // What the title is
  // ---------------------------------------------------------------------

  /** No fixed route lies below /patient/. */
  lemma PatientPathIsNotFixed(path: string)
    requires StartsWith(path, "/patient/")
    ensures path !in UrlTitles
  {
    assert path[..9] == "/patient/";
    assert |path| >= 9 && path[1] == 'p' && path[8] == '/';
  }

  /** Below /patient/, every path is "Patient Details". */
  lemma PatientTitle(id: string)
    ensures TitleFromUrl("/patient/" + id) == "Patient Details"
  {
    var path := "/patient/" + id;
    assert path[..9] == "/patient/";
    PatientPathIsNotFixed(path);
  }

  /** The parts of a path below /results/: an empty one, "results", then
      the parts of the rest. */
  lemma ResultsParts(tail: string)
    ensures Split("/results/" + tail, '/') == [[], "results"] + Split(tail, '/')
  {
    var word := "results";
    var mid := word + ['/'] + tail;
    assert Split(mid, '/') == [word] + Split(tail, '/') by {
      SplitWhole(word, '/');
      SplitAppend(word, tail, '/');
    }
    assert "/results/" + tail == [] + ['/'] + mid;
    SplitAppend([], mid, '/');
  }

  /** The first part of a segment followed by nothing or by a '/'. */
  lemma FirstPart(segment: string, rest: string)
    requires '/' !in segment
    requires rest == [] || rest[0] == '/'
    ensures Split(segment + rest, '/')[0] == segment
  {
    SplitWhole(segment, '/');
    if rest == [] {
      assert segment + rest == segment;
    } else {
      assert segment + rest == segment + ['/'] + rest[1..];
      SplitAppend(segment, rest[1..], '/');
    }
  }

  /** Below /results/, the second segment names the results: capitalised,
      followed by " Results", unless the path is a fixed route. */
  lemma ResultsTitle(segment: string, rest: string)
    requires segment != [] && '/' !in segment
    requires rest == [] || rest[0] == '/'
    requires "/results/" + segment + rest !in UrlTitles
    ensures TitleFromUrl("/results/" + segment + rest) == Capitalise(segment) + " Results"
  {
    var path := "/results/" + (segment + rest);
    assert path == "/results/" + segment + rest;
    assert path[..9] == "/results/" && path[1] == 'r';
    ResultsParts(segment + rest);
    FirstPart(segment, rest);
    assert Split(path, '/')[2] == segment;
  }

  /** Any other path is titled by its last non-empty segment, hyphens read
      as spaces; slashes after that segment (`/a/b/`) are ignored. */
  lemma NestedTitle(parent: string, segment: string, slashes: string)
    requires segment != [] && '/' !in segment
    requires forall i :: 0 <= i < |slashes| ==> slashes[i] == '/'
    requires parent + "/" + segment + slashes !in UrlTitles
    requires !StartsWith(parent + "/" + segment + slashes, "/patient/")
    requires !StartsWith(parent + "/" + segment + slashes, "/results/")
    ensures TitleFromUrl(parent + "/" + segment + slashes) == SegmentTitle(segment)
  {
    var path := parent + "/" + segment + slashes;
    var body := parent + "/" + segment;
    assert body == parent + ['/'] + segment;
    SplitAppend(parent, segment, '/');
    SplitWhole(segment, '/');
    NonEmptyAppend(Split(parent, '/'), [segment]);
    assert NonEmpty([segment]) == [segment] + NonEmpty([]);
    if slashes != [] {
      var rest := slashes[1..];
      assert path == body + ['/'] + rest;
      SplitAppend(body, rest, '/');
      SplitSeparators(rest, '/');
      NonEmptyOfEmpties(Split(rest, '/'));
      NonEmptyAppend(Split(body, '/'), Split(rest, '/'));
    } else {
      assert path == body;
    }
  }

  /** A path of slashes only that is no fixed route is the dashboard. */
  lemma NoSegmentIsDashboard(pathname: string)
    requires forall i :: 0 <= i < |pathname| ==> pathname[i] == '/'
    requires pathname !in UrlTitles
    ensures TitleFromUrl(pathname) == "Dashboard"
  {
    SplitSeparators(pathname, '/');
    NonEmptyOfEmpties(Split(pathname, '/'));
    if |pathname| >= 9 {
      assert pathname[1] == '/';
      assert pathname[..9] != "/patient/" && pathname[..9] != "/results/" by {
        assert pathname[..9][1] == '/';
      }
    }
  }

  /** A fixed route keeps its own title, even below /results/. */
  lemma FixedTitleExample()
    ensures TitleFromUrl("/results/pathology") == "Pathology Results"
  {
  }

  // ---------------------------------------------------------------------
  // useAutoPageTitle
  // ---------------------------------------------------------------------

  /** The header's title and the path the auto-title effect saw last. */
  class AutoTitle {
    var title: string
    var currentPath: string
    ghost var titleSets: nat

    constructor(title: string)
      ensures this.title == title && currentPath == "" && titleSets == 0
    {
      this.title := title;
      currentPath := "";
      titleSets := 0;
    }

    /** The effect run after a render with `pathname`: the title is set only
        when the path differs from the last one seen. */
    method Effect(pathname: string)
      modifies this
      ensures currentPath == pathname
      ensures old(currentPath) != pathname ==> title == TitleFromUrl(pathname) && titleSets == old(titleSets) + 1
      ensures old(currentPath) == pathname ==> title == old(title) && titleSets == old(titleSets)
    {
      if currentPath != pathname {
        currentPath := pathname;
        title := TitleFromUrl(pathname);
        titleSets := titleSets + 1;
      }
    }
  }
}

=== FILE: pdf_text.dfy ===
/** The PDF text extraction route (src/app/api/extract-pdf-text/route.ts):
    request checks, the flattening of the page / text item / text run tree that
    the PDF reader produces into one string, and the response.

    The PDF reader itself (turning the uploaded bytes into that tree, or into a
    parser error) is a parameter of the route. */
module PdfText {
  import opened Wrappers
  import opened Text
  import opened Uri
  import opened ReportTests
  import opened ReportParser

  /** One text run; its `T` is URI-encoded text. */
  datatype TextRun = TextRun(t: Option<string>)
  /** One text item with its runs `R`. */
  datatype TextItem = TextItem(r: Option<seq<TextRun>>)
  /** One page with its text items `Texts`. */
  datatype Page = Page(texts: Option<seq<TextItem>>)
  /** The reader's output, with its `Pages`. */
  datatype PdfData = PdfData(pages: Option<seq<Page>>)

  // ---------------------------------------------------------------------
  // The specification of the flattening.

  /** The pieces of xs joined in order; None as soon as one piece fails. */
  function ConcatAll<T>(xs: seq<T>, piece: T -> Option<string>): Option<string> {
    if xs == [] then Some("")
    else match ConcatAll(xs[..|xs| - 1], piece)
      case None => None
      case Some(front) =>
        (match piece(xs[|xs| - 1])
          case None => None
          case Some(last) => Some(front + last))
  }

  /** A run with a non-empty T gives decodeURIComponent(T) + " "; a failed
      decoding throws. */
  function RunPiece(run: TextRun): Option<string> {
    match run.t
    case Some(t) =>
      if t == "" then Some("")
      else (match Decode(t) case Some(d) => Some(d + " ") case None => None)
    case None => Some("")
  }

  /** A run whose non-empty T is not well-formed percent-encoded UTF-8. */
  predicate UndecodableRun(run: TextRun) {
    run.t.Some? && run.t.value != "" && Decode(run.t.value).None?
  }

  function ItemPiece(item: TextItem): Option<string> {
    match item.r
    case Some(runs) => ConcatAll(runs, RunPiece)
    case None => Some("")
  }

  /** A page that has a Texts list (even an empty one) ends with "\n". */
  function PagePiece(page: Page): Option<string> {
    match page.texts
    case Some(items) => (match ConcatAll(items, ItemPiece) case Some(x) => Some(x + "\n") case None => None)
    case None => Some("")
  }

  /** The accumulated text before trimming. */
  function Flatten(data: PdfData): Option<string> {
    match data.pages
    case Some(pages) => ConcatAll(pages, PagePiece)
    case None => Some("")
  }

  /** The text the reader's data-ready handler resolves with, or None when it
      rejects with "Failed to extract text from PDF". */
  function ExtractedText(data: PdfData): (r: Option<string>)
    ensures r.Some? ==> IsTrimmed(r.value)
    ensures r.Some? <==> Flatten(data).Some?
  {
    match Flatten(data)
    case Some(t) => Some(Trim(t))
    case None => None
  }

  // ---------------------------------------------------------------------
  // The handler's nested loops.

  /** The `pdfParser_dataReady` handler: three nested loops appending to one accumulator. */
  method FlattenText(data: PdfData) returns (r: Option<string>)
    ensures r == ExtractedText(data)
  {
    var extracted := "";
    if data.pages.Some? {
      var pages := data.pages.value;
      var p := 0;
      while p < |pages|
        invariant 0 <= p <= |pages|
        invariant ConcatAll(pages[..p], PagePiece) == Some(extracted)
      {
        ConcatAllStep(pages, p, PagePiece);
        if pages[p].texts.Some? {
          var items := pages[p].texts.value;
          ghost var base := extracted;
          ghost var mid := "";
          var k := 0;
          while k < |items|
            invariant 0 <= k <= |items|
            invariant ConcatAll(items[..k], ItemPiece) == Some(mid)
            invariant extracted == base + mid
          {
            ConcatAllStep(items, k, ItemPiece);
            if items[k].r.Some? {
              var runs := items[k].r.value;
              ghost var inner := "";
              ghost var before := extracted;
              var m := 0;
              while m < |runs|
                invariant 0 <= m <= |runs|
                invariant ConcatAll(runs[..m], RunPiece) == Some(inner)
                invariant extracted == before + inner
              {
                ConcatAllStep(runs, m, RunPiece);
                var t := runs[m].t;
                if t.Some? && t.value != "" {
                  var decoded := Decode(t.value);
                  if decoded.None? {
                    FailureSpreads(runs, m + 1, RunPiece);
                    FailureSpreads(items, k + 1, ItemPiece);
                    FailureSpreads(pages, p + 1, PagePiece);
                    return None;
                  }
                  AppendAssociates(before, inner, decoded.value + " ");
                  extracted := extracted + (decoded.value + " ");
                  inner := inner + (decoded.value + " ");
                } else {
                  assert RunPiece(runs[m]) == Some("") && inner + "" == inner;
                }
                m := m + 1;
              }
              assert runs[..m] == runs;
              AppendAssociates(base, mid, inner);
              mid := mid + inner;
            } else {
              assert ItemPiece(items[k]) == Some("") && mid + "" == mid;
            }
            k := k + 1;
          }
          assert items[..k] == items;
          AppendAssociates(base, mid, "\n");
          extracted := extracted + "\n";
        } else {
          assert PagePiece(pages[p]) == Some("") && extracted + "" == extracted;
        }
        p := p + 1;
      }
      assert pages[..p] == pages;
    }
    return Some(Trim(extracted));
  }

  /** ConcatAll over one more element. */
  lemma ConcatAllStep<T>(xs: seq<T>, i: nat, piece: T -> Option<string>)
    requires i < |xs|
    ensures ConcatAll(xs[..i + 1], piece) ==
      (match ConcatAll(xs[..i], piece)
        case None => None
        case Some(front) => (match piece(xs[i]) case None => None case Some(last) => Some(front + last)))
  {
    assert xs[..i + 1][..i] == xs[..i];
  }

  /** Once a piece fails, so does every longer prefix. */
  lemma {:induction false} FailureSpreads<T>(xs: seq<T>, n: nat, piece: T -> Option<string>)
    requires 0 < n <= |xs| && ConcatAll(xs[..n], piece).None?
    ensures ConcatAll(xs, piece).None?
    decreases |xs| - n
  {
    if n < |xs| {
      ConcatAllStep(xs, n, piece);
      FailureSpreads(xs, n + 1, piece);
    } else {
      assert xs[..n] == xs;
    }
  }

  // ---------------------------------------------------------------------
  // Properties.

  /** The flattening succeeds iff every piece does. */
  lemma {:induction false} ConcatAllSucceeds<T>(xs: seq<T>, piece: T -> Option<string>)
    ensures ConcatAll(xs, piece).Some? <==> forall i :: 0 <= i < |xs| ==> piece(xs[i]).Some?
  {
    if xs != [] {
      var init := xs[..|xs| - 1];
      ConcatAllSucceeds(init, piece);
      assert forall i :: 0 <= i < |init| ==> init[i] == xs[i];
    }
  }

  /** Pieces are joined in order: the text of xs + ys is the text of xs, then that of ys. */
  lemma {:induction false} ConcatAllAppend<T>(xs: seq<T>, ys: seq<T>, piece: T -> Option<string>)
    ensures ConcatAll(xs + ys, piece) ==
      (match (ConcatAll(xs, piece), ConcatAll(ys, piece))
        case (Some(a), Some(b)) => Some(a + b)
        case _ => None)
    decreases |ys|
  {
    if ys == [] {
      assert xs + ys == xs;
      if ConcatAll(xs, piece).Some? {
        assert ConcatAll(xs, piece).value + "" == ConcatAll(xs, piece).value;
      }
    } else {
      var init := ys[..|ys| - 1];
      ConcatAllAppend(xs, init, piece);
      assert (xs + ys)[..|xs + ys| - 1] == xs + init;
      match (ConcatAll(xs, piece), ConcatAll(init, piece), piece(ys[|ys| - 1])) {
        case (Some(a), Some(b), Some(c)) => AppendAssociates(a, b, c);
        case _ =>
      }
    }
  }

  /** A text item fails exactly when one of its runs cannot be decoded. */
  lemma ItemFailsOnlyOnBadRun(item: TextItem)
    ensures ItemPiece(item).None? <==>
      item.r.Some? && exists m :: 0 <= m < |item.r.value| && UndecodableRun(item.r.value[m])
  {
    if item.r.Some? {
      ConcatAllSucceeds(item.r.value, RunPiece);
    }
  }

  /** A page fails exactly when one of its text items does. */
  lemma PageFailsOnlyOnBadItem(page: Page)
    ensures PagePiece(page).None? <==>
      page.texts.Some? && exists k :: 0 <= k < |page.texts.value| && ItemPiece(page.texts.value[k]).None?
  {
    if page.texts.Some? {
      ConcatAllSucceeds(page.texts.value, ItemPiece);
    }
  }

  /** The extraction fails ("Failed to extract text from PDF") exactly when
      some page holds a run that cannot be decoded. */
  lemma ExtractionFailsOnlyOnBadRun(data: PdfData)
    ensures ExtractedText(data).None? <==>
      data.pages.Some? && exists p :: 0 <= p < |data.pages.value| && PagePiece(data.pages.value[p]).None?
  {
    if data.pages.Some? {
      ConcatAllSucceeds(data.pages.value, PagePiece);
    }
  }

  // ---------------------------------------------------------------------
  // One line break per page.

  function Newlines(s: string): nat {
    if s == [] then 0 else Newlines(s[..|s| - 1]) + (if s[|s| - 1] == '\n' then 1 else 0)
  }

  lemma {:induction false} NewlinesAppend(a: string, b: string)
    ensures Newlines(a + b) == Newlines(a) + Newlines(b)
    decreases |b|
  {
    if b == [] {
      assert a + b == a;
    } else {
      NewlinesAppend(a, b[..|b| - 1]);
      assert (a + b)[..|a + b| - 1] == a + b[..|b| - 1];
    }
  }

  /** The sum of n over xs. */
  function SumOf<T>(xs: seq<T>, n: T -> nat): nat {
    if xs == [] then 0 else SumOf(xs[..|xs| - 1], n) + n(xs[|xs| - 1])
  }

  /** The line breaks of a joined text are those of its pieces. */
  lemma {:induction false} ConcatAllNewlines<T>(xs: seq<T>, piece: T -> Option<string>, n: T -> nat)
    requires ConcatAll(xs, piece).Some?
    requires forall i :: 0 <= i < |xs| && piece(xs[i]).Some? ==> Newlines(piece(xs[i]).value) == n(xs[i])
    ensures Newlines(ConcatAll(xs, piece).value) == SumOf(xs, n)
  {
    if xs != [] {
      var init := xs[..|xs| - 1];
      assert forall i :: 0 <= i < |init| ==> init[i] == xs[i];
      ConcatAllNewlines(init, piece, n);
      NewlinesAppend(ConcatAll(init, piece).value, piece(xs[|xs| - 1]).value);
    }
  }

  /** A run whose decoded text holds no line break. */
  predicate RunWithoutBreak(run: TextRun) {
    RunPiece(run).Some? ==> Newlines(RunPiece(run).value) == 0
  }

  predicate ItemWithoutBreak(item: TextItem) {
    item.r.Some? ==> forall m :: 0 <= m < |item.r.value| ==> RunWithoutBreak(item.r.value[m])
  }

  predicate PageWithoutBreak(page: Page) {
    page.texts.Some? ==> forall k :: 0 <= k < |page.texts.value| ==> ItemWithoutBreak(page.texts.value[k])
  }

  function HasTexts(page: Page): nat {
    if page.texts.Some? then 1 else 0
  }

  function NoBreaks<T>(x: T): nat { 0 }

  lemma ItemLineBreaks(item: TextItem)
    requires ItemPiece(item).Some? && ItemWithoutBreak(item)
    ensures Newlines(ItemPiece(item).value) == 0
  {
    if item.r.Some? {
      ConcatAllNewlines(item.r.value, RunPiece, NoBreaks);
      SumOfZero(item.r.value);
    }
  }

  lemma PageLineBreaks(page: Page)
    requires PagePiece(page).Some? && PageWithoutBreak(page)
    ensures Newlines(PagePiece(page).value) == HasTexts(page)
  {
    if page.texts.Some? {
      var items := page.texts.value;
      forall k | 0 <= k < |items| && ItemPiece(items[k]).Some?
        ensures Newlines(ItemPiece(items[k]).value) == NoBreaks(items[k])
      {
        ItemLineBreaks(items[k]);
      }
      ConcatAllNewlines(items, ItemPiece, NoBreaks);
      SumOfZero(items);
      NewlinesAppend(ConcatAll(items, ItemPiece).value, "\n");
    }
  }

  lemma {:induction false} SumOfZero<T>(xs: seq<T>)
    ensures SumOf(xs, NoBreaks) == 0
  {
    if xs != [] {
      SumOfZero(xs[..|xs| - 1]);
    }
  }

  /** When no decoded run holds a line break, the flattened text has exactly
      one "\n" per page that has a Texts list. */
  lemma OneLineBreakPerPage(pages: seq<Page>)
    requires ConcatAll(pages, PagePiece).Some?
    requires forall p :: 0 <= p < |pages| ==> PageWithoutBreak(pages[p])
    ensures Newlines(ConcatAll(pages, PagePiece).value) == SumOf(pages, HasTexts)
  {
    ConcatAllSucceeds(pages, PagePiece);
    forall p | 0 <= p < |pages| && PagePiece(pages[p]).Some?
      ensures Newlines(PagePiece(pages[p]).value) == HasTexts(pages[p])
    {
      PageLineBreaks(pages[p]);
    }
    ConcatAllNewlines(pages, PagePiece, HasTexts);
  }

  // ---------------------------------------------------------------------
  // The route.

  /** The uploaded form field `pdf`. */
  datatype PdfUpload = PdfUpload(name: string, mimeType: string, size: nat)

  /** The reader: the tree of an uploaded file, or its parser error. */
  type PdfReader = PdfUpload -> Result<PdfData, string>

  datatype ExtractResponse =
    | Rejected(status: nat, error: string, details: Option<string>)
    | Extracted(text: string, parsedData: ParsedReport, filename: string, fileSize: nat)

  /** An upload that passes both request checks. */
  predicate IsPdf(file: Option<PdfUpload>) {
    file.Some? && file.value.mimeType == "application/pdf"
  }

  /** `POST /api/extract-pdf-text` */
  method ExtractPdfText(file: Option<PdfUpload>, read: PdfReader, general: string -> seq<GeneralHit>)
    returns (resp: ExtractResponse)
    ensures file.None? ==> resp == Rejected(400, "No PDF file provided", None)
    ensures file.Some? && file.value.mimeType != "application/pdf" ==>
      resp == Rejected(400, "File must be a PDF", None)
    ensures IsPdf(file) && read(file.value).Err? ==>
      resp == Rejected(500, "Failed to parse PDF", Some("PDF parsing error: " + read(file.value).error))
    ensures IsPdf(file) && read(file.value).Ok? && ExtractedText(read(file.value).value).None? ==>
      resp == Rejected(500, "Failed to parse PDF", Some("Failed to extract text from PDF"))
    ensures IsPdf(file) && read(file.value).Ok? && ExtractedText(read(file.value).value).Some? ==>
      && resp.Extracted?
      && resp.text == ExtractedText(read(file.value).value).value
      && IsParseOf(resp.parsedData, resp.text, general)
      && resp.filename == file.value.name && resp.fileSize == file.value.size
  {
    if file.None? {
      return Rejected(400, "No PDF file provided", None);
    }
    var upload := file.value;
    if upload.mimeType != "application/pdf" {
      return Rejected(400, "File must be a PDF", None);
    }
    var parsed := read(upload);
    if parsed.Err? {
      return Rejected(500, "Failed to parse PDF", Some("PDF parsing error: " + parsed.error));
    }
    var text := FlattenText(parsed.value);
    if text.None? {
      return Rejected(500, "Failed to parse PDF", Some("Failed to extract text from PDF"));
    }
    var report := ParsePathologyReport(text.value, general);
    resp := Extracted(text.value, report, upload.name, upload.size);
  }
}

=== FILE: report_analyzer.dfy ===
/** The report-analyzer route: an uploaded PDF goes to the assistant, whose
    reply is cleaned, parsed and validated, and the analysis is written to the
    store under the timestamp-session policy: one analysis time per call, a
    replay of the same time returns what is stored, results identical to ones
    stored within the last second are dropped, and a unique-key clash returns
    what is stored for the time instead of failing. */
module ReportAnalyzer {
  import opened Wrappers
  import opened Text
  import opened AiReply
  import opened Store
  import opened ApiResponse

  /** The uploaded form field `pdf`. */
  datatype Upload = Upload(name: string, mimeType: string, size: nat)

  const MaxUploadBytes: nat := 10 * 1024 * 1024
  /** Width of the recent-duplicate window, in milliseconds. */
  const WindowMs: int := 1000

  const NoFile := "No PDF file provided"
  const OnlyPdf := "Only PDF files are allowed"
  const TooLarge := "File size must be less than 10MB"

  // ---------------------------------------------------------------------
  // Upload checks
  // ---------------------------------------------------------------------

  /** The error the three upload checks give, in their order; None when the
      upload passes them. */
  function UploadError(file: Option<Upload>): (e: Option<string>)
    ensures e.None? <==> file.Some? && file.value.mimeType == "application/pdf" && file.value.size <= MaxUploadBytes
    ensures e.Some? ==> e.value in {NoFile, OnlyPdf, TooLarge}
  {
    if file.None? then Some(NoFile)
    else if file.value.mimeType != "application/pdf" then Some(OnlyPdf)
    else if file.value.size > MaxUploadBytes then Some(TooLarge)
    else None
  }

  // ---------------------------------------------------------------------
  // Reply
  // ---------------------------------------------------------------------

  /** `parsed.patientDetails?.nhsNumber && parsed.testResults && parsed.doctorsLetter` */
  predicate IsValidReport(a: Analysis) {
    && a.patientDetails.Some? && Truthy(a.patientDetails.value.nhsNumber)
    && a.testResults.Some?
    && Truthy(a.doctorsLetter)
  }

  /** The analysis the route goes on with, or the message of the error the
      assistant step, the cleanup or the validation throws. */
  function Interpret(reply: Result<string, string>, parse: JsonParser): (r: Result<Analysis, string>)
    ensures r.Ok? ==> IsValidReport(r.value) && reply.Ok? && ReadReply(reply.value, parse) == Ok(r.value)
    ensures reply.Err? ==> r == Err(reply.error)
    ensures reply.Ok? && ReadReply(reply.value, parse).Err? ==> r == Err(ParseFailure)
    ensures reply.Ok? && ReadReply(reply.value, parse).Ok? && !IsValidReport(ReadReply(reply.value, parse).value)
            ==> r == Err(InvalidStructure)
  {
    match reply
    case Err(m) => Err(m)
    case Ok(text) =>
      match ReadReply(text, parse)
      case Err(m) => Err(m)
      case Ok(a) => if IsValidReport(a) then Ok(a) else Err(InvalidStructure)
  }

  /** The status of the catch-all: 400 when the message mentions "PDF file",
      500 otherwise. */
  function CatchStatus(message: string): (status: nat)
    ensures status == 400 <==> Contains(message, "PDF file")
    ensures status == 400 || status == 500
  {
    if Contains(message, "PDF file") then 400 else 500
  }

  // ---------------------------------------------------------------------
  // Duplicate filter
  // ---------------------------------------------------------------------

  /** A stored row within the window carries the same test name, value and
      unit (a missing unit compared as null). */
  predicate IsExactDuplicate(test: AiTest, recent: seq<ResultRow>, now: int) {
    exists r :: r in recent && r.testName == test.testName && r.value == test.value
      && r.unit == StoredUnit(test.unit) && -WindowMs < r.analyzedAt - now < WindowMs
  }

  /** The `filter` of the new results: the tests that are no exact duplicate,
      in their order. */
  function KeepNew(tests: seq<AiTest>, recent: seq<ResultRow>, now: int): (kept: seq<AiTest>)
    ensures |kept| <= |tests|
    ensures forall t :: t in kept <==> t in tests && !IsExactDuplicate(t, recent, now)
  {
    if tests == [] then []
    else if IsExactDuplicate(tests[0], recent, now) then KeepNew(tests[1..], recent, now)
    else [tests[0]] + KeepNew(tests[1..], recent, now)
  }

  /** With nothing stored in the window every result passes. */
  lemma {:induction false} NothingRecentKeepsAll(tests: seq<AiTest>, now: int)
    ensures KeepNew(tests, [], now) == tests
  {
    if tests != [] {
      NothingRecentKeepsAll(tests[1..], now);
      assert tests == [tests[0]] + tests[1..];
    }
  }

  /** A retry of the same results within the window, after they were stored,
      keeps none of them. */
  lemma RetryAbsorbed(patientId: nat, tests: seq<AiTest>, stored: seq<ResultRow>, earlier: int, now: int)
    requires forall i :: 0 <= i < |tests| ==> RowsFor(patientId, None, tests, earlier)[i] in stored
    requires earlier <= now < earlier + WindowMs
    ensures KeepNew(tests, Select(stored, Since(patientId, now - WindowMs)), now) == []
  {
    var recent := Select(stored, Since(patientId, now - WindowMs));
    var kept := KeepNew(tests, recent, now);
    var rows := RowsFor(patientId, None, tests, earlier);
    forall t | t in tests ensures IsExactDuplicate(t, recent, now) {
      var i :| 0 <= i < |tests| && tests[i] == t;
      assert rows[i] in recent;
    }
    AllDuplicatesDropped(tests, recent, now);
  }

  lemma {:induction false} AllDuplicatesDropped(tests: seq<AiTest>, recent: seq<ResultRow>, now: int)
    requires forall t :: t in tests ==> IsExactDuplicate(t, recent, now)
    ensures KeepNew(tests, recent, now) == []
  {
    if tests != [] {
      assert tests[0] in tests;
      AllDuplicatesDropped(tests[1..], recent, now);
    }
  }

  // ---------------------------------------------------------------------
  // Timestamp-session policy
  // ---------------------------------------------------------------------

  /** What `handleTestResults` does to the rows and answers, for the rows
      `before` the call, the patient, the results, the analysis time and the
      fault the insert meets. */
  predicate SessionPolicy(
    before: seq<ResultRow>, after: seq<ResultRow>, patientId: nat, tests: seq<AiTest>,
    now: int, fault: Option<DbFault>, r: Result<TestBatch, string>)
  {
    var existing := Select(before, AtTime(patientId, now));
    var recent := Select(before, Since(patientId, now - WindowMs));
    var kept := KeepNew(tests, recent, now);
    var rows := RowsFor(patientId, None, kept, now);
    if existing != [] then
      // a replay of this exact analysis time
      r == Ok(TestBatch(existing, 0)) && after == before
    else if kept == [] then
      // every result is an exact recent duplicate
      r == Ok(TestBatch(recent, 0)) && after == before
    else if fault.Some? && fault.value.OtherFault? then
      r == Err(fault.value.message) && after == before
    else if fault.Some? || !KeysUnique(before + rows) then
      // P2002: the batch is rolled back and the refetch at the time finds nothing
      r == Ok(TestBatch([], 0)) && after == before
    else
      r == Ok(TestBatch(rows, |kept|)) && after == before + rows
  }

  /** Calling again with the same analysis time, after a call that stored
      rows, inserts nothing and returns the stored rows with count 0. */
  lemma ReplayInsertsNothing(
    before: seq<ResultRow>, after: seq<ResultRow>, patientId: nat, tests: seq<AiTest>,
    now: int, fault: Option<DbFault>, r: Result<TestBatch, string>,
    tests2: seq<AiTest>, fault2: Option<DbFault>, after2: seq<ResultRow>, r2: Result<TestBatch, string>)
    requires SessionPolicy(before, after, patientId, tests, now, fault, r)
    requires r.Ok? && r.value.newTestResultsCount > 0
    requires SessionPolicy(after, after2, patientId, tests2, now, fault2, r2)
    ensures after2 == after && r2 == Ok(TestBatch(r.value.testResults, 0))
  {
    var kept := KeepNew(tests, Select(before, Since(patientId, now - WindowMs)), now);
    var rows := RowsFor(patientId, None, kept, now);
    BatchIsSession(before, rows, patientId, now);
  }

  /** A quick retry of a call that kept and stored all of its results, within
      the window, inserts nothing. */
  lemma QuickRetryInsertsNothing(
    before: seq<ResultRow>, after: seq<ResultRow>, patientId: nat, tests: seq<AiTest>,
    earlier: int, fault: Option<DbFault>, r: Result<TestBatch, string>,
    now: int, fault2: Option<DbFault>, after2: seq<ResultRow>, r2: Result<TestBatch, string>)
    requires SessionPolicy(before, after, patientId, tests, earlier, fault, r)
    requires r.Ok? && r.value.newTestResultsCount == |tests| > 0
    requires earlier < now < earlier + WindowMs
    requires SessionPolicy(after, after2, patientId, tests, now, fault2, r2)
    ensures after2 == after && r2.Ok? && r2.value.newTestResultsCount == 0
  {
    var kept := KeepNew(tests, Select(before, Since(patientId, earlier - WindowMs)), earlier);
    assert kept == tests by {
      KeptAll(tests, Select(before, Since(patientId, earlier - WindowMs)), earlier);
    }
    var rows := RowsFor(patientId, None, tests, earlier);
    assert after == before + rows;
    forall i | 0 <= i < |tests| ensures rows[i] in after {
      assert after[|before| + i] == rows[i];
    }
    RetryAbsorbed(patientId, tests, after, earlier, now);
  }

  /** Keeping as many results as were given means keeping all of them. */
  lemma {:induction false} KeptAll(tests: seq<AiTest>, recent: seq<ResultRow>, now: int)
    requires |KeepNew(tests, recent, now)| == |tests|
    ensures KeepNew(tests, recent, now) == tests
  {
    if tests != [] {
      if !IsExactDuplicate(tests[0], recent, now) {
        KeptAll(tests[1..], recent, now);
        assert tests == [tests[0]] + tests[1..];
      }
    }
  }

  /** `handleTestResults` */
  method HandleTestResults(db: Database, patient: Patient, tests: seq<AiTest>, now: int, fault: Option<DbFault>)
    returns (r: Result<TestBatch, string>)
    requires db.Valid() && patient.id in db.PatientIds()
    modifies db
    ensures db.Valid()
    ensures SessionPolicy(old(db.results), db.results, patient.id, tests, now, fault, r)
    ensures db.patients == old(db.patients) && db.letters == old(db.letters) && db.nextId == old(db.nextId)
  {
    var existing := db.RowsAt(patient.id, now);
    if existing != [] {
      return Ok(TestBatch(existing, 0));
    }
    var recent := db.RowsSince(patient.id, now - WindowMs);
    var kept := KeepNew(tests, recent, now);
    if kept == [] {
      return Ok(TestBatch(recent, 0));
    }
    var rows := RowsFor(patient.id, None, kept, now);
    ghost var before := db.results;
    var err := db.CreateMany(rows, fault);
    if err.Some? {
      if err.value == UniqueViolation {
        var again := db.RowsAt(patient.id, now);
        return Ok(TestBatch(again, 0));
      }
      return Err(FaultMessage(err.value));
    }
    BatchIsSession(before, rows, patient.id, now);
    var inserted := db.RowsAt(patient.id, now);
    r := Ok(TestBatch(inserted, |inserted|));
  }

  // ---------------------------------------------------------------------
  // Saving and the route
  // ---------------------------------------------------------------------

  /** `saveToDatabase`: patient, then letter, then results, each written as it
      goes; a failing insert leaves the patient and the letter written. */
  method SaveToDatabase(db: Database, details: PatientDetails, tests: seq<AiTest>, doctorsLetter: string,
                        now: int, fault: Option<DbFault>)
    returns (r: Result<SaveResult, string>, ghost patient: Patient, ghost batch: Result<TestBatch, string>)
    requires db.Valid()
    modifies db
    ensures db.Valid()
    ensures patient.nhsNumber == Trim(details.nhsNumber)
    ensures patient == FiledPatient(old(db.patients), old(db.nextId), details)
    ensures db.patients == old(db.patients)[patient.nhsNumber := patient]
    ensures db.letters == old(db.letters)[patient.id := Letter(patient.id, doctorsLetter)]
    ensures SessionPolicy(old(db.results), db.results, patient.id, tests, now, fault, batch)
    ensures BatchOf(r) == batch
    ensures r.Ok? ==> SavedAs(old(db.patients), old(db.letters), old(db.nextId), details, doctorsLetter, r.value)
  {
    var found, isNewPatient := db.HandlePatient(details);
    patient := found;
    var letter, isNewLetter := db.HandleLetter(found, doctorsLetter);
    var outcome := HandleTestResults(db, found, tests, now, fault);
    batch := outcome;
    match outcome
    case Err(m) =>
      r := Err(m);
    case Ok(b) =>
      r := Ok(SaveResult(found, letter, b.testResults, isNewPatient, isNewLetter, b.newTestResultsCount));
  }

  /** The analysis's patient is in the store, filed under the trimmed NHS
      number, and holds the analysis's letter. */
  ghost predicate Filed(db: Database, a: Analysis)
    requires IsValidReport(a)
    reads db
  {
    var key := Trim(a.patientDetails.value.nhsNumber.value);
    && key in db.patients
    && db.patients[key].id in db.letters
    && db.letters[db.patients[key].id] == Letter(db.patients[key].id, a.doctorsLetter.value)
  }

  /** The id of the analysis's patient in the store. */
  ghost function FiledId(db: Database, a: Analysis): nat
    requires IsValidReport(a) && Filed(db, a)
    reads db
  {
    db.patients[Trim(a.patientDetails.value.nhsNumber.value)].id
  }

  /** The analysis is in the store and the answer is what the session policy
      gives for the rows `before` the call: the answer's patient is the filed
      one, and its rows and count are the batch the policy answers with. */
  ghost predicate Recorded(db: Database, a: Analysis, before: seq<ResultRow>, now: int, fault: Option<DbFault>,
                           data: SaveResult)
    requires IsValidReport(a)
    reads db
  {
    && Filed(db, a)
    && data.patient == db.patients[Trim(a.patientDetails.value.nhsNumber.value)]
    && SessionPolicy(before, db.results, data.patient.id, a.testResults.value, now, fault,
                     Ok(TestBatch(data.testResults, data.newTestResultsCount)))
  }

  /** The patient details of a valid analysis, as the save is given them. */
  function DetailsOf(a: Analysis): (d: PatientDetails)
    requires IsValidReport(a)
    ensures d.nhsNumber == a.patientDetails.value.nhsNumber.value
  {
    var p := a.patientDetails.value;
    PatientDetails(p.nhsNumber.value, p.name, p.dateOfBirth, p.gp)
  }

  /** The route handler. The assistant is asked only about an upload that
      passes the checks, and the store is written only for a valid analysis.
      Once the analysis is valid its patient and letter are written, and the
      rows and the answer follow the session policy: a success carries the
      policy's batch, and a failure is the insert's fault, with the rows left
      as they were. */
  method Post(db: Database, assistant: Assistant<Upload>, file: Option<Upload>, parse: JsonParser,
              now: int, fault: Option<DbFault>)
    returns (resp: Response)
    requires db.Valid()
    modifies db, assistant
    ensures db.Valid()
    ensures UploadError(file).Some? ==>
      resp == Failure(400, UploadError(file).value) && unchanged(db)
      && assistant.calls == old(assistant.calls)
    ensures UploadError(file).None? ==> assistant.calls == old(assistant.calls) + 1
    ensures UploadError(file).None? && Interpret(assistant.respond(file.value), parse).Err? ==>
      var m := Interpret(assistant.respond(file.value), parse).error;
      resp == Failure(CatchStatus(m), ErrorText(m)) && unchanged(db)
    ensures UploadError(file).None? && Interpret(assistant.respond(file.value), parse).Ok? ==>
      var a := Interpret(assistant.respond(file.value), parse).value;
      && Filed(db, a)
      && var key := Trim(a.patientDetails.value.nhsNumber.value);
      && db.patients == old(db.patients)[key := FiledPatient(old(db.patients), old(db.nextId), DetailsOf(a))]
      && db.letters == old(db.letters)[FiledId(db, a) := Letter(FiledId(db, a), a.doctorsLetter.value)]
      && (resp.Success? ==>
            && Recorded(db, a, old(db.results), now, fault, resp.data)
            && SavedAs(old(db.patients), old(db.letters), old(db.nextId), DetailsOf(a), a.doctorsLetter.value,
                       resp.data))
      && (resp.Failure? ==>
            && fault.Some? && fault.value.OtherFault?
            && resp == Failure(CatchStatus(fault.value.message), ErrorText(fault.value.message))
            && SessionPolicy(old(db.results), db.results, FiledId(db, a), a.testResults.value, now, fault,
                             Err(fault.value.message)))
    ensures resp.Success? ==> UploadError(file).None? && Interpret(assistant.respond(file.value), parse).Ok?
  {
    var error := UploadError(file);
    if error.Some? {
      return Failure(400, error.value);
    }
    var reply := assistant.Ask(file.value);
    var analysis := Interpret(reply, parse);
    if analysis.Err? {
      return Failure(CatchStatus(analysis.error), ErrorText(analysis.error));
    }
    var a := analysis.value;
    var details := DetailsOf(a);
    var saved, patient, batch := SaveToDatabase(db, details, a.testResults.value, a.doctorsLetter.value, now, fault);
    assert db.patients[Trim(details.nhsNumber)] == patient;
    match saved
    case Err(m) =>
      resp := Failure(CatchStatus(m), ErrorText(m));
    case Ok(data) =>
      resp := Success(data);
  }
}

=== FILE: report_fields.dfy ===
/** The patient-detail extraction of the pathology report parser
    (`parsePatientDetails` in src/lib/utils.ts). Each field is found by a
    case-insensitive regular expression of the shape
    `LABEL[:\s]+(CAPTURE)`; the scanners below give those expressions their
    exact JavaScript meaning: the leftmost label wins, the separator run is
    greedy and gives characters back when the capture cannot start, a greedy
    capture takes the longest run of its class, and a lazy capture stops at
    the first place where one of its terminators (or the end) follows. */
module ReportFields {
  import opened Wrappers
  import opened Text
  import opened Search

  /** One piece of a label: a word compared case-insensitively, or `\s*`. */
  datatype LabelPart = Word(w: string) | OptSpace

  /** The character classes of the captures. */
  datatype CharClass =
    | DigitsAndSpace   // [\d\s]
    | DateChars        // [\d\/\-\.]
    | IdChars          // [\w\-]
    | NameChars        // [A-Za-z\s]
    | GpChars          // [A-Za-z\s,\.]

  predicate InClass(c: char, cls: CharClass) {
    match cls
    case DigitsAndSpace => IsDigit(c) || IsWhitespace(c)
    case DateChars => IsDigit(c) || c == '/' || c == '-' || c == '.'
    case IdChars => IsAsciiLetter(c) || IsDigit(c) || c == '_' || c == '-'
    case NameChars => IsAsciiLetter(c) || IsWhitespace(c)
    case GpChars => IsAsciiLetter(c) || IsWhitespace(c) || c == ',' || c == '.'
  }

  /** A field pattern. `stops` empty: the capture is greedy and ends the
      pattern. `stops` non-empty: the capture is lazy and must be followed by
      `\s+` and one of the words, or by the end of the text. */
  datatype FieldRule = FieldRule(key: seq<LabelPart>, cls: CharClass, stops: seq<string>)

  /** `NHS\s*Number[:\s]+([\d\s]+)` */
  const NhsRule := FieldRule([Word("NHS"), OptSpace, Word("Number")], DigitsAndSpace, [])
  /** `Name[:\s]+([A-Za-z\s]+?)(?:\s+NHS|\s+Date|\s+GP|\s+Sample|$)` */
  const NameRule := FieldRule([Word("Name")], NameChars, ["NHS", "Date", "GP", "Sample"])
  /** `Date\s*of\s*Birth[:\s]+([\d\/\-\.]+)` */
  const DobRule := FieldRule([Word("Date"), OptSpace, Word("of"), OptSpace, Word("Birth")], DateChars, [])
  /** `GP[:\s]+([A-Za-z\s,\.]+?)(?:\s+Sample|\s+Test|\s+Report|$)` */
  const GpRule := FieldRule([Word("GP")], GpChars, ["Sample", "Test", "Report"])
  /** `Sample\s*ID[:\s]+([\w\-]+)` */
  const SampleIdRule := FieldRule([Word("Sample"), OptSpace, Word("ID")], IdChars, [])

  /** Where the label that starts at `i` ends, if it is there. Every `\s*` is
      followed by a letter, so its greedy reading is the only one. */
  function LabelEnd(s: string, i: nat, key: seq<LabelPart>): (r: Option<nat>)
    requires i <= |s|
    ensures r.Some? ==> i <= r.value <= |s|
    decreases |key|
  {
    if key == [] then Some(i)
    else match key[0]
      case OptSpace => LabelEnd(s, SkipWhitespace(s, i), key[1..])
      case Word(w) => if WordAt(s, i, w) then LabelEnd(s, i + |w|, key[1..]) else None
  }

  predicate IsSeparator(c: char) {
    c == ':' || IsWhitespace(c)
  }

  /** End of the maximal `[:\s]` run that starts at `i`. */
  function SeparatorEnd(s: string, i: nat): (j: nat)
    requires i <= |s|
    ensures i <= j <= |s|
    ensures forall k :: i <= k < j ==> IsSeparator(s[k])
    ensures j < |s| ==> !IsSeparator(s[j])
    decreases |s| - i
  {
    if i < |s| && IsSeparator(s[i]) then SeparatorEnd(s, i + 1) else i
  }

  /** End of the maximal run of class `cls` that starts at `i`. */
  function ClassEnd(s: string, i: nat, cls: CharClass): (j: nat)
    requires i <= |s|
    ensures i <= j <= |s|
    ensures forall k :: i <= k < j ==> InClass(s[k], cls)
    ensures j < |s| ==> !InClass(s[j], cls)
    decreases |s| - i
  {
    if i < |s| && InClass(s[i], cls) then ClassEnd(s, i + 1, cls) else i
  }

  /** One of `words` occurs, case-insensitively, at `i`. */
  predicate AnyWordAt(s: string, i: nat, words: seq<string>)
    decreases |words|
  {
    words != [] && (WordAt(s, i, words[0]) || AnyWordAt(s, i, words[1..]))
  }

  /** `(?:\s+W1|\s+W2|...|$)` matches at `e`. The words start with a letter,
      so `\s+` can only take the whole whitespace run. */
  predicate StopAt(s: string, e: nat, stops: seq<string>)
    requires e <= |s|
  {
    e == |s| || (IsWhitespace(s[e]) && AnyWordAt(s, SkipWhitespace(s, e), stops))
  }

  /** The end of a lazy capture that started at `p` and has reached `e`:
      the first `e` at which a terminator follows, while the characters so
      far stay in the class. */
  function LazyEnd(s: string, p: nat, e: nat, rule: FieldRule): (r: Option<nat>)
    requires p < e <= |s|
    requires forall k :: p <= k < e ==> InClass(s[k], rule.cls)
    ensures r.Some? ==> e <= r.value <= |s| && StopAt(s, r.value, rule.stops)
    ensures r.Some? ==> forall k :: p <= k < r.value ==> InClass(s[k], rule.cls)
    ensures r.Some? ==> forall k :: e <= k < r.value ==> !StopAt(s, k, rule.stops)
    decreases |s| - e
  {
    if StopAt(s, e, rule.stops) then Some(e)
    else if e < |s| && InClass(s[e], rule.cls) then LazyEnd(s, p, e + 1, rule)
    else None
  }

  /** The capture group when it starts at `p`. */
  function CaptureAt(s: string, p: nat, rule: FieldRule): (r: Option<string>)
    requires p <= |s|
    ensures r.Some? ==> |r.value| > 0 && p + |r.value| <= |s| && r.value == s[p..p + |r.value|]
    ensures r.Some? ==> forall k :: 0 <= k < |r.value| ==> InClass(r.value[k], rule.cls)
    ensures r.Some? && rule.stops == [] ==> r.value == s[p..ClassEnd(s, p, rule.cls)]
    ensures r.Some? && rule.stops != [] ==> StopAt(s, p + |r.value|, rule.stops)
    ensures p < |s| && InClass(s[p], rule.cls) && rule.stops == [] ==> r.Some?
  {
    if p == |s| || !InClass(s[p], rule.cls) then None
    else if rule.stops == [] then Some(s[p..ClassEnd(s, p, rule.cls)])
    else match LazyEnd(s, p, p + 1, rule)
      case None => None
      case Some(e) => Some(s[p..e])
  }

  /** `[:\s]+` started at `j` and may end anywhere from `p` down to `j + 1`;
      the first end (from the longest) at which the capture matches wins. */
  function Backtrack(s: string, j: nat, p: nat, rule: FieldRule): (r: Option<string>)
    requires j < p <= |s|
    ensures r.Some? ==> |r.value| > 0 && forall k :: 0 <= k < |r.value| ==> InClass(r.value[k], rule.cls)
    ensures CaptureAt(s, p, rule).Some? ==> r == CaptureAt(s, p, rule)
    decreases p
  {
    match CaptureAt(s, p, rule)
    case Some(c) => Some(c)
    case None => if p == j + 1 then None else Backtrack(s, j, p - 1, rule)
  }

  /** The capture of the pattern when the match starts at `i` (no match
      starts past the end of the text). */
  function FieldAt(s: string, i: nat, rule: FieldRule): Option<string> {
    if i > |s| then None
    else match LabelEnd(s, i, rule.key)
      case None => None
      case Some(j) =>
        var k := SeparatorEnd(s, j);
        if k == j then None else Backtrack(s, j, k, rule)
  }

  /** The match attempts of one pattern, one per start position. */
  function Attempts(s: string, rule: FieldRule): nat -> Option<string> {
    (k: nat) => FieldAt(s, k, rule)
  }

  /** `s.match(pattern)[1]` searching from `i`: the capture of the leftmost
      match, with where that match starts. */
  function FindField(s: string, i: nat, rule: FieldRule): (r: Option<(nat, string)>)
    requires i <= |s|
    ensures r.Some? ==> i <= r.value.0 <= |s| && FieldAt(s, r.value.0, rule) == Some(r.value.1)
  {
    Leftmost(Attempts(s, rule), i, |s|)
  }

  /** The match found is the leftmost one: no earlier start matches, and
      when nothing is found no start from `i` on matches. */
  lemma FindFieldIsLeftmost(s: string, i: nat, rule: FieldRule)
    requires i <= |s|
    ensures FindField(s, i, rule).Some? ==>
      forall k :: i <= k < FindField(s, i, rule).value.0 ==> FieldAt(s, k, rule).None?
    ensures FindField(s, i, rule).None? ==> forall k :: i <= k <= |s| ==> FieldAt(s, k, rule).None?
  {
    var at := Attempts(s, rule);
    LeftmostIsFirst(at, i, |s|);
    assert forall k :: at(k) == FieldAt(s, k, rule);
  }

  /** The capture of `rule` in `s`, as `match[1]` (`None` when no match). */
  function Capture(s: string, rule: FieldRule): Option<string> {
    match FindField(s, 0, rule)
    case None => None
    case Some((_, c)) => Some(c)
  }

  /** The patient details record; `None` is `null`. */
  datatype PatientDetails = PatientDetails(
    nhsNumber: Option<string>,
    name: Option<string>,
    dateOfBirth: Option<string>,
    gp: Option<string>,
    sampleId: Option<string>)

  /** The empty record every field of which is `null`. */
  const NoDetails := PatientDetails(None, None, None, None, None)

  /** `parsePatientDetails(text)`: every field comes from its own pattern on
      the whole text, and a field whose pattern does not match stays `null`.
      The NHS number loses all its whitespace, the other fields are trimmed. */
  method ParsePatientDetails(text: string) returns (d: PatientDetails)
    ensures d.nhsNumber == (match Capture(text, NhsRule) case None => None case Some(c) => Some(Trim(RemoveWhitespace(c))))
    ensures d.name == (match Capture(text, NameRule) case None => None case Some(c) => Some(Trim(c)))
    ensures d.dateOfBirth == (match Capture(text, DobRule) case None => None case Some(c) => Some(Trim(c)))
    ensures d.gp == (match Capture(text, GpRule) case None => None case Some(c) => Some(Trim(c)))
    ensures d.sampleId == (match Capture(text, SampleIdRule) case None => None case Some(c) => Some(Trim(c)))
    ensures d.nhsNumber.Some? ==> AllDigits(d.nhsNumber.value)
    ensures d.name.Some? ==> IsTrimmed(d.name.value)
    ensures d.gp.Some? ==> IsTrimmed(d.gp.value)
  {
    d := NoDetails;
    var nhs := Capture(text, NhsRule);
    if nhs.Some? {
      NhsDigitsOnly(nhs.value);
      d := d.(nhsNumber := Some(Trim(RemoveWhitespace(nhs.value))));
    }
    var name := Capture(text, NameRule);
    if name.Some? {
      d := d.(name := Some(Trim(name.value)));
    }
    var dob := Capture(text, DobRule);
    if dob.Some? {
      d := d.(dateOfBirth := Some(Trim(dob.value)));
    }
    var gp := Capture(text, GpRule);
    if gp.Some? {
      d := d.(gp := Some(Trim(gp.value)));
    }
    var sid := Capture(text, SampleIdRule);
    if sid.Some? {
      d := d.(sampleId := Some(Trim(sid.value)));
    }
  }

  /** Removing the whitespace from a run of `[\d\s]` leaves only digits, and
      trimming keeps that. */
  lemma {:induction false} NhsDigitsOnly(c: string)
    requires forall k :: 0 <= k < |c| ==> InClass(c[k], DigitsAndSpace)
    ensures AllDigits(Trim(RemoveWhitespace(c)))
  {
    RemovedSpaceLeavesDigits(c);
    var r := RemoveWhitespace(c);
    var t := Trim(r);
    assert forall k :: 0 <= k < |t| ==> t[k] == r[LeadingWhitespace(r) + k];
  }

  lemma {:induction false} RemovedSpaceLeavesDigits(c: string)
    requires forall k :: 0 <= k < |c| ==> IsDigit(c[k]) || IsWhitespace(c[k])
    ensures AllDigits(RemoveWhitespace(c))
    decreases |c|
  {
    if c != [] {
      var tail := c[1..];
      assert forall k :: 0 <= k < |tail| ==> tail[k] == c[k + 1];
      RemovedSpaceLeavesDigits(tail);
      if !IsWhitespace(c[0]) {
        assert IsDigit(c[0]);
        assert RemoveWhitespace(c) == [c[0]] + RemoveWhitespace(tail);
      }
    }
  }

  /** A field is found only where its label occurs, directly followed by a
      separator: with no label in the text the field stays `null`. */
  lemma FieldNeedsLabel(s: string, rule: FieldRule)
    ensures Capture(s, rule).Some? ==>
      exists i :: 0 <= i <= |s| && LabelEnd(s, i, rule.key).Some? &&
        LabelEnd(s, i, rule.key).value < |s| && IsSeparator(s[LabelEnd(s, i, rule.key).value])
  {
    if Capture(s, rule).Some? {
      var i := FindField(s, 0, rule).value.0;
      assert FieldAt(s, i, rule).Some?;
    }
  }

  /** The NHS number found right after `NHS Number: ` when no digit follows
      is one space, so the stored number is the empty string, not `null`. */
  lemma NhsLabelWithoutDigits(s: string, i: nat, j: nat)
    requires i <= |s| && LabelEnd(s, i, NhsRule.key) == Some(j)
    requires j + 2 <= |s| && s[j] == ':' && s[j + 1] == ' '
    requires j + 2 < |s| ==> !IsSeparator(s[j + 2]) && !IsDigit(s[j + 2])
    ensures FieldAt(s, i, NhsRule) == Some(" ")
    ensures Trim(RemoveWhitespace(" ")) == ""
  {
    assert SeparatorEnd(s, j + 2) == j + 2;
    assert SeparatorEnd(s, j) == j + 2;
    assert CaptureAt(s, j + 2, NhsRule).None?;
    assert ClassEnd(s, j + 2, DigitsAndSpace) == j + 2;
    assert ClassEnd(s, j + 1, DigitsAndSpace) == j + 2;
    assert s[j + 1..j + 2] == " ";
    assert CaptureAt(s, j + 1, NhsRule) == Some(" ");
  }
}

=== FILE: report_parser.dfy ===
/** The entry point of the pathology report parser (`parsePathologyReport`
    in src/lib/utils.ts): normalise the whitespace of the extracted text, then
    read the patient details and the test results from it. */
module ReportParser {
  import opened Wrappers
  import opened Text
  import opened ReportStatus
  import opened ReportFields
  import opened ReportTests

  datatype ParsedReport = ParsedReport(patientDetails: PatientDetails, testResults: seq<TestResult>)

  /** What `parsePathologyReport(extractedText)` returns. Both parts read the
      same normalised text: whitespace runs collapsed to one space, then
      trimmed. Each patient field is its label's capture, trimmed (the NHS
      number with all whitespace removed first), or null without the label;
      the test results are empty without the section header, otherwise the
      known-test tier, or the fallback tier when that tier is empty.
      `general` gives the matches of the fallback pattern on a section. */
  predicate IsParseOf(report: ParsedReport, extractedText: string, general: string -> seq<GeneralHit>) {
    var text := Normalise(extractedText);
    && report.patientDetails.nhsNumber ==
         (match Capture(text, NhsRule) case None => None case Some(c) => Some(Trim(RemoveWhitespace(c))))
    && report.patientDetails.name == (match Capture(text, NameRule) case None => None case Some(c) => Some(Trim(c)))
    && report.patientDetails.dateOfBirth == (match Capture(text, DobRule) case None => None case Some(c) => Some(Trim(c)))
    && report.patientDetails.gp == (match Capture(text, GpRule) case None => None case Some(c) => Some(Trim(c)))
    && report.patientDetails.sampleId == (match Capture(text, SampleIdRule) case None => None case Some(c) => Some(Trim(c)))
    && (Section(text).None? ==> report.testResults == [])
    && (Section(text).Some? && KnownTier(Section(text).value, Catalogue, DetermineStatus) != [] ==>
          report.testResults == KnownTier(Section(text).value, Catalogue, DetermineStatus))
    && (Section(text).Some? && KnownTier(Section(text).value, Catalogue, DetermineStatus) == [] ==>
          report.testResults == FallbackTier(general(Section(text).value), DetermineStatus))
  }

  /** `parsePathologyReport(extractedText)`. */
  method ParsePathologyReport(extractedText: string, general: string -> seq<GeneralHit>) returns (report: ParsedReport)
    ensures IsParseOf(report, extractedText, general)
    ensures report.patientDetails.nhsNumber.Some? ==> AllDigits(report.patientDetails.nhsNumber.value)
  {
    var text := Normalise(extractedText);
    var details := ParsePatientDetails(text);
    var results := ParseTestResults(text, general);
    report := ParsedReport(details, results);
  }
}

=== FILE: report_status.dfy ===
/** The status classifier of the pathology report parser (`determineStatus`
    in src/lib/utils.ts) and the part of JavaScript's `parseFloat` it relies on.
    Numbers are exact decimals: IEEE-754 rounding is not modelled. */
module ReportStatus {
  import opened Wrappers
  import opened Text
  import opened Search

  /** The labels the classifier produces; `null` is `None`. */
  datatype Status = Normal | High | Low {
    function Label(): string {
      match this
      case Normal => "Normal"
      case High => "High"
      case Low => "Low"
    }
  }

  /** A JavaScript number other than NaN (NaN is `None` wherever it can occur). */
  datatype JsNumber = Finite(r: real) | PosInfinity | NegInfinity

  /** JavaScript's `<` on two non-NaN numbers. */
  predicate Less(a: JsNumber, b: JsNumber) {
    match a
    case NegInfinity => !b.NegInfinity?
    case PosInfinity => false
    case Finite(x) =>
      match b
      case Finite(y) => x < y
      case PosInfinity => true
      case NegInfinity => false
  }

  function DigitValue(c: char): nat
    requires IsDigit(c)
  {
    c as int - '0' as int
  }

  /** The value of a run of decimal digits. */
  function DigitsValue(ds: string): nat
    requires AllDigits(ds)
  {
    if ds == [] then 0 else DigitsValue(ds[..|ds| - 1]) * 10 + DigitValue(ds[|ds| - 1])
  }

  function Pow10(n: nat): (p: nat)
    ensures p >= 1
  {
    if n == 0 then 1 else 10 * Pow10(n - 1)
  }

  /** End of the maximal run of ASCII digits that starts at `i`. */
  function DigitRunEnd(s: string, i: nat): (j: nat)
    requires i <= |s|
    ensures i <= j <= |s|
    ensures forall k :: i <= k < j ==> IsDigit(s[k])
    ensures j < |s| ==> !IsDigit(s[j])
    decreases |s| - i
  {
    if i < |s| && IsDigit(s[i]) then DigitRunEnd(s, i + 1) else i
  }

  lemma DigitRunIsDigits(s: string, i: nat)
    requires i <= |s|
    ensures AllDigits(s[i..DigitRunEnd(s, i)])
  {
    var t := s[i..DigitRunEnd(s, i)];
    forall k | 0 <= k < |t| ensures IsDigit(t[k]) {
      assert t[k] == s[i + k];
    }
  }

  /** The exponent part (`e`, optional sign, digits) that starts at `i`, or 0
      when there is none (an `e` without digits is not part of the number). */
  function ExponentAt(s: string, i: nat): int
    requires i <= |s|
  {
    if i < |s| && (s[i] == 'e' || s[i] == 'E') then
      var neg := i + 1 < |s| && s[i + 1] == '-';
      var d := if i + 1 < |s| && (s[i + 1] == '-' || s[i + 1] == '+') then i + 2 else i + 1;
      if d <= |s| && DigitRunEnd(s, d) > d then
        DigitRunIsDigits(s, d);
        var e: int := DigitsValue(s[d..DigitRunEnd(s, d)]);
        if neg then -e else e
      else 0
    else 0
  }

  function Scale(e: int): (r: real)
    ensures r > 0.0
  {
    if e >= 0 then Pow10(e) as real else 1.0 / (Pow10(-e) as real)
  }

  /** `parseFloat(s)`: skips leading whitespace and reads the longest prefix
      that is a decimal literal (sign, digits, fraction, exponent) or
      `Infinity`. `None` is NaN: no digit before or after the point. */
  function ParseFloat(s: string): (r: Option<JsNumber>)
    ensures SkipWhitespace(s, 0) == |s| ==> r.None?
    ensures SkipWhitespace(s, 0) < |s| && IsDigit(s[SkipWhitespace(s, 0)]) ==> r.Some? && r.value.Finite? && r.value.r >= 0.0
  {
    var i := SkipWhitespace(s, 0);
    var neg := i < |s| && s[i] == '-';
    var j := if i < |s| && (s[i] == '-' || s[i] == '+') then i + 1 else i;
    if StartsWith(s[j..], "Infinity") then Some(if neg then NegInfinity else PosInfinity)
    else match UnsignedAt(s, j)
      case None => None
      case Some(m) => Some(Finite(if neg then -m else m))
  }

  /** The value of the digits `ip.fp`. */
  function Mantissa(ip: string, fp: string): (m: real)
    requires AllDigits(ip) && AllDigits(fp)
    ensures m >= 0.0
  {
    DigitsValue(ip) as real + DigitsValue(fp) as real / Pow10(|fp|) as real
  }

  /** The unsigned decimal literal (digits, optional fraction, optional
      exponent) that starts at `j`; `None` when it has no digit at all. */
  function UnsignedAt(s: string, j: nat): (r: Option<real>)
    requires j <= |s|
    ensures j < |s| && IsDigit(s[j]) ==> r.Some?
    ensures j == |s| ==> r.None?
    ensures r.Some? ==> r.value >= 0.0
  {
    var k := DigitRunEnd(s, j);
    var f0 := if k < |s| && s[k] == '.' then k + 1 else k;
    var f1 := DigitRunEnd(s, f0);
    if k == j && f1 == f0 then None
    else
      DigitRunIsDigits(s, j);
      DigitRunIsDigits(s, f0);
      Some(Mantissa(s[j..k], s[f0..f1]) * Scale(ExponentAt(s, f1)))
  }

  /** The characters of `[\d\.]`. */
  predicate IsNumChar(c: char) {
    IsDigit(c) || c == '.'
  }

  predicate AllNumChars(s: string) {
    forall i :: 0 <= i < |s| ==> IsNumChar(s[i])
  }

  /** End of the maximal `[\d\.]` run that starts at `i`. */
  function NumRunEnd(s: string, i: nat): (j: nat)
    requires i <= |s|
    ensures i <= j <= |s|
    ensures forall k :: i <= k < j ==> IsNumChar(s[k])
    ensures j < |s| ==> !IsNumChar(s[j])
    decreases |s| - i
  {
    if i < |s| && IsNumChar(s[i]) then NumRunEnd(s, i + 1) else i
  }

  /** `op` at `p` directly followed by a character of `[\d\.]`: where
      `/<([\d\.]+)/` (for `op` = '<') or `/>([\d\.]+)/` can match. */
  predicate OpThenNumber(s: string, op: char, p: nat) {
    p + 1 < |s| && s[p] == op && IsNumChar(s[p + 1])
  }

  /** The capture of the threshold pattern when its match starts at `p`: the
      whole `[\d\.]` run after `op` (the `+` is greedy and nothing follows it). */
  function ThresholdAt(s: string, op: char, p: nat): Option<string> {
    if OpThenNumber(s, op, p) then Some(s[p + 1..NumRunEnd(s, p + 1)]) else None
  }

  /** Group 1 of `s.match(/<([\d\.]+)/)` (for `op` = '<') or of
      `s.match(/>([\d\.]+)/)` (for `op` = '>'), searching from `i`: nothing
      when no `op` is followed by a number character, and otherwise the whole
      number run after the first such `op`. */
  function Threshold(s: string, op: char, i: nat): (r: Option<string>)
    requires i <= |s|
    ensures r.Some? ==> |r.value| > 0 && AllNumChars(r.value)
  {
    match Leftmost((p: nat) => ThresholdAt(s, op, p), i, |s|)
    case None => None
    case Some((p, c)) => Some(c)
  }

  /** The threshold captured is the leftmost one: none exactly when no `op`
      from `i` on is followed by a number character, and otherwise the whole
      number run after the first `op` that is. */
  lemma ThresholdIsLeftmost(s: string, op: char, i: nat)
    requires i <= |s|
    ensures Threshold(s, op, i).None? <==> forall p :: i <= p < |s| ==> !OpThenNumber(s, op, p)
    ensures Threshold(s, op, i).Some? ==> exists p :: (i <= p < |s| && OpThenNumber(s, op, p)
      && (forall q :: i <= q < p ==> !OpThenNumber(s, op, q))
      && Threshold(s, op, i).value == s[p + 1..NumRunEnd(s, p + 1)])
  {
    var at := (p: nat) => ThresholdAt(s, op, p);
    LeftmostIsFirst(at, i, |s|);
    var m := Leftmost(at, i, |s|);
    if m.None? {
      forall p | i <= p < |s| ensures !OpThenNumber(s, op, p) {
        assert at(p).None?;
      }
    } else {
      var p := m.value.0;
      assert at(p).Some?;
      assert OpThenNumber(s, op, p);
      forall q | i <= q < p ensures !OpThenNumber(s, op, q) {
        assert at(q).None?;
      }
    }
  }

  /** The match of `([\d\.]+)\s*-\s*([\d\.]+)` that starts at `i`, if any.
      Every quantifier here is followed by a character its class refuses, so
      backtracking never finds a second way and the greedy reading is the match. */
  function RangeAt(s: string, i: nat): (r: Option<(string, string)>)
    ensures r.Some? ==> |r.value.0| > 0 && |r.value.1| > 0 && AllNumChars(r.value.0) && AllNumChars(r.value.1)
  {
    if i >= |s| || !IsNumChar(s[i]) then None
    else
      var j := NumRunEnd(s, i);
      var k := SkipWhitespace(s, j);
      if k < |s| && s[k] == '-' then
        var m := SkipWhitespace(s, k + 1);
        var n := NumRunEnd(s, m);
        if n > m then Some((s[i..j], s[m..n])) else None
      else None
  }

  /** Groups 1 and 2 of `s.match(/([\d\.]+)\s*-\s*([\d\.]+)/)`, searching
      from `i`: nothing when no start matches, and otherwise the groups of the
      match at the first start that matches. */
  function Range(s: string, i: nat): (r: Option<(string, string)>)
    requires i <= |s|
    ensures r.Some? ==> |r.value.0| > 0 && |r.value.1| > 0 && AllNumChars(r.value.0) && AllNumChars(r.value.1)
  {
    match Leftmost((k: nat) => RangeAt(s, k), i, |s|)
    case None => None
    case Some((k, g)) => Some(g)
  }

  /** The range captured is the leftmost one: none exactly when no start
      from `i` on matches, and otherwise the groups of the first start that
      matches. */
  lemma RangeIsLeftmost(s: string, i: nat)
    requires i <= |s|
    ensures Range(s, i).None? <==> forall k :: i <= k < |s| ==> RangeAt(s, k).None?
    ensures Range(s, i).Some? ==> exists k :: (i <= k < |s| && Range(s, i) == RangeAt(s, k)
      && (forall q :: i <= q < k ==> RangeAt(s, q).None?))
  {
    var at := (k: nat) => RangeAt(s, k);
    LeftmostIsFirst(at, i, |s|);
    var m := Leftmost(at, i, |s|);
    if m.None? {
      forall k | i <= k < |s| ensures RangeAt(s, k).None? {
        assert at(k).None?;
      }
    } else {
      var k := m.value.0;
      assert at(k) == RangeAt(s, k);
      forall q | i <= q < k ensures RangeAt(s, q).None? {
        assert at(q).None?;
      }
    }
  }

  /** `determineStatus(value, referenceRange)`. The `<X` reading is tried
      first, then `>X`, then `A - B`; an empty or missing argument, a value
      that is not a number, or a range of none of the three shapes gives
      `None`. A threshold that does not parse (such as "<..") is NaN, against
      which every comparison is false. */
  function DetermineStatus(value: Option<string>, range: Option<string>): (r: Option<Status>)
    ensures value.None? || value == Some("") || range.None? || range == Some("") ==> r.None?
    ensures value.Some? && ParseFloat(value.value).None? ==> r.None?
  {
    if value.None? || value.value == "" || range.None? || range.value == "" then None
    else match ParseFloat(value.value)
      case None => None
      case Some(v) =>
        var rr := range.value;
        var below := if '<' in rr then Threshold(rr, '<', 0) else None;
        if below.Some? then
          var t := ParseFloat(below.value);
          Some(if t.Some? && Less(v, t.value) then Normal else High)
        else
          var above := if '>' in rr then Threshold(rr, '>', 0) else None;
          if above.Some? then
            var t := ParseFloat(above.value);
            Some(if t.Some? && Less(t.value, v) then Normal else Low)
          else
            match Range(rr, 0)
            case None => None
            case Some((a, b)) =>
              var lo := ParseFloat(a);
              var hi := ParseFloat(b);
              if lo.None? || hi.None? then None
              else if Less(v, lo.value) then Some(Low)
              else if Less(hi.value, v) then Some(High)
              else Some(Normal)
  }

  /** Without `op` in the range there is no threshold to capture. */
  lemma NoSignNoThreshold(s: string, op: char)
    requires op !in s
    ensures Threshold(s, op, 0).None?
  {
    ThresholdIsLeftmost(s, op, 0);
    forall p | 0 <= p < |s| ensures !OpThenNumber(s, op, p) {
      assert s[p] in s;
    }
  }

  /** Exactly when the classifier answers null: an argument is missing or
      empty, the value is not a number, or neither `<` nor `>` is followed by
      a number and the range either has no `A - B` reading or has one with a
      bound that is not a number. */
  lemma NullExactly(value: Option<string>, range: Option<string>)
    ensures DetermineStatus(value, range).None? <==>
      || value.None? || value.value == "" || range.None? || range.value == ""
      || ParseFloat(value.value).None?
      || (&& Threshold(range.value, '<', 0).None? && Threshold(range.value, '>', 0).None?
          && (|| Range(range.value, 0).None?
              || ParseFloat(Range(range.value, 0).value.0).None?
              || ParseFloat(Range(range.value, 0).value.1).None?))
  {
    if value.Some? && value.value != "" && range.Some? && range.value != "" && ParseFloat(value.value).Some? {
      var rr := range.value;
      var below := if '<' in rr then Threshold(rr, '<', 0) else None;
      assert below == Threshold(rr, '<', 0) by {
        if '<' !in rr { NoSignNoThreshold(rr, '<'); }
      }
      var above := if '>' in rr then Threshold(rr, '>', 0) else None;
      assert above == Threshold(rr, '>', 0) by {
        if '>' !in rr { NoSignNoThreshold(rr, '>'); }
      }
    }
  }

  /** A captured threshold that is not a number (such as ".") is NaN, so the
      comparison fails: High for `<`, and Low for `>` when there is no `<`. */
  lemma UnreadableThreshold(v: string, s: string, a: string, x: JsNumber)
    requires ParseFloat(v) == Some(x) && ParseFloat(a).None?
    ensures '<' in s && Threshold(s, '<', 0) == Some(a) ==> DetermineStatus(Some(v), Some(s)) == Some(High)
    ensures '<' !in s && '>' in s && Threshold(s, '>', 0) == Some(a) ==> DetermineStatus(Some(v), Some(s)) == Some(Low)
  {
  }

  /** A number run followed by nothing that could extend it. */
  predicate EndsNumber(rest: string) {
    rest == [] || !IsNumChar(rest[0])
  }

  lemma {:induction false} NumRunEndIs(s: string, i: nat, n: nat)
    requires i <= n <= |s|
    requires forall k :: i <= k < n ==> IsNumChar(s[k])
    requires n < |s| ==> !IsNumChar(s[n])
    ensures NumRunEnd(s, i) == n
    decreases n - i
  {
    if i < n { NumRunEndIs(s, i + 1, n); }
  }

  lemma {:induction false} DigitRunEndIs(s: string, i: nat, n: nat)
    requires i <= n <= |s|
    requires forall k :: i <= k < n ==> IsDigit(s[k])
    requires n < |s| ==> !IsDigit(s[n])
    ensures DigitRunEnd(s, i) == n
    decreases n - i
  {
    if i < n { DigitRunEndIs(s, i + 1, n); }
  }

  lemma {:induction false} NoComparisonSign(a: string)
    requires AllNumChars(a)
    ensures '<' !in a && '>' !in a
  {
    assert forall i :: 0 <= i < |a| ==> a[i] != '<' && a[i] != '>';
  }

  lemma {:induction false} ThresholdOfPrefix(op: char, a: string, rest: string)
    requires |a| > 0 && AllNumChars(a) && EndsNumber(rest)
    ensures Threshold([op] + a + rest, op, 0) == Some(a)
  {
    var s := [op] + a + rest;
    assert s[1] == a[0];
    assert forall k :: 1 <= k < 1 + |a| ==> s[k] == a[k - 1];
    assert 1 + |a| < |s| ==> s[1 + |a|] == rest[0];
    NumRunEndIs(s, 1, 1 + |a|);
    assert s[1..1 + |a|] == a;
  }

  /** A `<X` range: Normal exactly when the value is below X, so a value equal
      to X is High. Text after X that cannot continue the number is ignored. */
  lemma {:induction false} BelowThreshold(v: string, a: string, rest: string, x: real, t: real)
    requires |a| > 0 && AllNumChars(a) && EndsNumber(rest)
    requires ParseFloat(v) == Some(Finite(x)) && ParseFloat(a) == Some(Finite(t))
    ensures DetermineStatus(Some(v), Some("<" + a + rest)) == Some(if x < t then Normal else High)
  {
    var s := "<" + a + rest;
    ThresholdOfPrefix('<', a, rest);
    assert s[0] == '<';
    StatusBelow(v, s, a, x, t);
  }

  lemma StatusBelow(v: string, s: string, a: string, x: real, t: real)
    requires '<' in s && Threshold(s, '<', 0) == Some(a)
    requires ParseFloat(v) == Some(Finite(x)) && ParseFloat(a) == Some(Finite(t))
    ensures DetermineStatus(Some(v), Some(s)) == Some(if x < t then Normal else High)
  {
  }

  /** A `>X` range (with no `<` anywhere): Normal exactly when the value is
      above X, so a value equal to X is Low. */
  lemma {:induction false} AboveThreshold(v: string, a: string, rest: string, x: real, t: real)
    requires |a| > 0 && AllNumChars(a) && EndsNumber(rest) && '<' !in rest
    requires ParseFloat(v) == Some(Finite(x)) && ParseFloat(a) == Some(Finite(t))
    ensures DetermineStatus(Some(v), Some(">" + a + rest)) == Some(if t < x then Normal else Low)
  {
    var s := ">" + a + rest;
    ThresholdOfPrefix('>', a, rest);
    assert s[0] == '>';
    NoComparisonSign(a);
    assert '<' !in s;
    StatusAbove(v, s, a, x, t);
  }

  lemma StatusAbove(v: string, s: string, a: string, x: real, t: real)
    requires '<' !in s && '>' in s && Threshold(s, '>', 0) == Some(a)
    requires ParseFloat(v) == Some(Finite(x)) && ParseFloat(a) == Some(Finite(t))
    ensures DetermineStatus(Some(v), Some(s)) == Some(if t < x then Normal else Low)
  {
  }

  lemma {:induction false} RangeOfShape(a: string, b: string, rest: string)
    requires |a| > 0 && AllNumChars(a) && |b| > 0 && AllNumChars(b) && EndsNumber(rest)
    ensures Range(a + " - " + b + rest, 0) == Some((a, b))
  {
    var s := a + " - " + b + rest;
    var n := |a|;
    var m := n + 3;
    RangeRuns(a, b, rest);
    assert SkipWhitespace(s, n + 2) == n + 3;
    assert SkipWhitespace(s, n) == n + 1;
    assert RangeAt(s, 0) == Some((a, b));
  }

  lemma RangeRuns(a: string, b: string, rest: string)
    requires |a| > 0 && AllNumChars(a) && |b| > 0 && AllNumChars(b) && EndsNumber(rest)
    ensures var s := a + " - " + b + rest;
            var n, m := |a|, |a| + 3;
            && s[0] == a[0] && s[n] == ' ' && s[n + 1] == '-' && s[n + 2] == ' '
            && NumRunEnd(s, 0) == n && NumRunEnd(s, m) == m + |b|
            && s[..n] == a && s[m..m + |b|] == b
  {
    var s := a + " - " + b + rest;
    var n := |a|;
    var m := n + 3;
    assert forall k :: 0 <= k < n ==> s[k] == a[k];
    assert s[n] == ' ' && s[n + 1] == '-' && s[n + 2] == ' ';
    assert forall k :: m <= k < m + |b| ==> s[k] == b[k - m];
    assert m + |b| < |s| ==> s[m + |b|] == rest[0];
    NumRunEndIs(s, 0, n);
    NumRunEndIs(s, m, m + |b|);
    assert s[..n] == a && s[m..m + |b|] == b;
  }

  /** An `A - B` range (with neither `<` nor `>` after it): Low below A, High
      above B, Normal from A to B inclusive. */
  lemma {:induction false} WithinRange(v: string, a: string, b: string, rest: string, x: real, lo: real, hi: real)
    requires |a| > 0 && AllNumChars(a) && |b| > 0 && AllNumChars(b) && EndsNumber(rest)
    requires '<' !in rest && '>' !in rest
    requires ParseFloat(v) == Some(Finite(x)) && ParseFloat(a) == Some(Finite(lo)) && ParseFloat(b) == Some(Finite(hi))
    ensures DetermineStatus(Some(v), Some(a + " - " + b + rest)) ==
      Some(if x < lo then Low else if hi < x then High else Normal)
    ensures lo <= hi ==> (DetermineStatus(Some(v), Some(a + " - " + b + rest)) == Some(Normal) <==> lo <= x <= hi)
  {
    var s := a + " - " + b + rest;
    RangeOfShape(a, b, rest);
    RangeHasNoSign(a, b, rest);
    StatusBetween(v, s, a, b, x, lo, hi);
  }

  lemma RangeHasNoSign(a: string, b: string, rest: string)
    requires AllNumChars(a) && AllNumChars(b) && '<' !in rest && '>' !in rest
    ensures '<' !in a + " - " + b + rest && '>' !in a + " - " + b + rest
  {
    NoComparisonSign(a);
    NoComparisonSign(b);
    assert '<' !in " - " && '>' !in " - ";
  }

  /** With neither `<` nor `>` in the range, the `A - B` reading decides. */
  lemma StatusBetween(v: string, s: string, a: string, b: string, x: real, lo: real, hi: real)
    requires s != [] && '<' !in s && '>' !in s && Range(s, 0) == Some((a, b))
    requires ParseFloat(v) == Some(Finite(x)) && ParseFloat(a) == Some(Finite(lo)) && ParseFloat(b) == Some(Finite(hi))
    ensures DetermineStatus(Some(v), Some(s)) == Some(if x < lo then Low else if hi < x then High else Normal)
  {
  }

  /** `parseFloat` of a plain decimal `ip.fp` is its exact value. */
  lemma {:induction false} ParseDecimal(ip: string, fp: string)
    requires |ip| > 0 && AllDigits(ip) && AllDigits(fp)
    ensures ParseFloat(ip + "." + fp) == Some(Finite(DigitsValue(ip) as real + DigitsValue(fp) as real / Pow10(|fp|) as real))
  {
    var s := ip + "." + fp;
    UnsignedDecimal(ip, fp);
    assert s[0] == ip[0];
    assert SkipWhitespace(s, 0) == 0;
    assert s[0..] == s;
    assert s[0] != 'I';
    assert !StartsWith(s, "Infinity");
    assert ParseFloat(s) == Some(Finite(UnsignedAt(s, 0).value));
  }

  lemma {:induction false} UnsignedDecimal(ip: string, fp: string)
    requires |ip| > 0 && AllDigits(ip) && AllDigits(fp)
    ensures UnsignedAt(ip + "." + fp, 0) == Some(DigitsValue(ip) as real + DigitsValue(fp) as real / Pow10(|fp|) as real)
  {
    var s := ip + "." + fp;
    var n := |ip|;
    DecimalRuns(ip, fp);
    var k := DigitRunEnd(s, 0);
    var f0 := if k < |s| && s[k] == '.' then k + 1 else k;
    assert f0 == n + 1;
    var f1 := DigitRunEnd(s, f0);
    assert f1 == |s|;
    assert ExponentAt(s, f1) == 0;
    var mant := Mantissa(s[0..k], s[f0..f1]);
    assert UnsignedAt(s, 0) == Some(mant * Scale(ExponentAt(s, f1)));
    assert Scale(0) == 1.0;
    assert UnsignedAt(s, 0) == Some(mant);
    assert mant == DigitsValue(ip) as real + DigitsValue(fp) as real / Pow10(|fp|) as real;
  }

  lemma DecimalRuns(ip: string, fp: string)
    requires |ip| > 0 && AllDigits(ip) && AllDigits(fp)
    ensures var s := ip + "." + fp;
            && DigitRunEnd(s, 0) == |ip| && s[|ip|] == '.' && DigitRunEnd(s, |ip| + 1) == |s|
            && s[0..|ip|] == ip && s[|ip| + 1..|s|] == fp
  {
    var s := ip + "." + fp;
    var n := |ip|;
    assert forall k :: 0 <= k < n ==> s[k] == ip[k];
    assert s[n] == '.';
    assert forall k :: n + 1 <= k < |s| ==> s[k] == fp[k - n - 1];
    DigitRunEndIs(s, 0, n);
    DigitRunEndIs(s, n + 1, |s|);
    assert s[0..n] == ip && s[n + 1..|s|] == fp;
  }

  /** `parseFloat` on the readings and bounds of the classifier's examples. */
  lemma Parse14_2()
    ensures ParseFloat("14.2") == Some(Finite(14.2))
  {
    assert AllDigits("14") && AllDigits("2");
    ParseDecimal("14", "2");
    assert "14" + "." + "2" == "14.2";
    assert "14"[..1] == "1" && "1"[..0] == "" && "2"[..0] == "";
    assert DigitsValue("14") == 14 && DigitsValue("2") == 2 && Pow10(1) == 10;
  }

  lemma Parse10()
    ensures ParseFloat("10") == Some(Finite(10.0))
  {
  }

  /** A value equal to its threshold is never Normal: High against "<10" and
      Low against ">10". */
  lemma BoundaryExamples()
    ensures DetermineStatus(Some("10"), Some("<10")) == Some(High)
    ensures DetermineStatus(Some("10"), Some(">10")) == Some(Low)
  {
    Parse10();
    assert AllNumChars("10");
    assert "<" + "10" + "" == "<10";
    assert ">" + "10" + "" == ">10";
    BelowThreshold("10", "10", "", 10.0, 10.0);
    AboveThreshold("10", "10", "", 10.0, 10.0);
  }

  lemma Parse9()
    ensures ParseFloat("9") == Some(Finite(9.0))
  {
  }

  lemma Parse18()
    ensures ParseFloat("18") == Some(Finite(18.0))
  {
  }

  lemma Parse13_0()
    ensures ParseFloat("13.0") == Some(Finite(13.0))
  {
    assert AllDigits("13") && AllDigits("0");
    ParseDecimal("13", "0");
    assert "13" + "." + "0" == "13.0";
    assert "13"[..1] == "1" && "1"[..0] == "" && "0"[..0] == "";
    assert DigitsValue("13") == 13 && DigitsValue("0") == 0;
  }

  lemma Parse17_0()
    ensures ParseFloat("17.0") == Some(Finite(17.0))
  {
    assert AllDigits("17") && AllDigits("0");
    ParseDecimal("17", "0");
    assert "17" + "." + "0" == "17.0";
    assert "17"[..1] == "1" && "1"[..0] == "" && "0"[..0] == "";
    assert DigitsValue("17") == 17 && DigitsValue("0") == 0;
  }

  /** A reading below the threshold is Normal. */
  lemma BelowExample()
    ensures DetermineStatus(Some("9"), Some("<10")) == Some(Normal)
  {
    Parse10();
    Parse9();
    assert AllNumChars("10");
    assert "<" + "10" + "" == "<10";
    BelowThreshold("9", "10", "", 9.0, 10.0);
  }

  /** "13.0 - 17.0" has the shape of a range with bounds "13.0" and "17.0". */
  lemma ExampleRangeShape()
    ensures |"13.0"| > 0 && AllNumChars("13.0") && |"17.0"| > 0 && AllNumChars("17.0")
    ensures "13.0" + " - " + "17.0" + "" == "13.0 - 17.0"
  {
  }

  /** A reading inside the range is Normal. */
  lemma InsideRangeExample()
    ensures DetermineStatus(Some("14.2"), Some("13.0 - 17.0")) == Some(Normal)
  {
    Parse14_2();
    Parse13_0();
    Parse17_0();
    ExampleRangeShape();
    WithinRange("14.2", "13.0", "17.0", "", 14.2, 13.0, 17.0);
  }

  /** A reading above the range is High. */
  lemma AboveRangeExample()
    ensures DetermineStatus(Some("18"), Some("13.0 - 17.0")) == Some(High)
  {
    Parse18();
    Parse13_0();
    Parse17_0();
    ExampleRangeShape();
    WithinRange("18", "13.0", "17.0", "", 18.0, 13.0, 17.0);
  }
}

=== FILE: report_tests.dfy ===
/** The test-result extraction of the pathology report parser
    (`parseTestResults` in src/lib/utils.ts): find the results section, try
    the known-test catalogue in order, and only when that finds nothing fall
    back to the general pattern, whose successive matches are given. */
module ReportTests {
  import opened Wrappers
  import opened Text
  import opened ReportStatus
  import opened ReportFields
  import opened Search

  /** One row of the result list; `None` is `null`. */
  datatype TestResult = TestResult(
    testName: string,
    value: Option<string>,
    unit: Option<string>,
    referenceRange: Option<string>,
    status: Option<Status>,
    meaning: Option<string>)

  // ---------------------------------------------------------------- section

  /** `Test\s*Results\s*Test\s*Result\s*Reference\s*Range` */
  const SectionHeader := [Word("Test"), OptSpace, Word("Results"), OptSpace, Word("Test"), OptSpace,
                          Word("Result"), OptSpace, Word("Reference"), OptSpace, Word("Range")]

  /** `(?:Comments|All\s*results|$)` matches at `e`. */
  predicate SectionStop(s: string, e: nat)
    requires e <= |s|
  {
    e == |s| || WordAt(s, e, "Comments") || LabelEnd(s, e, [Word("All"), OptSpace, Word("results")]).Some?
  }

  /** The lazy `(.*?)`: the first `e` from which a stop follows, as long as no
      line terminator (which `.` refuses) comes first. */
  function SectionEnd(s: string, e: nat): (r: Option<nat>)
    requires e <= |s|
    ensures r.Some? ==> e <= r.value <= |s| && SectionStop(s, r.value)
    ensures r.Some? ==> forall k :: e <= k < r.value ==> !SectionStop(s, k) && !IsLineTerminator(s[k])
    decreases |s| - e
  {
    if SectionStop(s, e) then Some(e)
    else if e < |s| && !IsLineTerminator(s[e]) then SectionEnd(s, e + 1)
    else None
  }

  /** The capture when the section pattern starts at `i`. The `\s*` before the
      capture takes the whole whitespace run: giving some back cannot help,
      since no stop starts with whitespace. */
  function SectionAt(s: string, i: nat): (r: Option<string>)
  {
    if i > |s| then None
    else match LabelEnd(s, i, SectionHeader)
    case None => None
    case Some(j) =>
      var p := SkipWhitespace(s, j);
      match SectionEnd(s, p)
      case None => None
      case Some(e) => Some(s[p..e])
  }

  /** The results section of `text`, trimmed; `None` when the header is absent. */
  function Section(text: string): (r: Option<string>)
    ensures r.Some? ==> IsTrimmed(r.value)
    ensures (forall k :: 0 <= k <= |text| ==> LabelEnd(text, k, SectionHeader).None?) ==> r.None?
  {
    var at := (k: nat) => SectionAt(text, k);
    LeftmostIsFirst(at, 0, |text|);
    match Leftmost(at, 0, |text|)
    case None => None
    case Some((_, c)) => Some(Trim(c))
  }

  // ------------------------------------------------------ known-test patterns

  /** A piece of a known-test pattern. */
  datatype Tok =
    | Lit(w: string)   // literal text, compared case-insensitively
    | Spaces           // \s*
    | Spaces1          // \s+
    | Num              // ([\d\.]+), the value group
    | RangeGroup       // ([\d\.]+\s*-\s*[\d\.]+), the range group
    | BelowGroup       // (<[\d\.]+), the range group of CRP

  /** Every group of these patterns is followed by a character it refuses
      and every whitespace run by a character that is not whitespace, so a
      pattern matches at a given start in at most one way. `groups` are the
      texts captured so far. */
  function TokensAt(s: string, i: nat, toks: seq<Tok>, groups: seq<string>): (r: Option<seq<string>>)
    requires i <= |s|
    ensures r.Some? ==> |r.value| >= |groups| && r.value[..|groups|] == groups
    decreases |toks|
  {
    if toks == [] then Some(groups)
    else match toks[0]
      case Lit(w) => if WordAt(s, i, w) then TokensAt(s, i + |w|, toks[1..], groups) else None
      case Spaces => TokensAt(s, SkipWhitespace(s, i), toks[1..], groups)
      case Spaces1 =>
        if i < |s| && IsWhitespace(s[i]) then TokensAt(s, SkipWhitespace(s, i), toks[1..], groups) else None
      case Num =>
        if i < |s| && IsNumChar(s[i]) then
          var j := NumRunEnd(s, i);
          TokensAt(s, j, toks[1..], groups + [s[i..j]])
        else None
      case RangeGroup =>
        (match RangeGroupEnd(s, i)
         case None => None
         case Some(j) => TokensAt(s, j, toks[1..], groups + [s[i..j]]))
      case BelowGroup =>
        if i + 1 < |s| && s[i] == '<' && IsNumChar(s[i + 1]) then
          var j := NumRunEnd(s, i + 1);
          TokensAt(s, j, toks[1..], groups + [s[i..j]])
        else None
  }

  /** End of `[\d\.]+\s*-\s*[\d\.]+` when it starts at `i`. */
  function RangeGroupEnd(s: string, i: nat): (r: Option<nat>)
    requires i <= |s|
    ensures r.Some? ==> i < r.value <= |s|
  {
    if i < |s| && IsNumChar(s[i]) then
      var j := NumRunEnd(s, i);
      var k := SkipWhitespace(s, j);
      if k < |s| && s[k] == '-' then
        var m := SkipWhitespace(s, k + 1);
        if m < |s| && IsNumChar(s[m]) then Some(NumRunEnd(s, m)) else None
      else None
    else None
  }

  /** The groups of a match of `toks` that starts at `k`, if there is one. */
  function MatchAt(s: string, toks: seq<Tok>, k: nat): Option<seq<string>> {
    if k <= |s| then TokensAt(s, k, toks, []) else None
  }

  /** `s.match(pattern)` searching from `i`: the groups of the leftmost match. */
  function MatchFrom(s: string, i: nat, toks: seq<Tok>): (r: Option<seq<string>>)
    requires i <= |s|
    ensures r.None? ==> forall k :: i <= k <= |s| ==> TokensAt(s, k, toks, []).None?
    ensures r.Some? ==> exists k :: (i <= k <= |s| && TokensAt(s, k, toks, []) == r
      && forall q :: i <= q < k ==> TokensAt(s, q, toks, []).None?)
  {
    var at := (k: nat) => MatchAt(s, toks, k);
    LeftmostIsFirst(at, i, |s|);
    match Leftmost(at, i, |s|)
    case None =>
      assert forall k :: i <= k <= |s| ==> at(k) == TokensAt(s, k, toks, []);
      None
    case Some((k, g)) =>
      assert forall q :: i <= q <= k ==> at(q) == TokensAt(s, q, toks, []);
      Some(g)
  }

  /** An entry of the catalogue: the name as written (with its regular
      expression escapes), the pattern and the unit. */
  datatype KnownTest = KnownTest(rawName: string, pattern: seq<Tok>, unit: string)

  /** The catalogue, in the order it is tried. */
  const Catalogue: seq<KnownTest> := [
    KnownTest("Haemoglobin \\(Hb\\)",
      [Lit("Haemoglobin"), Spaces, Lit("(Hb)"), Spaces1, Num, Spaces1, Lit("g/dL"), Spaces1, RangeGroup, Spaces1, Lit("g/dL")],
      "g/dL"),
    KnownTest("White Blood Cells \\(WBC\\)",
      [Lit("White"), Spaces, Lit("Blood"), Spaces, Lit("Cells"), Spaces, Lit("(WBC)"), Spaces1, Num, Spaces1,
       Lit("x10^9/L"), Spaces1, RangeGroup, Spaces1, Lit("x10^9/L")],
      "x10^9/L"),
    KnownTest("Platelets",
      [Lit("Platelets"), Spaces1, Num, Spaces1, Lit("x10^9/L"), Spaces1, RangeGroup, Spaces1, Lit("x10^9/L")],
      "x10^9/L"),
    KnownTest("Creatinine",
      [Lit("Creatinine"), Spaces1, Num, Spaces1, Lit("\U{B5}mol/L"), Spaces1, RangeGroup, Spaces1, Lit("\U{B5}mol/L")],
      "\U{B5}mol/L"),
    KnownTest("ALT \\(Liver Enzyme\\)",
      [Lit("ALT"), Spaces, Lit("(Liver"), Spaces, Lit("Enzyme)"), Spaces1, Num, Spaces1, Lit("U/L"), Spaces1,
       RangeGroup, Spaces1, Lit("U/L")],
      "U/L"),
    KnownTest("CRP \\(Inflammation\\)",
      [Lit("CRP"), Spaces, Lit("(Inflammation)"), Spaces1, Num, Spaces1, Lit("mg/L"), Spaces1, BelowGroup, Spaces1,
       Lit("mg/L")],
      "mg/L")
  ]

  /** Every pattern has exactly two groups: the value, then the range. */
  function Groups(toks: seq<Tok>): nat {
    if toks == [] then 0
    else (if toks[0].Num? || toks[0].RangeGroup? || toks[0].BelowGroup? then 1 else 0) + Groups(toks[1..])
  }

  /** `s` without any of the characters in `cs`. */
  function Without(s: string, cs: set<char>): (r: string)
    ensures forall k :: 0 <= k < |r| ==> r[k] !in cs
    ensures |r| <= |s|
  {
    if s == [] then []
    else (if s[0] in cs then [] else [s[0]]) + Without(s[1..], cs)
  }

  /** `.replace(/\\|\(/g, '').replace(/\)/g, '')` followed by the clean-up
      table that puts the parentheses back for the four names that had them. */
  function DisplayName(rawName: string): (r: string)
    ensures |r| > 0 || Without(Without(rawName, {'\\', '('}), {')'}) == []
  {
    var n := Without(Without(rawName, {'\\', '('}), {')'});
    if n == "Haemoglobin Hb" then "Haemoglobin (Hb)"
    else if n == "White Blood Cells WBC" then "White Blood Cells (WBC)"
    else if n == "ALT Liver Enzyme" then "ALT (Liver Enzyme)"
    else if n == "CRP Inflammation" then "CRP (Inflammation)"
    else n
  }

  /** How a row's status is computed from its value and range (the status
      classifier, `DetermineStatus`; kept as a parameter so that the
      properties of the tiers hold whatever the classifier). */
  type Classifier = (Option<string>, Option<string>) -> Option<Status>

  /** The row a known test produces from its two groups. */
  function KnownRow(t: KnownTest, value: string, range: string, classify: Classifier): (r: TestResult)
    ensures r.unit == Some(t.unit) && r.referenceRange == Some(range + " " + t.unit) && r.meaning.None?
    ensures r.value == Some(value) && r.status == classify(Some(value), Some(range))
  {
    TestResult(DisplayName(t.rawName), Some(value), Some(t.unit), Some(range + " " + t.unit),
               classify(Some(value), Some(range)), None)
  }

  /** The row of `t` in `section`, if its pattern matches. */
  function KnownMatch(section: string, t: KnownTest, classify: Classifier): Option<TestResult> {
    match MatchFrom(section, 0, t.pattern)
    case None => None
    case Some(g) => if |g| == 2 then Some(KnownRow(t, g[0], g[1], classify)) else None
  }

  /** The rows the catalogue entries `cat` produce, in their order. */
  function KnownTier(section: string, cat: seq<KnownTest>, classify: Classifier): (r: seq<TestResult>)
    ensures |r| <= |cat|
    decreases |cat|
  {
    if cat == [] then []
    else
      var prev := KnownTier(section, cat[..|cat| - 1], classify);
      match KnownMatch(section, cat[|cat| - 1], classify)
      case None => prev
      case Some(row) => prev + [row]
  }

  /** The positions of the entries of `cat` whose pattern matches. */
  function KnownIndices(section: string, cat: seq<KnownTest>, classify: Classifier): (r: seq<nat>)
    ensures forall m :: 0 <= m < |r| ==> r[m] < |cat|
    decreases |cat|
  {
    if cat == [] then []
    else
      var prev := KnownIndices(section, cat[..|cat| - 1], classify);
      if KnownMatch(section, cat[|cat| - 1], classify).Some? then prev + [|cat| - 1] else prev
  }

  // --------------------------------------------------------------- fallback

  /** One match of the general pattern: its five groups, untrimmed. */
  datatype GeneralHit = GeneralHit(name: string, value: string, unit: string, range: string, rangeUnit: string)

  /** The filter of the fallback: a trimmed name of at least three characters
      that contains neither "test" nor "result" in any case. */
  predicate Keep(name: string) {
    |name| >= 3 && !Contains(Lower(name), "test") && !Contains(Lower(name), "result")
  }

  function GeneralRow(h: GeneralHit, classify: Classifier): (r: TestResult)
    ensures r.meaning.None? && r.testName == Trim(h.name)
    ensures r.referenceRange == Some(Trim(h.range) + " " + Trim(h.rangeUnit))
  {
    TestResult(Trim(h.name), Some(Trim(h.value)), Some(Trim(h.unit)), Some(Trim(h.range) + " " + Trim(h.rangeUnit)),
               classify(Some(Trim(h.value)), Some(Trim(h.range))), None)
  }

  /** The rows the fallback keeps from `hits`, in their order. */
  function FallbackTier(hits: seq<GeneralHit>, classify: Classifier): (r: seq<TestResult>)
    ensures |r| <= |hits|
    decreases |hits|
  {
    if hits == [] then []
    else
      var prev := FallbackTier(hits[..|hits| - 1], classify);
      var h := hits[|hits| - 1];
      if Keep(Trim(h.name)) then prev + [GeneralRow(h, classify)] else prev
  }

  lemma {:induction false} KnownTierStep(section: string, cat: seq<KnownTest>, i: nat, classify: Classifier)
    requires i < |cat|
    ensures var m := MatchFrom(section, 0, cat[i].pattern);
      KnownTier(section, cat[..i + 1], classify) ==
        if m.Some? && |m.value| == 2 then KnownTier(section, cat[..i], classify) + [KnownRow(cat[i], m.value[0], m.value[1], classify)]
        else KnownTier(section, cat[..i], classify)
  {
    assert cat[..i + 1][..i] == cat[..i];
  }

  lemma {:induction false} FallbackTierStep(hits: seq<GeneralHit>, k: nat, classify: Classifier)
    requires k < |hits|
    ensures FallbackTier(hits[..k + 1], classify) ==
      if Keep(Trim(hits[k].name)) then FallbackTier(hits[..k], classify) + [GeneralRow(hits[k], classify)] else FallbackTier(hits[..k], classify)
  {
    assert hits[..k + 1][..k] == hits[..k];
  }

  /** The known tier gives at most one row per catalogue entry, in catalogue
      order: row `m` is the row of entry `KnownIndices(section, cat, classify)[m]`, the
      positions strictly increase, and each row carries its entry's unit, the
      range with the unit appended, and no meaning. */
  lemma {:induction false} KnownTierOrder(section: string, cat: seq<KnownTest>, classify: Classifier)
    ensures RowsInOrder(section, cat, classify, KnownTier(section, cat, classify), KnownIndices(section, cat, classify))
    decreases |cat|
  {
    if cat != [] {
      var pre := cat[..|cat| - 1];
      KnownTierOrder(section, pre, classify);
      var rows0, idx0 := KnownTier(section, pre, classify), KnownIndices(section, pre, classify);
      match KnownMatch(section, cat[|cat| - 1], classify)
      case None =>
        assert KnownTier(section, cat, classify) == rows0 && KnownIndices(section, cat, classify) == idx0;
        RowsInOrderWiden(section, cat, classify, rows0, idx0);
      case Some(row) =>
        assert KnownTier(section, cat, classify) == rows0 + [row];
        assert KnownIndices(section, cat, classify) == idx0 + [|cat| - 1];
        RowsInOrderWiden(section, cat, classify, rows0, idx0);
        RowsInOrderExtend(section, cat, classify, rows0, idx0, row);
    }
  }

  /** Row `m` is the row of entry `idx[m]`, the positions strictly increase,
      and each row carries its entry's unit and no meaning. */
  predicate RowsInOrder(section: string, cat: seq<KnownTest>, classify: Classifier,
                        rows: seq<TestResult>, idx: seq<nat>)
  {
    && |idx| == |rows|
    && (forall m, n :: 0 <= m < n < |idx| ==> idx[m] < idx[n])
    && (forall m :: 0 <= m < |idx| ==> idx[m] < |cat|)
    && (forall m :: 0 <= m < |idx| ==> KnownMatch(section, cat[idx[m]], classify) == Some(rows[m]))
    && (forall m :: 0 <= m < |idx| ==> rows[m].unit == Some(cat[idx[m]].unit) && rows[m].meaning.None?)
  }

  /** The order established for the catalogue without its last entry still
      holds, against the whole catalogue. */
  lemma RowsInOrderWiden(section: string, cat: seq<KnownTest>, classify: Classifier,
                         rows: seq<TestResult>, idx: seq<nat>)
    requires cat != [] && RowsInOrder(section, cat[..|cat| - 1], classify, rows, idx)
    ensures RowsInOrder(section, cat, classify, rows, idx)
  {
    var pre := cat[..|cat| - 1];
    forall m | 0 <= m < |idx| ensures cat[idx[m]] == pre[idx[m]] {
    }
  }

  /** Appending the row of the last entry keeps the order. */
  lemma RowsInOrderExtend(section: string, cat: seq<KnownTest>, classify: Classifier,
                          rows: seq<TestResult>, idx: seq<nat>, row: TestResult)
    requires cat != [] && RowsInOrder(section, cat, classify, rows, idx)
    requires forall m :: 0 <= m < |idx| ==> idx[m] < |cat| - 1
    requires KnownMatch(section, cat[|cat| - 1], classify) == Some(row)
    ensures RowsInOrder(section, cat, classify, rows + [row], idx + [|cat| - 1])
  {
    var r, x := rows + [row], idx + [|cat| - 1];
    var t := cat[|cat| - 1];
    match MatchFrom(section, 0, t.pattern)
    case Some(g) =>
      assert row == KnownRow(t, g[0], g[1], classify);
    forall m | 0 <= m < |x| ensures KnownMatch(section, cat[x[m]], classify) == Some(r[m]) {
      if m < |idx| {
        assert x[m] == idx[m] && r[m] == rows[m];
      }
    }
  }

  /** The number of groups a successful match captures. */
  lemma {:induction false} GroupsCaptured(s: string, i: nat, toks: seq<Tok>, groups: seq<string>)
    requires i <= |s|
    ensures TokensAt(s, i, toks, groups).Some? ==> |TokensAt(s, i, toks, groups).value| == |groups| + Groups(toks)
    decreases |toks|
  {
    if toks != [] {
      match toks[0]
      case Lit(w) => if WordAt(s, i, w) { GroupsCaptured(s, i + |w|, toks[1..], groups); }
      case Spaces => GroupsCaptured(s, SkipWhitespace(s, i), toks[1..], groups);
      case Spaces1 => GroupsCaptured(s, SkipWhitespace(s, i), toks[1..], groups);
      case Num =>
        if i < |s| && IsNumChar(s[i]) { GroupsCaptured(s, NumRunEnd(s, i), toks[1..], groups + [s[i..NumRunEnd(s, i)]]); }
      case RangeGroup =>
        if RangeGroupEnd(s, i).Some? {
          var j := RangeGroupEnd(s, i).value;
          GroupsCaptured(s, j, toks[1..], groups + [s[i..j]]);
        }
      case BelowGroup =>
        if i + 1 < |s| && s[i] == '<' && IsNumChar(s[i + 1]) {
          var j := NumRunEnd(s, i + 1);
          GroupsCaptured(s, j, toks[1..], groups + [s[i..j]]);
        }
    }
  }

  /** A known test whose pattern matches always yields its row: every pattern
      has exactly the value group and the range group. */
  lemma KnownMatchExists(section: string, t: KnownTest, classify: Classifier)
    requires Groups(t.pattern) == 2
    ensures KnownMatch(section, t, classify).Some? <==> MatchFrom(section, 0, t.pattern).Some?
  {
    var m := MatchFrom(section, 0, t.pattern);
    if m.Some? {
      var k :| 0 <= k <= |section| && TokensAt(section, k, t.pattern, []) == m;
      GroupsCaptured(section, k, t.pattern, []);
    }
  }

  /** Every row has a name the fallback keeps and a null meaning. */
  predicate KeptRows(r: seq<TestResult>) {
    forall m :: 0 <= m < |r| ==> Keep(r[m].testName) && r[m].meaning.None?
  }

  lemma KeptRowsAppend(r0: seq<TestResult>, row: TestResult)
    requires KeptRows(r0) && Keep(row.testName) && row.meaning.None?
    ensures KeptRows(r0 + [row])
  {
    var r := r0 + [row];
    forall m | 0 <= m < |r| ensures Keep(r[m].testName) && r[m].meaning.None? {
      if m < |r0| { assert r[m] == r0[m]; } else { assert r[m] == row; }
    }
  }

  /** The fallback keeps exactly the hits whose trimmed name passes the
      filter, in their order, so every row it gives passes it. */
  lemma {:induction false} FallbackFilter(hits: seq<GeneralHit>, classify: Classifier)
    ensures KeptRows(FallbackTier(hits, classify))
    decreases |hits|
  {
    if hits != [] {
      var pre := hits[..|hits| - 1];
      FallbackFilter(pre, classify);
      var r0 := FallbackTier(pre, classify);
      var h := hits[|hits| - 1];
      if Keep(Trim(h.name)) {
        var row := GeneralRow(h, classify);
        var r := r0 + [row];
        assert FallbackTier(hits, classify) == r;
        KeptRowsAppend(r0, row);
      } else {
        assert FallbackTier(hits, classify) == r0;
      }
    }
  }

  /** The row of every hit, in order. */
  function AllRows(hits: seq<GeneralHit>, classify: Classifier): (r: seq<TestResult>)
    ensures |r| == |hits|
    decreases |hits|
  {
    if hits == [] then [] else AllRows(hits[..|hits| - 1], classify) + [GeneralRow(hits[|hits| - 1], classify)]
  }

  /** When every hit passes the filter, the fallback keeps them all. */
  lemma {:induction false} FallbackKeepsAll(hits: seq<GeneralHit>, classify: Classifier)
    requires forall k :: 0 <= k < |hits| ==> Keep(Trim(hits[k].name))
    ensures FallbackTier(hits, classify) == AllRows(hits, classify)
    decreases |hits|
  {
    if hits != [] {
      var pre := hits[..|hits| - 1];
      assert forall k :: 0 <= k < |pre| ==> pre[k] == hits[k];
      FallbackKeepsAll(pre, classify);
      assert Keep(Trim(hits[|hits| - 1].name));
    }
  }

  /** `parseTestResults(text)` with the catalogue `catalogue`.
      `general(section)` is the list of successive matches of the general
      pattern on the section. */
  method ParseTestResultsWith(text: string, catalogue: seq<KnownTest>, general: string -> seq<GeneralHit>,
                              classify: Classifier)
    returns (results: seq<TestResult>)
    ensures Section(text).None? ==> results == []
    ensures Section(text).Some? && KnownTier(Section(text).value, catalogue, classify) != [] ==>
      results == KnownTier(Section(text).value, catalogue, classify)
    ensures Section(text).Some? && KnownTier(Section(text).value, catalogue, classify) == [] ==>
      results == FallbackTier(general(Section(text).value), classify)
  {
    var sectionMatch := Section(text);
    if sectionMatch.None? {
      return [];
    }
    var section := sectionMatch.value;
    results := KnownRows(section, catalogue, classify);
    if |results| == 0 {
      results := FallbackRows(general(section), classify);
    }
  }

  /** The first loop of `parseTestResults`: one row per catalogue entry whose
      pattern matches the section with both groups. */
  method KnownRows(section: string, catalogue: seq<KnownTest>, classify: Classifier)
    returns (results: seq<TestResult>)
    ensures results == KnownTier(section, catalogue, classify)
  {
    results := [];
    for i := 0 to |catalogue|
      invariant results == KnownTier(section, catalogue[..i], classify)
    {
      KnownTierStep(section, catalogue, i, classify);
      var m := MatchFrom(section, 0, catalogue[i].pattern);
      if m.Some? && |m.value| == 2 {
        results := results + [KnownRow(catalogue[i], m.value[0], m.value[1], classify)];
      }
    }
    assert catalogue[..|catalogue|] == catalogue;
  }

  /** The fallback loop of `parseTestResults`: one row per hit of the general
      pattern whose trimmed name the filter keeps. */
  method FallbackRows(hits: seq<GeneralHit>, classify: Classifier) returns (results: seq<TestResult>)
    ensures results == FallbackTier(hits, classify)
  {
    results := [];
    var k := 0;
    while k < |hits|
      invariant k <= |hits|
      invariant results == FallbackTier(hits[..k], classify)
    {
      FallbackTierStep(hits, k, classify);
      var h := hits[k];
      if Keep(Trim(h.name)) {
        results := results + [GeneralRow(h, classify)];
      }
      k := k + 1;
    }
    assert hits[..|hits|] == hits;
  }

  /** `parseTestResults(text)`: no section, no rows; otherwise the rows of the
      known tests, or, when there are none, the rows the fallback keeps. */
  method ParseTestResults(text: string, general: string -> seq<GeneralHit>) returns (results: seq<TestResult>)
    ensures Section(text).None? ==> results == []
    ensures Section(text).Some? && KnownTier(Section(text).value, Catalogue, DetermineStatus) != [] ==>
      results == KnownTier(Section(text).value, Catalogue, DetermineStatus)
    ensures Section(text).Some? && KnownTier(Section(text).value, Catalogue, DetermineStatus) == [] ==>
      results == FallbackTier(general(Section(text).value), DetermineStatus)
  {
    results := ParseTestResultsWith(text, Catalogue, general, DetermineStatus);
  }
}

=== FILE: result_ai.dfy ===
/** The result-ai route: report text the client already has, with the
    patient details and a sample id, goes to the assistant, and the analysis
    is written to the store under the sample-id policy: a sample id already
    present anywhere in the store is refused with 409 before the assistant is
    asked, and the rows of one analysis all carry its sample id. */
module ResultAi {
  import opened Wrappers
  import opened Text
  import opened AiReply
  import opened Store
  import opened ApiResponse

  /** The `patientDetails` object of the request body; a field the body does
      not carry is None. */
  datatype RequestDetails = RequestDetails(
    nhsNumber: Option<string>, name: Option<string>, dateOfBirth: Option<string>, gp: Option<string>)

  /** The request body; a missing field is None. */
  datatype Request = Request(patientDetails: Option<RequestDetails>, plainText: Option<string>, sampleId: Option<string>)

  /** What the assistant is given: the report text, and the patient details
      spread together with the sample id. */
  datatype Prompt = Prompt(plainText: string, details: RequestDetails, sampleId: string)

  /** What `checkPatientAndSample` answers. */
  datatype SampleCheck = SampleCheck(patientExists: bool, patient: Option<Patient>, sampleExists: bool, sampleCount: nat)

  const MissingFields := "Missing required fields: patientDetails, plainText, and sampleId are required"
  const MissingNhsNumber := "NHS number is required in patient details"
  const NoResponse := "No response from AI"
  /** The TypeError `patientDetails.nhsNumber.trim()` throws when the
      assistant's patient has no NHS number. */
  const NoNhsNumberToTrim := "Cannot read properties of undefined (reading 'trim')"

  // ---------------------------------------------------------------------
  // Request checks
  // ---------------------------------------------------------------------

  /** The 400 error of the two request checks, in their order; None when the
      request passes them. */
  function RequestError(request: Request): (e: Option<string>)
    ensures e.None? <==>
      && request.patientDetails.Some? && Truthy(request.plainText) && Truthy(request.sampleId)
      && Truthy(request.patientDetails.value.nhsNumber)
    ensures e.Some? && e.value == MissingNhsNumber ==>
      request.patientDetails.Some? && Truthy(request.plainText) && Truthy(request.sampleId)
    ensures e.Some? ==> e.value in {MissingFields, MissingNhsNumber}
  {
    if request.patientDetails.None? || !Truthy(request.plainText) || !Truthy(request.sampleId) then
      Some(MissingFields)
    else if !Truthy(request.patientDetails.value.nhsNumber) then Some(MissingNhsNumber)
    else None
  }

  // ---------------------------------------------------------------------
  // checkPatientAndSample
  // ---------------------------------------------------------------------

  /** Some stored row carries the sample id, whatever its patient. */
  ghost predicate SampleTaken(db: Database, sampleId: string)
    reads db
  {
    exists i :: 0 <= i < |db.results| && db.results[i].sampleId == Some(sampleId)
  }

  /** `checkPatientAndSample`: a sample id found on any row answers "sample
      exists" with a count of 1 and no patient, whatever the NHS number;
      otherwise the patient is looked up by the trimmed NHS number. */
  function CheckPatientAndSample(db: Database, nhsNumber: string, sampleId: string): (c: SampleCheck)
    reads db
    ensures c.sampleExists <==> SampleTaken(db, sampleId)
    ensures c.sampleExists ==> c == SampleCheck(false, None, true, 1)
    ensures !c.sampleExists ==> c.sampleCount == 0
    ensures !c.sampleExists ==>
      && (c.patientExists <==> Trim(nhsNumber) in db.patients)
      && (c.patientExists ==> c.patient == Some(db.patients[Trim(nhsNumber)]))
      && (!c.patientExists ==> c.patient.None?)
  {
    if db.RowsWithSample(sampleId) != [] then SampleCheck(false, None, true, 1)
    else if Trim(nhsNumber) in db.patients then SampleCheck(true, Some(db.patients[Trim(nhsNumber)]), false, 0)
    else SampleCheck(false, None, false, 0)
  }

  /** The 409 message: names the sample and the NHS number as sent. The count
      it reports is `sampleCount`, which is always 1 when the sample exists. */
  function ConflictMessage(sampleId: string, nhsNumber: string): (m: string)
    ensures Contains(m, sampleId) && Contains(m, nhsNumber)
  {
    var head := "Sample " + sampleId + " has already been analyzed for patient ";
    var m := head + nhsNumber + ". Found 1 existing test results.";
    assert m[7..7 + |sampleId|] == sampleId;
    ContainsAt(m, sampleId, 7);
    assert m[|head|..|head| + |nhsNumber|] == nhsNumber;
    ContainsAt(m, nhsNumber, |head|);
    m
  }

  // ---------------------------------------------------------------------
  // The assistant's reply
  // ---------------------------------------------------------------------

  /** `!parsed.patientDetails || !parsed.testResults || !parsed.doctorsLetter`
      fails; an empty result list passes, and the patient's NHS number is not
      looked at. */
  predicate IsValidAnalysis(a: Analysis) {
    a.patientDetails.Some? && a.testResults.Some? && Truthy(a.doctorsLetter)
  }

  /** `processWithAI` after the call: the analysis, or the message of the
      error it throws. */
  function Interpret(reply: Result<string, string>, parse: JsonParser): (r: Result<Analysis, string>)
    ensures r.Ok? ==> IsValidAnalysis(r.value) && reply.Ok? && reply.value != "" && ReadReply(reply.value, parse) == Ok(r.value)
    ensures reply.Err? ==> r == Err(reply.error)
    ensures reply == Ok("") ==> r == Err(NoResponse)
    ensures reply.Ok? && reply.value != "" && ReadReply(reply.value, parse).Err? ==> r == Err(ParseFailure)
    ensures (reply.Ok? && reply.value != "" && ReadReply(reply.value, parse).Ok?
             && !IsValidAnalysis(ReadReply(reply.value, parse).value)) ==> r == Err(InvalidStructure)
  {
    match reply
    case Err(m) => Err(m)
    case Ok(text) =>
      if text == "" then Err(NoResponse)
      else match ReadReply(text, parse)
        case Err(m) => Err(m)
        case Ok(a) => if IsValidAnalysis(a) then Ok(a) else Err(InvalidStructure)
  }

  // ---------------------------------------------------------------------
  // Sample-id policy
  // ---------------------------------------------------------------------

  /** What `handleTestResults` does to the rows and answers: the batch goes
      in whole (an insert error is not caught and fails the call), and the
      answer is every stored row with the sample id. */
  predicate SamplePolicy(
    before: seq<ResultRow>, after: seq<ResultRow>, patientId: nat, sampleId: string,
    tests: seq<AiTest>, now: int, fault: Option<DbFault>, r: Result<TestBatch, string>)
  {
    var rows := RowsFor(patientId, Some(sampleId), tests, now);
    if fault.Some? then
      r == Err(FaultMessage(fault.value)) && after == before
    else if !KeysUnique(before + rows) then
      r == Err(UniqueViolationMessage) && after == before
    else
      var mine := Select(after, WithSample(sampleId));
      after == before + rows && r == Ok(TestBatch(mine, |mine|))
  }

  /** For a sample id not yet stored, a successful call answers exactly the
      rows it inserted, one per result, and counts them. */
  lemma FreshSampleAnswersBatch(
    before: seq<ResultRow>, after: seq<ResultRow>, patientId: nat, sampleId: string,
    tests: seq<AiTest>, now: int, fault: Option<DbFault>, r: Result<TestBatch, string>)
    requires SamplePolicy(before, after, patientId, sampleId, tests, now, fault, r)
    requires Select(before, WithSample(sampleId)) == []
    requires r.Ok?
    ensures r.value.testResults == RowsFor(patientId, Some(sampleId), tests, now)
    ensures r.value.newTestResultsCount == |tests|
  {
    BatchIsSample(before, RowsFor(patientId, Some(sampleId), tests, now), sampleId);
  }

  /** Two results with the same test name clash on the unique key, since the
      whole batch shares the patient and the analysis time: the call fails
      and nothing is stored. */
  lemma RepeatedTestNameFails(
    before: seq<ResultRow>, after: seq<ResultRow>, patientId: nat, sampleId: string,
    tests: seq<AiTest>, now: int, fault: Option<DbFault>, r: Result<TestBatch, string>, i: nat, j: nat)
    requires SamplePolicy(before, after, patientId, sampleId, tests, now, fault, r)
    requires i < j < |tests| && tests[i].testName == tests[j].testName
    ensures r.Err? && after == before
  {
    var rows := RowsFor(patientId, Some(sampleId), tests, now);
    var all := before + rows;
    assert all[|before| + i] == rows[i] && all[|before| + j] == rows[j];
    assert SameKey(all[|before| + i], all[|before| + j]);
    KeysUniqueMeaning(all);
  }

  /** `handleTestResults` */
  method HandleTestResults(db: Database, patient: Patient, tests: seq<AiTest>, sampleId: string,
                           now: int, fault: Option<DbFault>)
    returns (r: Result<TestBatch, string>)
    requires db.Valid() && patient.id in db.PatientIds()
    modifies db
    ensures db.Valid()
    ensures SamplePolicy(old(db.results), db.results, patient.id, sampleId, tests, now, fault, r)
    ensures db.patients == old(db.patients) && db.letters == old(db.letters) && db.nextId == old(db.nextId)
  {
    var rows := RowsFor(patient.id, Some(sampleId), tests, now);
    var err := db.CreateMany(rows, fault);
    if err.Some? {
      return Err(FaultMessage(err.value));
    }
    var mine := db.RowsWithSample(sampleId);
    r := Ok(TestBatch(mine, |mine|));
  }

  // ---------------------------------------------------------------------
  // Saving and the route
  // ---------------------------------------------------------------------

  /** The assistant's patient, with an NHS number, as `handlePatient` is
      given it. */
  function Filing(details: AiPatient): (d: PatientDetails)
    requires details.nhsNumber.Some?
    ensures d.nhsNumber == details.nhsNumber.value
  {
    PatientDetails(details.nhsNumber.value, details.name, details.dateOfBirth, details.gp)
  }

  /** `saveToDatabase`: patient, then letter, then results. The assistant's
      patient, not the request's, is the one filed; one without an NHS number
      fails at the trim before anything is written. */
  method SaveToDatabase(db: Database, details: AiPatient, tests: seq<AiTest>, doctorsLetter: string,
                        sampleId: string, now: int, fault: Option<DbFault>)
    returns (r: Result<SaveResult, string>, ghost patient: Patient, ghost batch: Result<TestBatch, string>)
    requires db.Valid()
    modifies db
    ensures db.Valid()
    ensures details.nhsNumber.None? ==> r == Err(NoNhsNumberToTrim) && unchanged(db)
    ensures details.nhsNumber.Some? ==>
      && patient.nhsNumber == Trim(details.nhsNumber.value)
      && patient == FiledPatient(old(db.patients), old(db.nextId), Filing(details))
      && db.patients == old(db.patients)[patient.nhsNumber := patient]
      && db.letters == old(db.letters)[patient.id := Letter(patient.id, doctorsLetter)]
      && SamplePolicy(old(db.results), db.results, patient.id, sampleId, tests, now, fault, batch)
      && BatchOf(r) == batch
    ensures r.Ok? ==>
      && details.nhsNumber.Some?
      && SavedAs(old(db.patients), old(db.letters), old(db.nextId), Filing(details), doctorsLetter, r.value)
  {
    if details.nhsNumber.None? {
      r, patient, batch := Err(NoNhsNumberToTrim), Patient(0, "", "", "", ""), Err(NoNhsNumberToTrim);
      return;
    }
    var found, isNewPatient := db.HandlePatient(Filing(details));
    patient := found;
    var letter, isNewLetter := db.HandleLetter(found, doctorsLetter);
    var outcome := HandleTestResults(db, found, tests, sampleId, now, fault);
    batch := outcome;
    match outcome
    case Err(m) =>
      r := Err(m);
    case Ok(b) =>
      r := Ok(SaveResult(found, letter, b.testResults, isNewPatient, isNewLetter, b.newTestResultsCount));
  }

  /** The analysis is in the store: its patient is filed under the trimmed
      NHS number and holds the analysis's letter, the store's rows are the
      rows `before` the call with the batch added as the sample-id policy
      says, and the answer lists one row per result, all with the sample id. */
  ghost predicate Recorded(db: Database, a: Analysis, before: seq<ResultRow>, sampleId: string, now: int,
                           fault: Option<DbFault>, data: SaveResult)
    requires IsValidAnalysis(a)
    reads db
  {
    var p := a.patientDetails.value;
    && p.nhsNumber.Some?
    && var key := Trim(p.nhsNumber.value);
    && key in db.patients && data.patient == db.patients[key]
    && data.patient.id in db.letters
    && db.letters[data.patient.id] == Letter(data.patient.id, a.doctorsLetter.value)
    && SamplePolicy(before, db.results, data.patient.id, sampleId, a.testResults.value, now, fault,
                    Ok(TestBatch(data.testResults, data.newTestResultsCount)))
    && data.testResults == RowsFor(data.patient.id, Some(sampleId), a.testResults.value, now)
    && data.newTestResultsCount == |a.testResults.value|
  }

  /** The message of the insert's failure: the fault it meets, or the
      unique-key clash of a batch whose keys repeat or are already stored. */
  function InsertFailure(fault: Option<DbFault>): (m: string)
    ensures fault.None? ==> m == UniqueViolationMessage
    ensures fault.Some? ==> m == FaultMessage(fault.value)
  {
    if fault.Some? then FaultMessage(fault.value) else UniqueViolationMessage
  }

  /** The prompt of an accepted request. */
  function PromptOf(request: Request): Prompt
    requires RequestError(request).None?
  {
    Prompt(request.plainText.value, request.patientDetails.value, request.sampleId.value)
  }

  /** The route handler. A sample id already in the store is refused before
      the assistant is asked and leaves the store as it was; the store is
      written only for a valid analysis. */
  method Post(db: Database, assistant: Assistant<Prompt>, request: Request, parse: JsonParser,
              now: int, fault: Option<DbFault>)
    returns (resp: Response)
    requires db.Valid()
    modifies db, assistant
    ensures db.Valid()
    ensures resp.Failure? ==> resp.status in {400, 409, 500}
    ensures RequestError(request).Some? ==>
      resp == Failure(400, RequestError(request).value) && unchanged(db)
      && assistant.calls == old(assistant.calls)
    ensures RequestError(request).None? && old(SampleTaken(db, request.sampleId.value)) ==>
      resp == Failure(409, ConflictMessage(request.sampleId.value, request.patientDetails.value.nhsNumber.value))
      && unchanged(db) && assistant.calls == old(assistant.calls)
    ensures RequestError(request).None? && !old(SampleTaken(db, request.sampleId.value)) ==>
      assistant.calls == old(assistant.calls) + 1
    ensures RequestError(request).None? && !old(SampleTaken(db, request.sampleId.value))
            && Interpret(assistant.respond(PromptOf(request)), parse).Err? ==>
      var m := Interpret(assistant.respond(PromptOf(request)), parse).error;
      resp == Failure(500, ErrorText(m)) && unchanged(db)
    ensures resp.Success? ==>
      && RequestError(request).None? && !old(SampleTaken(db, request.sampleId.value))
      && Interpret(assistant.respond(PromptOf(request)), parse).Ok?
    ensures RequestError(request).None? && !old(SampleTaken(db, request.sampleId.value))
            && Interpret(assistant.respond(PromptOf(request)), parse).Ok? ==>
      var a := Interpret(assistant.respond(PromptOf(request)), parse).value;
      var sampleId := request.sampleId.value;
      var nhs := a.patientDetails.value.nhsNumber;
      && (nhs.None? ==> resp == Failure(500, ErrorText(NoNhsNumberToTrim)) && unchanged(db))
      && (nhs.Some? ==>
            var key := Trim(nhs.value);
            var details := Filing(a.patientDetails.value);
            && key in db.patients
            && var id := db.patients[key].id;
            && db.patients == old(db.patients)[key := FiledPatient(old(db.patients), old(db.nextId), details)]
            && db.letters == old(db.letters)[id := Letter(id, a.doctorsLetter.value)]
            && (resp.Success? ==>
                  && Recorded(db, a, old(db.results), sampleId, now, fault, resp.data)
                  && SavedAs(old(db.patients), old(db.letters), old(db.nextId), details, a.doctorsLetter.value,
                             resp.data))
            && (resp.Failure? ==>
                  && resp == Failure(500, ErrorText(InsertFailure(fault)))
                  && db.results == old(db.results)
                  && SamplePolicy(old(db.results), db.results, id, sampleId, a.testResults.value, now, fault,
                                  Err(InsertFailure(fault)))))
  {
    var error := RequestError(request);
    if error.Some? {
      return Failure(400, error.value);
    }
    var details := request.patientDetails.value;
    var sampleId := request.sampleId.value;
    var check := CheckPatientAndSample(db, details.nhsNumber.value, sampleId);
    if check.sampleExists {
      return Failure(409, ConflictMessage(sampleId, details.nhsNumber.value));
    }
    var reply := assistant.Ask(PromptOf(request));
    var analysis := Interpret(reply, parse);
    if analysis.Err? {
      return Failure(500, ErrorText(analysis.error));
    }
    var a := analysis.value;
    ghost var before := db.results;
    assert Select(before, WithSample(sampleId)) == [] by {
      SelectEmpty(before, WithSample(sampleId));
    }
    var saved, patient, batch := SaveToDatabase(db, a.patientDetails.value, a.testResults.value, a.doctorsLetter.value,
                                                sampleId, now, fault);
    if a.patientDetails.value.nhsNumber.Some? {
      assert db.patients[Trim(a.patientDetails.value.nhsNumber.value)] == patient;
    }
    match saved
    case Err(m) =>
      resp := Failure(500, ErrorText(m));
    case Ok(data) =>
      FreshSampleAnswersBatch(before, db.results, patient.id, sampleId, a.testResults.value, now, fault, batch);
      resp := Success(data);
  }

  /** Once a call has stored at least one row for a sample id, a later
      request with the same sample id is a conflict: the store keeps the rows
      and no second analysis is made. */
  lemma StoredSampleIsTaken(db: Database, a: Analysis, before: seq<ResultRow>, sampleId: string, now: int,
                             fault: Option<DbFault>, data: SaveResult)
    requires IsValidAnalysis(a) && Recorded(db, a, before, sampleId, now, fault, data)
    requires a.testResults.value != []
    ensures SampleTaken(db, sampleId)
  {
    var rows := RowsFor(data.patient.id, Some(sampleId), a.testResults.value, now);
    assert db.results == before + rows;
    assert db.results[|before|] == rows[0];
  }
}

=== FILE: sample_id.dfy ===
/** The priority-ranked sample-ID matcher of src/lib/sampleIdPatterns.ts.

    The twelve regular expressions of the catalogue are not modelled
    character by character: a `Matcher` gives, for a rule name and a text,
    the first capture group of that rule's pattern on the text (or None when
    the pattern does not match). Everything around the regular expressions --
    the shared catalogue, its in-place priority sort, first-match-wins
    extraction, id clean-up, confidence scoring, de-duplication and the
    confidence sort -- is modelled exactly. */
module SampleIds {
  import opened Wrappers
  import opened Text

  /** One catalogue entry; its pattern is reached through a `Matcher`. */
  datatype PatternRule = PatternRule(name: string, priority: int)

  /** Capture group 1 of the named rule's pattern on a text, if it matched. */
  type Matcher = (string, string) -> Option<string>

  /** A candidate of the all-candidates mode. */
  datatype Candidate = Candidate(id: string, pattern: string, confidence: int)

  const RuleNames: seq<string> := [
    "NHS_SAMPLE_ID", "NHS_SAMPLE", "NHS_ID", "LAB_ID", "SPECIMEN_ID", "TEST_ID",
    "GENERIC_SAMPLE_ID", "REFERENCE_ID", "BARCODE", "NUMERIC_SAMPLE_ID",
    "STANDALONE_NHS", "STANDALONE_ALPHANUMERIC"]

  const RulePriorities: seq<int> := [1, 2, 3, 4, 5, 6, 7, 8, 9, 10, 20, 21]

  /** The catalogue in declaration order. */
  function Catalogue(): (c: seq<PatternRule>)
    ensures |c| == 12
    ensures forall i :: 0 <= i < 12 ==> c[i].priority == RulePriorities[i]
  {
    seq(12, i requires 0 <= i < 12 => PatternRule(RuleNames[i], RulePriorities[i]))
  }

  // ---------------------------------------------------------------------
  // A stable insertion sort by an integer key (JavaScript's Array.sort with
  // a numeric comparator is stable).

  predicate SortedBy<T>(s: seq<T>, key: T -> int) {
    forall i, j :: 0 <= i < j < |s| ==> key(s[i]) <= key(s[j])
  }

  /** Inserts x after every element whose key is not larger than its own. */
  function InsertBy<T>(s: seq<T>, x: T, key: T -> int): (r: seq<T>)
    ensures |r| == |s| + 1
    decreases |s|
  {
    if s == [] || key(s[|s| - 1]) <= key(x) then s + [x]
    else InsertBy(s[..|s| - 1], x, key) + [s[|s| - 1]]
  }

  /** Sorts by inserting each element, left to right, into the sorted prefix. */
  function SortBy<T>(s: seq<T>, key: T -> int): (r: seq<T>)
    ensures |r| == |s|
  {
    if s == [] then [] else InsertBy(SortBy(s[..|s| - 1], key), s[|s| - 1], key)
  }

  lemma {:induction false} InsertByPermutes<T>(s: seq<T>, x: T, key: T -> int)
    ensures multiset(InsertBy(s, x, key)) == multiset(s) + multiset{x}
    decreases |s|
  {
    if s == [] || key(s[|s| - 1]) <= key(x) {
    } else {
      var init := s[..|s| - 1];
      InsertByPermutes(init, x, key);
      assert s == init + [s[|s| - 1]];
    }
  }

  lemma {:induction false} InsertBySorted<T>(s: seq<T>, x: T, key: T -> int)
    requires SortedBy(s, key)
    ensures SortedBy(InsertBy(s, x, key), key)
    decreases |s|
  {
    if s == [] || key(s[|s| - 1]) <= key(x) {
    } else {
      var init, last := s[..|s| - 1], s[|s| - 1];
      InsertBySorted(init, x, key);
      var r := InsertBy(init, x, key);
      InsertByPermutes(init, x, key);
      forall i | 0 <= i < |r| ensures key(r[i]) <= key(last) {
        assert r[i] in multiset(r);
        assert r[i] in multiset(init) || r[i] == x;
        if r[i] != x {
          assert r[i] in init;
        }
      }
    }
  }

  /** The sort returns a sorted permutation of its input. */
  lemma {:induction false} SortBySortsAndPermutes<T>(s: seq<T>, key: T -> int)
    ensures SortedBy(SortBy(s, key), key)
    ensures multiset(SortBy(s, key)) == multiset(s)
  {
    if s != [] {
      var init := s[..|s| - 1];
      SortBySortsAndPermutes(init, key);
      InsertBySorted(SortBy(init, key), s[|s| - 1], key);
      InsertByPermutes(SortBy(init, key), s[|s| - 1], key);
      assert s == init + [s[|s| - 1]];
    }
  }

  /** Sorting an already sorted sequence leaves it as it is. */
  lemma {:induction false} SortByOfSorted<T>(s: seq<T>, key: T -> int)
    requires SortedBy(s, key)
    ensures SortBy(s, key) == s
  {
    if s != [] {
      var init := s[..|s| - 1];
      assert SortedBy(init, key);
      SortByOfSorted(init, key);
      assert s == init + [s[|s| - 1]];
    }
  }

  // ---------------------------------------------------------------------
  // Matching one rule, first-match-wins extraction and candidates.

  function Priority(r: PatternRule): int { r.priority }

  /** `match[1].trim().replace(/\s+/g, '')`. The trim removes only
      whitespace, which the replacement removes as well, so the id is the
      capture with every whitespace character dropped (CleanIdTrimsThenStrips). */
  function CleanId(capture: string): string {
    RemoveWhitespace(capture)
  }

  /** The cleaned id is what trimming and then stripping the capture gives,
      and it holds no whitespace at all. */
  lemma CleanIdTrimsThenStrips(capture: string)
    ensures CleanId(capture) == RemoveWhitespace(Trim(capture))
    ensures NoWhitespace(CleanId(capture)) && IsTrimmed(CleanId(capture))
  {
    TrimKeepsContent(capture);
  }

  /** A rule counts as matching only when its capture is a non-empty string. */
  function Hit(rule: PatternRule, text: string, find: Matcher): (r: Option<string>)
    ensures r.Some? <==> find(rule.name, text).Some? && find(rule.name, text).value != ""
  {
    match find(rule.name, text)
    case Some(capture) => if capture == "" then None else Some(CleanId(capture))
    case None => None
  }

  /** The cleaned capture of the first rule, in sequence order, that hits. */
  function FirstMatch(rules: seq<PatternRule>, text: string, find: Matcher): Option<string> {
    if rules == [] then None
    else if Hit(rules[0], text, find).Some? then Hit(rules[0], text, find)
    else FirstMatch(rules[1..], text, find)
  }

  /** `Math.max(1, 22 - priority)` */
  function Confidence(priority: int): int {
    if 22 - priority > 1 then 22 - priority else 1
  }

  /** The candidate one rule contributes: none, or one. */
  function CandidateOf(rule: PatternRule, text: string, find: Matcher): seq<Candidate> {
    match Hit(rule, text, find)
    case Some(id) => [Candidate(id, rule.name, Confidence(rule.priority))]
    case None => []
  }

  /** The candidates of all rules, in rule order, before de-duplication. */
  function Collect(rules: seq<PatternRule>, text: string, find: Matcher): seq<Candidate> {
    if rules == [] then [] else CandidateOf(rules[0], text, find) + Collect(rules[1..], text, find)
  }

  /** `arr.findIndex(other => other.id === id)` */
  function FindIndex(s: seq<Candidate>, id: string): (k: int)
    ensures -1 <= k < |s|
    ensures k >= 0 ==> s[k].id == id && forall m :: 0 <= m < k ==> s[m].id != id
    ensures k == -1 ==> forall m :: 0 <= m < |s| ==> s[m].id != id
  {
    if s == [] then -1
    else if s[0].id == id then 0
    else
      var k := FindIndex(s[1..], id);
      if k < 0 then -1 else k + 1
  }

  /** The elements of s[..n] kept by `filter((item, index, arr) => findIndex == index)`. */
  function DedupPrefix(s: seq<Candidate>, n: nat): (d: seq<Candidate>)
    requires n <= |s|
  {
    if n == 0 then []
    else DedupPrefix(s, n - 1) + (if FindIndex(s, s[n - 1].id) == n - 1 then [s[n - 1]] else [])
  }

  function Dedup(s: seq<Candidate>): seq<Candidate> {
    DedupPrefix(s, |s|)
  }

  function NegConfidence(c: Candidate): int { -c.confidence }

  /** The all-candidates result: de-duplicated, then by non-increasing confidence. */
  function AllCandidates(rules: seq<PatternRule>, text: string, find: Matcher): seq<Candidate> {
    SortBy(Dedup(Collect(rules, text, find)), NegConfidence)
  }

  // ---------------------------------------------------------------------
  // The shared, mutable catalogue.

  class PatternCatalogue {
    /** SAMPLE_ID_PATTERNS: a constant binding to an array sorted in place. */
    const patterns: array<PatternRule>

    predicate Valid()
      reads this, patterns
    {
      SortedBy(patterns[..], Priority)
    }

    constructor ()
      ensures patterns[..] == Catalogue()
      ensures Valid()
    {
      patterns := new PatternRule[12](i requires 0 <= i < 12 => Catalogue()[i]);
      new;
      CatalogueAscending();
    }

    /** `SAMPLE_ID_PATTERNS.sort((a, b) => a.priority - b.priority)` */
    method SortPatterns()
      modifies patterns
      ensures patterns[..] == SortBy(old(patterns[..]), Priority)
      ensures Valid()
    {
      ghost var o := patterns[..];
      var i := 0;
      while i < patterns.Length
        invariant 0 <= i <= patterns.Length
        invariant patterns[..i] == SortBy(o[..i], Priority)
        invariant patterns[i..] == o[i..]
      {
        assert patterns[i] == patterns[i..][0] == o[i];
        InsertNext(i);
        assert o[..i + 1][..i] == o[..i];
        i := i + 1;
      }
      assert patterns[..] == patterns[..patterns.Length];
      assert o == o[..patterns.Length];
      SortBySortsAndPermutes(o, Priority);
    }

    /** One pass of the insertion sort: moves patterns[i] into the sorted prefix. */
    method InsertNext(i: nat)
      requires i < patterns.Length
      modifies patterns
      ensures patterns[..i + 1] == InsertBy(old(patterns[..i]), old(patterns[i]), Priority)
      ensures patterns[i + 1..] == old(patterns[i + 1..])
    {
      var x := patterns[i];
      ghost var sorted := patterns[..i];
      ghost var rest := patterns[i + 1..];
      assert patterns[..] == patterns[..i] + [patterns[i]] + patterns[i + 1..];
      assert sorted[..i] == sorted && sorted[i..] == [];
      var j := i;
      while j > 0 && patterns[j - 1].priority > x.priority
        invariant 0 <= j <= i
        invariant patterns[..] == sorted[..j] + [x] + sorted[j..] + rest
        invariant InsertBy(sorted, x, Priority) == InsertBy(sorted[..j], x, Priority) + sorted[j..]
      {
        ghost var before := patterns[..];
        SwapShape(before, sorted, rest, j, x);
        ShiftStep(sorted, j, x);
        var y := patterns[j - 1];
        patterns[j] := y;
        patterns[j - 1] := x;
        assert patterns[..] == before[j := y][j - 1 := x];
        j := j - 1;
      }
      InsertStops(sorted, j, x);
      InsertedPrefix(patterns[..], sorted, rest, j, x);
    }

    /** extractSampleIdWithPatterns: sort the shared catalogue, then first match wins. */
    method ExtractSampleIdWithPatterns(text: string, find: Matcher) returns (id: Option<string>)
      modifies patterns
      ensures patterns[..] == SortBy(old(patterns[..]), Priority)
      ensures id == FirstMatch(patterns[..], text, find)
    {
      SortPatterns();
      var rules := patterns[..];
      var i := 0;
      while i < |rules|
        invariant 0 <= i <= |rules|
        invariant FirstMatch(rules, text, find) == FirstMatch(rules[i..], text, find)
      {
        assert rules[i..][1..] == rules[i + 1..];
        var hit := Hit(rules[i], text, find);
        if hit.Some? {
          return hit;
        }
        i := i + 1;
      }
      return None;
    }

    /** extractAllPossibleSampleIds: collect in catalogue order, de-duplicate, sort. */
    method ExtractAllPossibleSampleIds(text: string, find: Matcher) returns (unique: seq<Candidate>)
      ensures unique == AllCandidates(patterns[..], text, find)
    {
      var results := CollectHits(patterns[..], text, find);
      unique := SortBy(Dedup(results), NegConfidence);
    }
  }

  /** The `for ... of` loop of extractAllPossibleSampleIds, pushing one candidate per hit. */
  method CollectHits(rules: seq<PatternRule>, text: string, find: Matcher) returns (results: seq<Candidate>)
    ensures results == Collect(rules, text, find)
  {
    results := [];
    var i := 0;
    while i < |rules|
      invariant 0 <= i <= |rules|
      invariant results + Collect(rules[i..], text, find) == Collect(rules, text, find)
    {
      CollectStep(rules, i, text, find);
      ghost var before := results;
      var hit := Hit(rules[i], text, find);
      if hit.Some? {
        results := results + [Candidate(hit.value, rules[i].name, Confidence(rules[i].priority))];
      }
      assert results == before + CandidateOf(rules[i], text, find);
      AppendAssociates(before, CandidateOf(rules[i], text, find), Collect(rules[i + 1..], text, find));
      i := i + 1;
    }
    assert rules[i..] == [];
  }

  lemma CollectStep(rules: seq<PatternRule>, i: nat, text: string, find: Matcher)
    requires i < |rules|
    ensures Collect(rules[i..], text, find) == CandidateOf(rules[i], text, find) + Collect(rules[i + 1..], text, find)
  {
    assert rules[i..][1..] == rules[i + 1..];
  }

  /** One step of the inner loop of InsertNext: x moves left past sorted[j - 1]. */
  lemma ShiftStep(sorted: seq<PatternRule>, j: nat, x: PatternRule)
    requires 0 < j <= |sorted|
    requires sorted[j - 1].priority > x.priority
    requires InsertBy(sorted, x, Priority) == InsertBy(sorted[..j], x, Priority) + sorted[j..]
    ensures InsertBy(sorted, x, Priority) == InsertBy(sorted[..j - 1], x, Priority) + sorted[j - 1..]
  {
    assert sorted[..j][..j - 1] == sorted[..j - 1];
    assert sorted[j - 1..] == [sorted[j - 1]] + sorted[j..];
  }

  /** Swapping x with its left neighbour in the array under insertion. */
  lemma SwapShape(a: seq<PatternRule>, sorted: seq<PatternRule>, rest: seq<PatternRule>, j: nat, x: PatternRule)
    requires 0 < j <= |sorted|
    requires a == sorted[..j] + [x] + sorted[j..] + rest
    ensures a[j - 1] == sorted[j - 1] && a[j] == x
    ensures a[j := sorted[j - 1]][j - 1 := x] == sorted[..j - 1] + [x] + sorted[j - 1..] + rest
  {
    var b := a[j := sorted[j - 1]][j - 1 := x];
    var c := sorted[..j - 1] + [x] + sorted[j - 1..] + rest;
    assert |b| == |c|;
    forall k | 0 <= k < |b| ensures b[k] == c[k] {
      if k < j - 1 {
        assert b[k] == a[k] == sorted[k];
      } else if j + 1 <= k {
        assert b[k] == a[k];
      }
    }
  }

  /** After the inner loop, the first i + 1 cells are x inserted into the sorted prefix. */
  lemma InsertedPrefix(a: seq<PatternRule>, sorted: seq<PatternRule>, rest: seq<PatternRule>, j: nat, x: PatternRule)
    requires j <= |sorted|
    requires a == sorted[..j] + [x] + sorted[j..] + rest
    requires InsertBy(sorted, x, Priority) == InsertBy(sorted[..j], x, Priority) + sorted[j..]
    requires InsertBy(sorted[..j], x, Priority) == sorted[..j] + [x]
    ensures a[..|sorted| + 1] == InsertBy(sorted, x, Priority)
    ensures a[|sorted| + 1..] == rest
  {
    assert a == (sorted[..j] + [x] + sorted[j..]) + rest;
  }

  /** The inner loop of InsertNext stops where x belongs. */
  lemma InsertStops(sorted: seq<PatternRule>, j: nat, x: PatternRule)
    requires j <= |sorted|
    requires j == 0 || sorted[j - 1].priority <= x.priority
    ensures InsertBy(sorted[..j], x, Priority) == sorted[..j] + [x]
  {
  }

  // ---------------------------------------------------------------------
  // Properties.

  /** Priorities 1-10, 20, 21: ascending, hence distinct, and all in [1, 21]. */
  lemma CatalogueAscending()
    ensures forall i, j :: 0 <= i < j < 12 ==> Catalogue()[i].priority < Catalogue()[j].priority
    ensures forall i :: 0 <= i < 12 ==> 1 <= Catalogue()[i].priority <= 21
    ensures SortedBy(Catalogue(), Priority)
  {
    var p := RulePriorities;
    assert forall i :: 0 <= i < 11 ==> p[i] < p[i + 1];
    AscendingFromSteps(p);
  }

  lemma {:induction false} AscendingFromSteps(p: seq<int>)
    requires forall i :: 0 <= i < |p| - 1 ==> p[i] < p[i + 1]
    ensures forall i, j :: 0 <= i < j < |p| ==> p[i] < p[j]
  {
    if |p| > 1 {
      AscendingFromSteps(p[1..]);
      forall j | 1 < j < |p| ensures p[0] < p[j] {
        assert p[1..][0] < p[1..][j - 1];
      }
      forall i, j | 0 <= i < j < |p| ensures p[i] < p[j] {
        if i > 0 {
          assert p[1..][i - 1] < p[1..][j - 1];
        }
      }
    }
  }

  /** Confidence lies in [1, 21] and strictly decreases along the catalogue. */
  lemma CatalogueConfidence()
    ensures forall i :: 0 <= i < 12 ==>
      Confidence(Catalogue()[i].priority) == 22 - Catalogue()[i].priority
      && 1 <= Confidence(Catalogue()[i].priority) <= 21
    ensures forall i, j :: 0 <= i < j < 12 ==>
      Confidence(Catalogue()[i].priority) > Confidence(Catalogue()[j].priority)
  {
    CatalogueAscending();
  }

  /** A higher priority number never gives a higher confidence. */
  lemma ConfidenceAntitone(p: int, q: int)
    requires p <= q
    ensures Confidence(p) >= Confidence(q)
    ensures q <= 21 ==> (p < q <==> Confidence(p) > Confidence(q))
  {
  }

  /** The primary result is None iff no rule hits; otherwise it is the hit of the first rule that hits. */
  lemma FirstMatchIsFirstHit(rules: seq<PatternRule>, text: string, find: Matcher)
    ensures FirstMatch(rules, text, find).None? <==>
      forall k :: 0 <= k < |rules| ==> Hit(rules[k], text, find).None?
    ensures FirstMatch(rules, text, find).Some? ==>
      exists k :: 0 <= k < |rules| && Hit(rules[k], text, find) == FirstMatch(rules, text, find)
        && forall m :: 0 <= m < k ==> Hit(rules[m], text, find).None?
  {
    FirstMatchNone(rules, text, find);
    if FirstMatch(rules, text, find).Some? {
      var k := FirstMatchWitness(rules, text, find);
    }
  }

  lemma {:induction false} FirstMatchNone(rules: seq<PatternRule>, text: string, find: Matcher)
    ensures FirstMatch(rules, text, find).None? <==>
      forall k :: 0 <= k < |rules| ==> Hit(rules[k], text, find).None?
  {
    if rules != [] && Hit(rules[0], text, find).None? {
      var tail := rules[1..];
      FirstMatchNone(tail, text, find);
      assert forall k :: 1 <= k < |rules| ==> rules[k] == tail[k - 1];
    }
  }

  lemma {:induction false} FirstMatchWitness(rules: seq<PatternRule>, text: string, find: Matcher) returns (k: nat)
    requires FirstMatch(rules, text, find).Some?
    ensures k < |rules| && Hit(rules[k], text, find) == FirstMatch(rules, text, find)
    ensures forall m :: 0 <= m < k ==> Hit(rules[m], text, find).None?
  {
    if Hit(rules[0], text, find).Some? {
      k := 0;
    } else {
      var tail := rules[1..];
      var j := FirstMatchWitness(tail, text, find);
      k := j + 1;
      assert forall m :: 1 <= m <= k ==> rules[m] == tail[m - 1];
    }
  }

  /** A capture of the first catalogue rule, NHS_SAMPLE_ID, wins whatever the other rules
      find: "Sample ID: NHS-123456" gives "NHS-123456". */
  lemma NhsSampleIdWins(text: string, find: Matcher, id: string)
    requires find("NHS_SAMPLE_ID", text) == Some(id)
    requires id != "" && NoWhitespace(id)
    ensures FirstMatch(Catalogue(), text, find) == Some(id)
  {
    NothingToRemove(id);
    assert Catalogue()[0].name == "NHS_SAMPLE_ID";
  }

  /** Every id the matcher returns is trimmed and holds no whitespace. */
  lemma ReturnedIdsAreClean(rules: seq<PatternRule>, text: string, find: Matcher)
    ensures FirstMatch(rules, text, find).Some? ==>
      NoWhitespace(FirstMatch(rules, text, find).value) && IsTrimmed(FirstMatch(rules, text, find).value)
    ensures forall c :: c in AllCandidates(rules, text, find) ==> NoWhitespace(c.id) && IsTrimmed(c.id)
  {
    FirstMatchIsFirstHit(rules, text, find);
    CollectIsClean(rules, text, find);
    var s := Collect(rules, text, find);
    DedupIsSubset(s, |s|);
    SortBySortsAndPermutes(Dedup(s), NegConfidence);
    forall c | c in AllCandidates(rules, text, find) ensures NoWhitespace(c.id) && IsTrimmed(c.id) {
      assert c in multiset(AllCandidates(rules, text, find));
      assert c in Dedup(s);
    }
  }

  lemma {:induction false} CollectIsClean(rules: seq<PatternRule>, text: string, find: Matcher)
    ensures forall c :: c in Collect(rules, text, find) ==> NoWhitespace(c.id) && IsTrimmed(c.id)
  {
    if rules != [] {
      CollectIsClean(rules[1..], text, find);
    }
  }

  lemma {:induction false} DedupIsSubset(s: seq<Candidate>, n: nat)
    requires n <= |s|
    ensures forall c :: c in DedupPrefix(s, n) ==> c in s[..n]
  {
    if n > 0 {
      DedupIsSubset(s, n - 1);
      assert s[..n] == s[..n - 1] + [s[n - 1]];
    }
  }

  /** The kept elements have pairwise distinct ids. */
  lemma {:induction false} DedupDistinct(s: seq<Candidate>, n: nat)
    requires n <= |s|
    ensures forall i, j :: 0 <= i < j < |DedupPrefix(s, n)| ==> DedupPrefix(s, n)[i].id != DedupPrefix(s, n)[j].id
  {
    if n > 0 {
      DedupDistinct(s, n - 1);
      DedupIsSubset(s, n - 1);
      var d, x := DedupPrefix(s, n - 1), s[n - 1];
      if FindIndex(s, x.id) == n - 1 {
        forall i | 0 <= i < |d| ensures d[i].id != x.id {
          assert d[i] in s[..n - 1];
        }
      }
    }
  }

  /** Each kept element is the first occurrence of its id in s. */
  lemma {:induction false} DedupKeepsFirstOccurrences(s: seq<Candidate>, n: nat)
    requires n <= |s|
    ensures forall c :: c in DedupPrefix(s, n) ==> 0 <= FindIndex(s, c.id) < n && s[FindIndex(s, c.id)] == c
  {
    if n > 0 {
      DedupKeepsFirstOccurrences(s, n - 1);
    }
  }

  /** No id is lost: the first occurrence of every id of s[..n] is kept. */
  lemma {:induction false} DedupLosesNoId(s: seq<Candidate>, n: nat)
    requires n <= |s|
    ensures forall k :: 0 <= k < n ==> s[FindIndex(s, s[k].id)] in DedupPrefix(s, n)
  {
    if n > 0 {
      DedupLosesNoId(s, n - 1);
      var d := DedupPrefix(s, n - 1);
      var f := FindIndex(s, s[n - 1].id);
      var e := if f == n - 1 then [s[n - 1]] else [];
      assert DedupPrefix(s, n) == d + e;
      if f < n - 1 {
        assert s[FindIndex(s, s[f].id)] in d;
      }
      assert s[f] in d + e;
      forall k | 0 <= k < n - 1 ensures s[FindIndex(s, s[k].id)] in d + e {
        assert s[FindIndex(s, s[k].id)] in d;
      }
    }
  }

  lemma {:induction false} DedupKeepsOrder(s: seq<Candidate>, n: nat, key: Candidate -> int)
    requires n <= |s| && SortedBy(s, key)
    ensures SortedBy(DedupPrefix(s, n), key)
  {
    if n > 0 {
      DedupKeepsOrder(s, n - 1, key);
      var d := DedupPrefix(s, n - 1);
      DedupBelow(s, n - 1, key);
      if FindIndex(s, s[n - 1].id) == n - 1 {
        assert DedupPrefix(s, n) == d + [s[n - 1]];
        AppendSorted(d, s[n - 1], key);
      } else {
        assert DedupPrefix(s, n) == d + [] == d;
      }
    }
  }

  lemma DedupBelow(s: seq<Candidate>, n: nat, key: Candidate -> int)
    requires n < |s| && SortedBy(s, key)
    ensures forall c :: c in DedupPrefix(s, n) ==> key(c) <= key(s[n])
  {
    DedupIsSubset(s, n);
    forall c | c in DedupPrefix(s, n) ensures key(c) <= key(s[n]) {
      var k :| 0 <= k < n && s[..n][k] == c;
      assert s[k] == c;
    }
  }

  lemma AppendSorted<T>(d: seq<T>, x: T, key: T -> int)
    requires SortedBy(d, key)
    requires forall c :: c in d ==> key(c) <= key(x)
    ensures SortedBy(d + [x], key)
  {
    var r := d + [x];
    forall i, j | 0 <= i < j < |r| ensures key(r[i]) <= key(r[j]) {
      assert r[i] == d[i] && r[i] in d;
      if j < |d| {
        assert r[j] == d[j];
      }
    }
  }

  lemma {:induction false} DedupHead(s: seq<Candidate>, n: nat)
    requires 0 < n <= |s|
    ensures DedupPrefix(s, n) != [] && DedupPrefix(s, n)[0] == s[0]
  {
    if n > 1 {
      DedupHead(s, n - 1);
    }
  }

  lemma {:induction false} CollectOrder(rules: seq<PatternRule>, text: string, find: Matcher)
    requires SortedBy(rules, Priority)
    ensures SortedBy(Collect(rules, text, find), NegConfidence)
    ensures forall c :: c in Collect(rules, text, find) ==>
      exists r :: r in rules && c.confidence == Confidence(r.priority)
  {
    CollectConfidences(rules, text, find);
    if rules != [] {
      var tail := rules[1..];
      assert SortedBy(tail, Priority);
      CollectOrder(tail, text, find);
      var rest := Collect(tail, text, find);
      forall c | c in rest
        ensures Confidence(rules[0].priority) >= c.confidence
      {
        var r :| r in tail && c.confidence == Confidence(r.priority);
        var k :| 0 <= k < |tail| && tail[k] == r;
        assert rules[k + 1] == r;
        ConfidenceAntitone(rules[0].priority, r.priority);
      }
      HeadThenSorted(CandidateOf(rules[0], text, find), rest, Confidence(rules[0].priority));
    }
  }

  /** Every collected candidate carries the confidence of some rule. */
  lemma {:induction false} CollectConfidences(rules: seq<PatternRule>, text: string, find: Matcher)
    ensures forall c :: c in Collect(rules, text, find) ==>
      exists r :: r in rules && c.confidence == Confidence(r.priority)
  {
    if rules != [] {
      var tail := rules[1..];
      CollectConfidences(tail, text, find);
      forall c | c in Collect(rules, text, find)
        ensures exists r :: r in rules && c.confidence == Confidence(r.priority)
      {
        if c in CandidateOf(rules[0], text, find) {
          assert rules[0] in rules;
        } else {
          assert c in Collect(tail, text, find);
          var r :| r in tail && c.confidence == Confidence(r.priority);
          assert r in rules;
        }
      }
    }
  }

  /** At most one candidate of confidence `top` ahead of a sorted run whose
      confidences do not exceed `top` keeps the whole run sorted. */
  lemma HeadThenSorted(head: seq<Candidate>, rest: seq<Candidate>, top: int)
    requires |head| <= 1 && (head != [] ==> head[0].confidence == top)
    requires SortedBy(rest, NegConfidence)
    requires forall c :: c in rest ==> top >= c.confidence
    ensures SortedBy(head + rest, NegConfidence)
  {
    var r := head + rest;
    forall i, j | 0 <= i < j < |r| ensures NegConfidence(r[i]) <= NegConfidence(r[j]) {
      if i < |head| {
        assert r[j] == rest[j - 1] && r[j] in rest;
      } else {
        assert r[i] == rest[i - |head|] && r[j] == rest[j - |head|];
      }
    }
  }

  /** With the catalogue in priority order (as it always is), the all-candidates
      list is empty iff the primary result is None, and its head is the primary id. */
  lemma AllCandidatesAgreeWithPrimary(rules: seq<PatternRule>, text: string, find: Matcher)
    requires SortedBy(rules, Priority)
    ensures AllCandidates(rules, text, find) == [] <==> FirstMatch(rules, text, find).None?
    ensures AllCandidates(rules, text, find) != [] ==>
      FirstMatch(rules, text, find) == Some(AllCandidates(rules, text, find)[0].id)
  {
    var s := Collect(rules, text, find);
    CollectOrder(rules, text, find);
    DedupKeepsOrder(s, |s|, NegConfidence);
    SortByOfSorted(Dedup(s), NegConfidence);
    CollectHead(rules, text, find);
    if s != [] {
      DedupHead(s, |s|);
    }
  }

  lemma {:induction false} CollectHead(rules: seq<PatternRule>, text: string, find: Matcher)
    ensures Collect(rules, text, find) == [] <==> FirstMatch(rules, text, find).None?
    ensures Collect(rules, text, find) != [] ==>
      FirstMatch(rules, text, find) == Some(Collect(rules, text, find)[0].id)
  {
    if rules != [] {
      CollectHead(rules[1..], text, find);
    }
  }

  /** The all-candidates list is sorted by non-increasing confidence and has pairwise distinct ids. */
  lemma AllCandidatesShape(rules: seq<PatternRule>, text: string, find: Matcher)
    ensures forall i, j :: 0 <= i < j < |AllCandidates(rules, text, find)| ==>
      AllCandidates(rules, text, find)[i].confidence >= AllCandidates(rules, text, find)[j].confidence
    ensures forall i, j :: 0 <= i < j < |AllCandidates(rules, text, find)| ==>
      AllCandidates(rules, text, find)[i].id != AllCandidates(rules, text, find)[j].id
    ensures multiset(AllCandidates(rules, text, find)) == multiset(Dedup(Collect(rules, text, find)))
  {
    var d := Dedup(Collect(rules, text, find));
    var a := AllCandidates(rules, text, find);
    SortBySortsAndPermutes(d, NegConfidence);
    DedupDistinct(Collect(rules, text, find), |Collect(rules, text, find)|);
    PermutationKeepsDistinctIds(d, a);
  }

  lemma PermutationKeepsDistinctIds(d: seq<Candidate>, a: seq<Candidate>)
    requires forall p, q :: 0 <= p < q < |d| ==> d[p].id != d[q].id
    requires multiset(a) == multiset(d)
    ensures forall i, j :: 0 <= i < j < |a| ==> a[i].id != a[j].id
  {
    DistinctIdsOccurOnce(d);
    forall i, j | 0 <= i < j < |a| ensures a[i].id != a[j].id {
      assert a[i] in multiset(d) && a[j] in multiset(d);
      var i', j' :| 0 <= i' < |d| && 0 <= j' < |d| && d[i'] == a[i] && d[j'] == a[j];
      if i' == j' {
        TwoPositionsTwoCopies(a, i, j);
        assert false;
      }
    }
  }

  /** In a sequence with pairwise distinct ids no element occurs twice. */
  lemma {:induction false} DistinctIdsOccurOnce(d: seq<Candidate>)
    requires forall p, q :: 0 <= p < q < |d| ==> d[p].id != d[q].id
    ensures forall x :: multiset(d)[x] <= 1
  {
    if d != [] {
      var init := d[..|d| - 1];
      DistinctIdsOccurOnce(init);
      assert d == init + [d[|d| - 1]];
      assert d[|d| - 1] !in init;
    }
  }

  lemma TwoPositionsTwoCopies(a: seq<Candidate>, i: nat, j: nat)
    requires i < j < |a| && a[i] == a[j]
    ensures multiset(a)[a[i]] >= 2
  {
    assert a == a[..i] + [a[i]] + a[i + 1..j] + [a[j]] + a[j + 1..];
  }
}

=== FILE: search.dfy ===
/** The leftmost-match search of `String.prototype.match` and of a regular
    expression's `exec`: the pattern is attempted at each start in turn and
    the first start where it succeeds gives the match. */
module Search {
  import opened Wrappers

  /** The first start from `i` to `n` at which the attempt `at` succeeds,
      with what it gives there. */
  function Leftmost<T>(at: nat -> Option<T>, i: nat, n: nat): (r: Option<(nat, T)>)
    requires i <= n
    ensures r.Some? ==> i <= r.value.0 <= n && at(r.value.0) == Some(r.value.1)
    decreases n - i
  {
    if at(i).Some? then Some((i, at(i).value))
    else if i == n then None
    else Leftmost(at, i + 1, n)
  }

  /** Nothing before the start `Leftmost` returns succeeds, and when it
      returns none nothing succeeds. */
  lemma {:induction false} LeftmostIsFirst<T>(at: nat -> Option<T>, i: nat, n: nat)
    requires i <= n
    ensures Leftmost(at, i, n).Some? ==> forall k :: i <= k < Leftmost(at, i, n).value.0 ==> at(k).None?
    ensures Leftmost(at, i, n).None? ==> forall k :: i <= k <= n ==> at(k).None?
    decreases n - i
  {
    if at(i).None? && i < n {
      LeftmostIsFirst(at, i + 1, n);
    }
  }
}

=== FILE: store.dfy ===
/** The persistent store both reconciliation routes write to: patients keyed
    by their NHS number, at most one letter per patient, and the test-result
    rows. The schema's uniqueness of (patientId, testName, analyzedAt) is
    enforced by the batch insert, which may also fail for reasons outside the
    model (a lost connection, a concurrent writer); such a failure is passed
    in as a fault. */
module Store {
  import opened Wrappers
  import opened Text
  import opened AiReply

  datatype Patient = Patient(id: nat, nhsNumber: string, name: string, dateOfBirth: string, gpName: string)

  datatype Letter = Letter(patientId: nat, content: string)

  datatype ResultRow = ResultRow(
    patientId: nat, sampleId: Option<string>, testName: string, value: string,
    unit: Option<string>, referenceRange: string, status: TestStatus,
    meaning: string, analyzedAt: int)

  /** The patient fields handed to find-or-create. */
  datatype PatientDetails = PatientDetails(nhsNumber: string, name: string, dateOfBirth: string, gp: string)

  /** Why a batch insert failed: the unique constraint (Prisma's P2002), or
      anything else, with its message. */
  datatype DbFault = UniqueViolation | OtherFault(message: string)

  const UniqueViolationMessage := "Unique constraint failed on the fields: (`patientId`,`testName`,`analyzedAt`)"

  function FaultMessage(f: DbFault): string {
    match f
    case UniqueViolation => UniqueViolationMessage
    case OtherFault(m) => m
  }

  predicate SameKey(a: ResultRow, b: ResultRow) {
    a.patientId == b.patientId && a.testName == b.testName && a.analyzedAt == b.analyzedAt
  }

  /** Some row of `rows` has the key of `r`. */
  predicate ClashesWith(r: ResultRow, rows: seq<ResultRow>)
    decreases |rows|
  {
    rows != [] && (SameKey(r, rows[0]) || ClashesWith(r, rows[1..]))
  }

  /** No two rows share (patientId, testName, analyzedAt), checked row by row
      the way the unique index is. */
  predicate KeysUnique(rows: seq<ResultRow>)
    decreases |rows|
  {
    rows == [] || (!ClashesWith(rows[0], rows[1..]) && KeysUnique(rows[1..]))
  }

  lemma {:induction false} ClashesWithMeaning(r: ResultRow, rows: seq<ResultRow>)
    ensures ClashesWith(r, rows) <==> exists j :: 0 <= j < |rows| && SameKey(r, rows[j])
    decreases |rows|
  {
    if rows != [] {
      ClashesWithMeaning(r, rows[1..]);
      if ClashesWith(r, rows[1..]) {
        var j :| 0 <= j < |rows[1..]| && SameKey(r, rows[1..][j]);
        assert rows[j + 1] == rows[1..][j];
      }
      if exists j :: 0 <= j < |rows| && SameKey(r, rows[j]) {
        var j :| 0 <= j < |rows| && SameKey(r, rows[j]);
        if j > 0 {
          assert rows[1..][j - 1] == rows[j];
        }
      }
    }
  }

  /** The row-by-row check means: no two rows share the key. */
  lemma {:induction false} KeysUniqueMeaning(rows: seq<ResultRow>)
    ensures KeysUnique(rows) <==> forall i, j :: 0 <= i < j < |rows| ==> !SameKey(rows[i], rows[j])
    decreases |rows|
  {
    if rows != [] {
      KeysUniqueMeaning(rows[1..]);
      ClashesWithMeaning(rows[0], rows[1..]);
      assert forall j :: 1 <= j < |rows| ==> rows[j] == rows[1..][j - 1];
    }
  }

  // ---------------------------------------------------------------------
  // Queries
  // ---------------------------------------------------------------------

  /** `findMany({ where })` over the rows, in store order. */
  function Select(rows: seq<ResultRow>, keep: ResultRow -> bool): (r: seq<ResultRow>)
    ensures |r| <= |rows|
    ensures forall x :: x in r <==> x in rows && keep(x)
  {
    if rows == [] then []
    else if keep(rows[0]) then [rows[0]] + Select(rows[1..], keep)
    else Select(rows[1..], keep)
  }

  lemma {:induction false} SelectAppend(a: seq<ResultRow>, b: seq<ResultRow>, keep: ResultRow -> bool)
    ensures Select(a + b, keep) == Select(a, keep) + Select(b, keep)
  {
    if a == [] {
      assert a + b == b;
    } else {
      assert (a + b)[1..] == a[1..] + b;
      SelectAppend(a[1..], b, keep);
    }
  }

  lemma {:induction false} SelectAll(rows: seq<ResultRow>, keep: ResultRow -> bool)
    requires forall i :: 0 <= i < |rows| ==> keep(rows[i])
    ensures Select(rows, keep) == rows
  {
    if rows != [] {
      SelectAll(rows[1..], keep);
    }
  }

  function AtTime(patientId: nat, at: int): ResultRow -> bool {
    (r: ResultRow) => r.patientId == patientId && r.analyzedAt == at
  }

  function Since(patientId: nat, from: int): ResultRow -> bool {
    (r: ResultRow) => r.patientId == patientId && r.analyzedAt >= from
  }

  function WithSample(sampleId: string): ResultRow -> bool {
    (r: ResultRow) => r.sampleId == Some(sampleId)
  }

  // ---------------------------------------------------------------------
  // Rows built from the assistant's results
  // ---------------------------------------------------------------------

  /** `test.unit || null`: a missing or empty unit is stored as null. */
  function StoredUnit(unit: Option<string>): (u: Option<string>)
    ensures u.None? <==> !Truthy(unit)
    ensures u.Some? ==> u == unit
  {
    if Truthy(unit) then unit else None
  }

  /** The rows one analysis stores: one per test, in order, all stamped with
      the same patient, sample id and analysis time. */
  function RowsFor(patientId: nat, sampleId: Option<string>, tests: seq<AiTest>, now: int): (rows: seq<ResultRow>)
    ensures |rows| == |tests|
    ensures forall i :: 0 <= i < |tests| ==>
      && rows[i].patientId == patientId && rows[i].sampleId == sampleId
      && rows[i].analyzedAt == now
      && rows[i].testName == tests[i].testName && rows[i].value == tests[i].value
      && rows[i].unit == StoredUnit(tests[i].unit)
      && rows[i].referenceRange == tests[i].referenceRange
      && rows[i].status == MapTestStatus(tests[i].status)
      && rows[i].meaning == tests[i].meaning
  {
    seq(|tests|, i requires 0 <= i < |tests| =>
      var t := tests[i];
      ResultRow(patientId, sampleId, t.testName, t.value, StoredUnit(t.unit),
                t.referenceRange, MapTestStatus(t.status), t.meaning, now))
  }

  lemma {:induction false} SelectEmpty(rows: seq<ResultRow>, keep: ResultRow -> bool)
    ensures Select(rows, keep) == [] <==> forall i :: 0 <= i < |rows| ==> !keep(rows[i])
  {
    if rows != [] {
      SelectEmpty(rows[1..], keep);
      assert forall i :: 1 <= i < |rows| ==> rows[i] == rows[1..][i - 1];
    }
  }

  function IdsOf(patients: map<string, Patient>): set<nat> {
    set n | n in patients :: patients[n].id
  }

  lemma IdsOfInsert(patients: map<string, Patient>, key: string, p: Patient)
    requires key !in patients
    ensures IdsOf(patients[key := p]) == IdsOf(patients) + {p.id}
  {
    var after := patients[key := p];
    forall q | q in IdsOf(after) ensures q in IdsOf(patients) + {p.id} {
      var n :| n in after && after[n].id == q;
      if n != key {
        assert n in patients && patients[n].id == q;
      }
    }
    forall q | q in IdsOf(patients) ensures q in IdsOf(after) {
      var n :| n in patients && patients[n].id == q;
      assert n in after && after[n].id == q;
    }
    assert key in after && after[key].id == p.id;
  }

  /** The store's invariant, on the contents of its tables. */
  ghost predicate StoreInvariant(patients: map<string, Patient>, letters: map<nat, Letter>,
                                 results: seq<ResultRow>, nextId: nat)
  {
    && (forall n | n in patients :: patients[n].nhsNumber == n && patients[n].id < nextId)
    && (forall n, m | n in patients && m in patients && n != m :: patients[n].id != patients[m].id)
    && (forall p | p in letters :: letters[p].patientId == p && p in IdsOf(patients))
    && (forall i | 0 <= i < |results| :: results[i].patientId in IdsOf(patients))
    && KeysUnique(results)
  }

  /** Filing a new patient under a fresh NHS number with the next id keeps the invariant. */
  lemma NewPatientKeepsInvariant(patients: map<string, Patient>, letters: map<nat, Letter>,
                                 results: seq<ResultRow>, nextId: nat, p: Patient)
    requires StoreInvariant(patients, letters, results, nextId)
    requires p.nhsNumber !in patients && p.id == nextId
    ensures StoreInvariant(patients[p.nhsNumber := p], letters, results, nextId + 1)
    ensures IdsOf(patients[p.nhsNumber := p]) == IdsOf(patients) + {p.id}
  {
    IdsOfInsert(patients, p.nhsNumber, p);
  }

  // ---------------------------------------------------------------------
  // The store
  // ---------------------------------------------------------------------

  class Database {
    var patients: map<string, Patient>
    var letters: map<nat, Letter>
    var results: seq<ResultRow>
    var nextId: nat

    function PatientIds(): set<nat>
      reads this
    {
      IdsOf(patients)
    }

    /** Each patient is filed under its own NHS number and has its own id;
        letters and rows point at existing patients; the row key is unique. */
    ghost predicate Valid()
      reads this
    {
      StoreInvariant(patients, letters, results, nextId)
    }

    constructor()
      ensures Valid()
      ensures patients == map[] && letters == map[] && results == [] && nextId == 0
    {
      patients := map[];
      letters := map[];
      results := [];
      nextId := 0;
    }

    function RowsAt(patientId: nat, at: int): seq<ResultRow>
      reads this
    {
      Select(results, AtTime(patientId, at))
    }

    function RowsSince(patientId: nat, from: int): seq<ResultRow>
      reads this
    {
      Select(results, Since(patientId, from))
    }

    function RowsWithSample(sampleId: string): (r: seq<ResultRow>)
      reads this
      ensures r == [] <==> forall i :: 0 <= i < |results| ==> results[i].sampleId != Some(sampleId)
    {
      SelectEmpty(results, WithSample(sampleId));
      Select(results, WithSample(sampleId))
    }

    /** `handlePatient`: find the patient by the trimmed NHS number, or create
        one with the next id. An existing patient is returned as stored, with
        no field updated. */
    method HandlePatient(details: PatientDetails) returns (patient: Patient, isNewPatient: bool)
      requires Valid()
      modifies this
      ensures Valid()
      ensures patient.nhsNumber == Trim(details.nhsNumber)
      ensures patients == old(patients)[patient.nhsNumber := patient]
      ensures isNewPatient <==> Trim(details.nhsNumber) !in old(patients)
      ensures !isNewPatient ==> patient == old(patients)[Trim(details.nhsNumber)] && unchanged(this)
      ensures isNewPatient ==>
        && patient == Patient(old(nextId), Trim(details.nhsNumber), details.name, details.dateOfBirth, details.gp)
        && patients == old(patients)[Trim(details.nhsNumber) := patient]
        && nextId == old(nextId) + 1
        && letters == old(letters) && results == old(results)
      ensures patient.id in PatientIds()
    {
      var nhsNumber := Trim(details.nhsNumber);
      if nhsNumber in patients {
        patient := patients[nhsNumber];
        isNewPatient := false;
        assert patients == patients[nhsNumber := patient];
        assert patient.id in PatientIds();
      } else {
        patient := Patient(nextId, nhsNumber, details.name, details.dateOfBirth, details.gp);
        NewPatientKeepsInvariant(patients, letters, results, nextId, patient);
        patients := patients[nhsNumber := patient];
        nextId := nextId + 1;
        isNewPatient := true;
      }
    }

    /** `handleLetter`: replace the patient's letter, or create it when the
        patient has none. */
    method HandleLetter(patient: Patient, content: string) returns (letter: Letter, isNewLetter: bool)
      requires Valid() && patient.id in PatientIds()
      modifies this
      ensures Valid()
      ensures letter == Letter(patient.id, content)
      ensures isNewLetter <==> patient.id !in old(letters)
      ensures letters == old(letters)[patient.id := letter]
      ensures patients == old(patients) && results == old(results) && nextId == old(nextId)
    {
      isNewLetter := patient.id !in letters;
      letter := Letter(patient.id, content);
      letters := letters[patient.id := letter];
    }

    /** `createMany`: one statement, so the batch goes in whole or not at all.
        It fails with the given fault, or with P2002 when a row would repeat
        the key of a stored row or of another row of the batch. */
    method CreateMany(rows: seq<ResultRow>, fault: Option<DbFault>) returns (err: Option<DbFault>)
      requires Valid()
      requires forall i :: 0 <= i < |rows| ==> rows[i].patientId in PatientIds()
      modifies this
      ensures Valid()
      ensures err == (if fault.Some? then fault
                      else if KeysUnique(old(results) + rows) then None
                      else Some(UniqueViolation))
      ensures results == (if err.None? then old(results) + rows else old(results))
      ensures patients == old(patients) && letters == old(letters) && nextId == old(nextId)
    {
      if fault.Some? {
        err := fault;
      } else if KeysUnique(results + rows) {
        results := results + rows;
        err := None;
      } else {
        err := Some(UniqueViolation);
      }
    }
  }

  /** A successful batch insert adds exactly the batch to the rows stored for
      the analysis time, when none were stored for it before. */
  lemma BatchIsSession(stored: seq<ResultRow>, rows: seq<ResultRow>, patientId: nat, now: int)
    requires Select(stored, AtTime(patientId, now)) == []
    requires forall i :: 0 <= i < |rows| ==> rows[i].patientId == patientId && rows[i].analyzedAt == now
    ensures Select(stored + rows, AtTime(patientId, now)) == rows
  {
    SelectAppend(stored, rows, AtTime(patientId, now));
    SelectAll(rows, AtTime(patientId, now));
  }

  /** The same for the rows carrying a sample id. */
  lemma BatchIsSample(stored: seq<ResultRow>, rows: seq<ResultRow>, sampleId: string)
    requires Select(stored, WithSample(sampleId)) == []
    requires forall i :: 0 <= i < |rows| ==> rows[i].sampleId == Some(sampleId)
    ensures Select(stored + rows, WithSample(sampleId)) == rows
  {
    SelectAppend(stored, rows, WithSample(sampleId));
    SelectAll(rows, WithSample(sampleId));
  }
}

=== FILE: text.dfy ===
/** String helpers with JavaScript's meaning: the `\s` class, `trim`,
    `replace(/\s+/g, ' ')`, `startsWith`, `includes`, and the ASCII part of
    case conversion and case-insensitive matching. */
module Text {

  /** JavaScript's `\s`: WhiteSpace and LineTerminator code points. The same set
      is what `String.prototype.trim` strips. */
  predicate IsWhitespace(c: char) {
    || c == ' ' || c == '\t' || c == '\n' || c == '\r' || c == '\U{B}' || c == '\U{C}'
    || c == '\U{A0}' || c == '\U{1680}' || ('\U{2000}' <= c <= '\U{200A}')
    || c == '\U{2028}' || c == '\U{2029}' || c == '\U{202F}' || c == '\U{205F}'
    || c == '\U{3000}' || c == '\U{FEFF}'
  }

  /** The characters `.` refuses to match (without the `s` flag). */
  predicate IsLineTerminator(c: char) {
    c == '\n' || c == '\r' || c == '\U{2028}' || c == '\U{2029}'
  }

  /** JavaScript's `\d`: ASCII digits only. */
  predicate IsDigit(c: char) {
    '0' <= c <= '9'
  }

  predicate IsAsciiLetter(c: char) {
    ('a' <= c <= 'z') || ('A' <= c <= 'Z')
  }

  predicate NoWhitespace(s: string) {
    forall i :: 0 <= i < |s| ==> !IsWhitespace(s[i])
  }

  predicate AllDigits(s: string) {
    forall i :: 0 <= i < |s| ==> IsDigit(s[i])
  }

  /** No whitespace at either end: what `trim` leaves. */
  predicate IsTrimmed(s: string) {
    |s| > 0 ==> !IsWhitespace(s[0]) && !IsWhitespace(s[|s| - 1])
  }

  /** Every whitespace character is a plain space and no two spaces touch. */
  predicate IsCollapsed(s: string) {
    && (forall i :: 0 <= i < |s| && IsWhitespace(s[i]) ==> s[i] == ' ')
    && (forall i :: 0 <= i < |s| - 1 ==> !(s[i] == ' ' && s[i + 1] == ' '))
  }

  /** The string with its leading whitespace run removed. */
  function DropLeadingWhitespace(s: string): (r: string)
    ensures |r| <= |s| && r == s[|s| - |r|..]
    ensures |r| > 0 ==> !IsWhitespace(r[0])
    ensures forall i :: 0 <= i < |s| - |r| ==> IsWhitespace(s[i])
    ensures |s| > 0 && IsWhitespace(s[0]) ==> |r| < |s|
  {
    if |s| > 0 && IsWhitespace(s[0]) then
      var r := DropLeadingWhitespace(s[1..]);
      assert s[1..][|s| - 1 - |r|..] == s[|s| - |r|..];
      assert forall i :: 1 <= i < |s| - |r| ==> s[i] == s[1..][i - 1];
      r
    else s
  }

  /** The string with its trailing whitespace run removed. */
  function DropTrailingWhitespace(s: string): (r: string)
    ensures |r| <= |s| && r == s[..|r|]
    ensures |r| > 0 ==> !IsWhitespace(r[|r| - 1])
    ensures forall i :: |r| <= i < |s| ==> IsWhitespace(s[i])
  {
    if |s| > 0 && IsWhitespace(s[|s| - 1]) then DropTrailingWhitespace(s[..|s| - 1]) else s
  }

  /** Number of leading whitespace characters. */
  function LeadingWhitespace(s: string): (n: nat)
    ensures n <= |s|
  {
    |s| - |DropLeadingWhitespace(s)|
  }

  /** `s.trim()` */
  function Trim(s: string): (r: string)
    ensures IsTrimmed(r)
    ensures LeadingWhitespace(s) + |r| <= |s|
    ensures r == s[LeadingWhitespace(s)..LeadingWhitespace(s) + |r|]
  {
    var d := DropLeadingWhitespace(s);
    var r := DropTrailingWhitespace(d);
    SuffixPrefixIsSlice(s, d, r);
    assert |r| > 0 ==> r[0] == d[0];
    r
  }

  /** A prefix of a suffix is a slice. */
  lemma SuffixPrefixIsSlice<T>(s: seq<T>, d: seq<T>, r: seq<T>)
    requires |d| <= |s| && d == s[|s| - |d|..]
    requires |r| <= |d| && r == d[..|r|]
    ensures |s| - |d| + |r| <= |s| && r == s[|s| - |d|..|s| - |d| + |r|]
  {
  }

  /** `s.replace(/\s+/g, ' ')`: every maximal whitespace run becomes one space. */
  function CollapseWhitespace(s: string): (r: string)
    ensures |r| <= |s|
    ensures |r| > 0 <==> |s| > 0
    ensures |s| > 0 ==> (r[0] == ' ' <==> IsWhitespace(s[0]))
    decreases |s|
  {
    if s == [] then []
    else if IsWhitespace(s[0]) then [' '] + CollapseWhitespace(DropLeadingWhitespace(s))
    else [s[0]] + CollapseWhitespace(s[1..])
  }

  /** `s.replace(/\s/g, '')` */
  function RemoveWhitespace(s: string): (r: string)
    ensures NoWhitespace(r)
    ensures |r| <= |s|
  {
    if s == [] then []
    else if IsWhitespace(s[0]) then RemoveWhitespace(s[1..])
    else [s[0]] + RemoveWhitespace(s[1..])
  }

  /** The text normalisation applied before any extraction:
      `extractedText.replace(/\s+/g, ' ').trim()`. */
  function Normalise(s: string): string {
    Trim(CollapseWhitespace(s))
  }

  lemma {:induction false} CollapseIsCollapsed(s: string)
    ensures IsCollapsed(CollapseWhitespace(s))
    decreases |s|
  {
    if s == [] {
    } else if IsWhitespace(s[0]) {
      var t := DropLeadingWhitespace(s);
      CollapseIsCollapsed(t);
      assert CollapseWhitespace(s) == [' '] + CollapseWhitespace(t);
      ConsCollapsed(' ', CollapseWhitespace(t));
    } else {
      CollapseIsCollapsed(s[1..]);
      assert CollapseWhitespace(s) == [s[0]] + CollapseWhitespace(s[1..]);
      ConsCollapsed(s[0], CollapseWhitespace(s[1..]));
    }
  }

  lemma ConsCollapsed(c: char, t: string)
    requires IsCollapsed(t)
    requires IsWhitespace(c) ==> c == ' '
    requires c == ' ' && t != [] ==> t[0] != ' '
    ensures IsCollapsed([c] + t)
  {
    var r := [c] + t;
    forall i | 0 <= i < |r| && IsWhitespace(r[i]) ensures r[i] == ' ' {
      if i > 0 {
        assert r[i] == t[i - 1];
      }
    }
    forall i | 0 <= i < |r| - 1 ensures !(r[i] == ' ' && r[i + 1] == ' ') {
      assert r[i + 1] == t[i];
      if i > 0 {
        assert r[i] == t[i - 1];
      }
    }
  }

  /** Collapsing whitespace keeps every non-whitespace character, in order. */
  lemma {:induction false} CollapseKeepsContent(s: string)
    ensures RemoveWhitespace(CollapseWhitespace(s)) == RemoveWhitespace(s)
    decreases |s|
  {
    if s == [] {
    } else if IsWhitespace(s[0]) {
      var t := DropLeadingWhitespace(s);
      CollapseKeepsContent(t);
      DropWhitespaceInvisible(s);
      assert CollapseWhitespace(s) == [' '] + CollapseWhitespace(t);
    } else {
      CollapseKeepsContent(s[1..]);
      assert CollapseWhitespace(s) == [s[0]] + CollapseWhitespace(s[1..]);
    }
  }

  lemma {:induction false} DropWhitespaceInvisible(s: string)
    ensures RemoveWhitespace(DropLeadingWhitespace(s)) == RemoveWhitespace(s)
    decreases |s|
  {
    if |s| > 0 && IsWhitespace(s[0]) {
      DropWhitespaceInvisible(s[1..]);
    }
  }

  lemma SliceKeepsCollapsed(s: string, a: nat, b: nat)
    requires IsCollapsed(s) && a <= b <= |s|
    ensures IsCollapsed(s[a..b])
  {
    var t := s[a..b];
    forall i | 0 <= i < |t| && IsWhitespace(t[i]) ensures t[i] == ' ' {
      assert t[i] == s[a + i];
    }
    forall i | 0 <= i < |t| - 1 ensures !(t[i] == ' ' && t[i + 1] == ' ') {
      assert t[i] == s[a + i] && t[i + 1] == s[a + i + 1];
    }
  }

  /** After normalisation the text has no leading or trailing whitespace, its
      only whitespace characters are single spaces, and no non-whitespace
      character was lost. */
  lemma NormaliseShape(s: string)
    ensures IsTrimmed(Normalise(s)) && IsCollapsed(Normalise(s))
    ensures RemoveWhitespace(Normalise(s)) == RemoveWhitespace(s)
  {
    NormaliseCollapsed(s);
    NormaliseKeepsContent(s);
  }

  lemma NormaliseCollapsed(s: string)
    ensures IsCollapsed(Normalise(s))
  {
    CollapseIsCollapsed(s);
    TrimKeepsCollapsed(CollapseWhitespace(s));
  }

  lemma TrimKeepsCollapsed(c: string)
    requires IsCollapsed(c)
    ensures IsCollapsed(Trim(c))
  {
    var a, r := LeadingWhitespace(c), Trim(c);
    SliceKeepsCollapsed(c, a, a + |r|);
  }

  lemma NormaliseKeepsContent(s: string)
    ensures RemoveWhitespace(Normalise(s)) == RemoveWhitespace(s)
  {
    TrimKeepsContent(CollapseWhitespace(s));
    CollapseKeepsContent(s);
  }

  lemma TrimKeepsContent(s: string)
    ensures RemoveWhitespace(Trim(s)) == RemoveWhitespace(s)
  {
    DropWhitespaceInvisible(s);
    DropTrailingInvisible(DropLeadingWhitespace(s));
  }

  lemma {:induction false} RemoveWhitespaceAppend(a: string, b: string)
    ensures RemoveWhitespace(a + b) == RemoveWhitespace(a) + RemoveWhitespace(b)
    decreases |a|
  {
    if a == [] {
      assert a + b == b;
    } else {
      RemoveWhitespaceAppend(a[1..], b);
      assert (a + b)[1..] == a[1..] + b;
    }
  }

  lemma {:induction false} AllWhitespaceRemoved(s: string)
    requires forall i :: 0 <= i < |s| ==> IsWhitespace(s[i])
    ensures RemoveWhitespace(s) == []
    decreases |s|
  {
    if s != [] {
      AllWhitespaceRemoved(s[1..]);
    }
  }

  /** Concatenation is associative; stated once so that loops can cite it. */
  lemma AppendAssociates<T>(a: seq<T>, b: seq<T>, c: seq<T>)
    ensures (a + b) + c == a + (b + c)
  {
  }

  /** Removing whitespace from a string that has none changes nothing. */
  lemma {:induction false} NothingToRemove(s: string)
    requires NoWhitespace(s)
    ensures RemoveWhitespace(s) == s
    decreases |s|
  {
    if s != [] {
      NothingToRemove(s[1..]);
    }
  }

  lemma DropTrailingInvisible(s: string)
    ensures RemoveWhitespace(DropTrailingWhitespace(s)) == RemoveWhitespace(s)
  {
    var r := DropTrailingWhitespace(s);
    assert s == r + s[|r|..];
    RemoveWhitespaceAppend(r, s[|r|..]);
    AllWhitespaceRemoved(s[|r|..]);
  }

  /** `s.startsWith(p)` */
  predicate StartsWith(s: string, p: string) {
    |p| <= |s| && s[..|p|] == p
  }

  /** `s.includes(p)`: `p` occurs at some position of `s`. */
  predicate Contains(s: string, p: string) {
    ContainsFrom(s, p, 0)
  }

  /** `p` occurs at some position from `i` on. */
  predicate ContainsFrom(s: string, p: string, i: nat)
    decreases |s| - i
  {
    i + |p| <= |s| && (OccursAt(s, i, p) || ContainsFrom(s, p, i + 1))
  }

  lemma {:induction false} ContainsFromMeaning(s: string, p: string, i: nat)
    ensures ContainsFrom(s, p, i) <==> exists k :: i <= k && OccursAt(s, k, p)
    decreases |s| - i
  {
    if i + |p| <= |s| {
      ContainsFromMeaning(s, p, i + 1);
      if !ContainsFrom(s, p, i) {
        forall k | i <= k
          ensures !OccursAt(s, k, p)
        {
          if k == i {} else {}
        }
      }
    } else {
      forall k | i <= k
        ensures !OccursAt(s, k, p)
      {}
    }
  }

  predicate OccursAt(s: string, i: nat, p: string) {
    i + |p| <= |s| && s[i..i + |p|] == p
  }

  /** An occurrence at a known position is an occurrence. */
  lemma ContainsAt(s: string, p: string, k: nat)
    requires OccursAt(s, k, p)
    ensures Contains(s, p)
  {
    ContainsFromMeaning(s, p, 0);
  }

  /** Upper case of the characters whose upper case is an ASCII letter: the
      ASCII letters themselves, dotless i (U+0131) and long s (U+017F). Every
      other character is left as it is. Comparing the result against an
      all-ASCII upper-case word gives the same answer as comparing
      `toUpperCase()` against it. */
  function UpperChar(c: char): (u: char)
    ensures 'a' <= c <= 'z' ==> u as int == c as int - 32
    ensures !IsAsciiLetter(c) && c != '\U{131}' && c != '\U{17F}' ==> u == c
  {
    if 'a' <= c <= 'z' then (c as int - 32) as char
    else if c == '\U{131}' then 'I'
    else if c == '\U{17F}' then 'S'
    else c
  }

  function Upper(s: string): (r: string)
    ensures |r| == |s|
    ensures forall i :: 0 <= i < |s| ==> r[i] == UpperChar(s[i])
  {
    seq(|s|, i requires 0 <= i < |s| => UpperChar(s[i]))
  }

  /** ASCII part of `toLowerCase()`. */
  function LowerChar(c: char): (l: char)
    ensures 'A' <= c <= 'Z' ==> l as int == c as int + 32
    ensures !('A' <= c <= 'Z') ==> l == c
  {
    if 'A' <= c <= 'Z' then (c as int + 32) as char else c
  }

  function Lower(s: string): (r: string)
    ensures |r| == |s|
    ensures forall i :: 0 <= i < |s| ==> r[i] == LowerChar(s[i])
  {
    if s == [] then [] else [LowerChar(s[0])] + Lower(s[1..])
  }

  /** The canonical form the `i` flag of a regular expression compares: the
      upper case of an ASCII letter, and capital mu (U+039C) for the micro
      sign (U+00B5) and both Greek mus. Characters that no pattern of this
      model mentions are compared as they are. */
  function Canon(c: char): char {
    if 'a' <= c <= 'z' then (c as int - 32) as char
    else if c == '\U{B5}' || c == '\U{3BC}' then '\U{39C}'
    else c
  }

  /** `w` occurs, case-insensitively, in `s` at position `i`. */
  predicate WordAt(s: string, i: nat, w: string) {
    i + |w| <= |s| && forall k :: 0 <= k < |w| ==> Canon(s[i + k]) == Canon(w[k])
  }

  /** End of the maximal whitespace run of `s` that starts at `i`. */
  function SkipWhitespace(s: string, i: nat): (j: nat)
    requires i <= |s|
    ensures i <= j <= |s|
    ensures forall k :: i <= k < j ==> IsWhitespace(s[k])
    ensures j < |s| ==> !IsWhitespace(s[j])
    decreases |s| - i
  {
    if i < |s| && IsWhitespace(s[i]) then SkipWhitespace(s, i + 1) else i
  }

  /** Splits on `sep`, like `s.split(sep)` for a one-character separator. */
  function Split(s: string, sep: char): (parts: seq<string>)
    ensures |parts| > 0
    ensures forall k :: 0 <= k < |parts| ==> sep !in parts[k]
    decreases |s|
  {
    if s == [] then [[]]
    else
      var rest := Split(s[1..], sep);
      if s[0] == sep then [[]] + rest
      else [[s[0]] + rest[0]] + rest[1..]
  }

  /** Splitting and re-joining with the separator gives back the string. */
  lemma {:induction false} SplitJoin(s: string, sep: char)
    ensures Join(Split(s, sep), sep) == s
    decreases |s|
  {
    if s != [] {
      SplitJoin(s[1..], sep);
      var rest := Split(s[1..], sep);
      if s[0] != sep {
        if |rest| > 1 {
          assert Join(rest, sep) == rest[0] + [sep] + Join(rest[1..], sep);
        }
      }
    }
  }

  function Join(parts: seq<string>, sep: char): string
    decreases |parts|
  {
    if parts == [] then []
    else if |parts| == 1 then parts[0]
    else parts[0] + [sep] + Join(parts[1..], sep)
  }
}

=== FILE: upload.dfy ===
/** The client-side upload hook: a PDF goes to the text-extraction route,
    the parsed report is checked for the fields the analysis needs, and a
    payload built from it goes to the result-ai route. The hook shows its
    progress as a stage and a percentage, set step by step. */
module Upload {
  import opened Wrappers
  import opened ReportFields
  import opened ReportTests
  import opened ReportParser
  import opened PdfText
  import AiReply
  import ResultAi
  import ApiResponse

  datatype Stage = Idle | Validating | Extracting | Analyzing | Saving | Complete | Failed

  /** `uploadProgress`: the stage, the percentage and an optional message. */
  datatype Progress = Progress(stage: Stage, progress: nat, message: Option<string>)

  /** The state before any upload and after a reset. */
  const Start := Progress(Idle, 0, None)

  /** The stages of an upload that succeeds, in the order they are set. */
  const SuccessStages := [
    Progress(Validating, 5, Some("Validating PDF file...")),
    Progress(Extracting, 20, Some("Extracting text from PDF...")),
    Progress(Analyzing, 50, Some("Processing test results with AI...")),
    Progress(Saving, 75, Some("Analyzing results and generating report...")),
    Progress(Complete, 100, Some("Analysis completed successfully!"))]

  const NotSpecified := "Not specified"
  const AlreadyProcessed := "This report has already been processed. "

  /** `JSON.stringify` of an object: never empty. */
  type JsonText = s: string | s != "" witness "{}"

  /** The `patientDetails` of the body posted to the result-ai route. */
  datatype PayloadDetails = PayloadDetails(nhsNumber: string, name: string, dateOfBirth: string, gp: string, sampleId: string)

  /** The body posted to the result-ai route. */
  datatype Payload = Payload(patientDetails: PayloadDetails, plainText: string, sampleId: string, testResults: seq<TestResult>)

  /** What `uploadPdf` resolves to on success: the route's data with the
      sample id, the extracted report and the file's name and size. */
  datatype UploadData = UploadData(
    saved: ApiResponse.SaveResult, sampleId: string, extractedData: ParsedReport,
    originalFileName: string, fileSize: nat)

  datatype UploadResult = Uploaded(data: UploadData) | UploadFailed(error: string)

  // ---------------------------------------------------------------------
  // Field checks and the payload
  // ---------------------------------------------------------------------

  /** The required-field checks, in their order: sample id, NHS number,
      patient name, then at least one test result. The first that fails
      gives the message. */
  function FieldError(report: ParsedReport): (e: Option<string>)
    ensures e.None? <==>
      && AiReply.Truthy(report.patientDetails.sampleId) && AiReply.Truthy(report.patientDetails.nhsNumber)
      && AiReply.Truthy(report.patientDetails.name) && report.testResults != []
    ensures !AiReply.Truthy(report.patientDetails.sampleId) ==> e == Some("Sample ID not found in the PDF")
    ensures AiReply.Truthy(report.patientDetails.sampleId) && !AiReply.Truthy(report.patientDetails.nhsNumber) ==>
      e == Some("NHS Number not found in the PDF")
    ensures AiReply.Truthy(report.patientDetails.sampleId) && AiReply.Truthy(report.patientDetails.nhsNumber)
            && !AiReply.Truthy(report.patientDetails.name) ==>
      e == Some("Patient name not found in the PDF")
    ensures AiReply.Truthy(report.patientDetails.sampleId) && AiReply.Truthy(report.patientDetails.nhsNumber)
            && AiReply.Truthy(report.patientDetails.name) && report.testResults == [] ==>
      e == Some("No test results found in the PDF")
  {
    var d := report.patientDetails;
    if !AiReply.Truthy(d.sampleId) then Some("Sample ID not found in the PDF")
    else if !AiReply.Truthy(d.nhsNumber) then Some("NHS Number not found in the PDF")
    else if !AiReply.Truthy(d.name) then Some("Patient name not found in the PDF")
    else if report.testResults == [] then Some("No test results found in the PDF")
    else None
  }

  /** `field || 'Not specified'` */
  function OrNotSpecified(field: Option<string>): (s: string)
    ensures s != ""
    ensures AiReply.Truthy(field) ==> s == field.value
    ensures !AiReply.Truthy(field) ==> s == NotSpecified
  {
    if AiReply.Truthy(field) then field.value else NotSpecified
  }

  /** The body posted to the result-ai route. The extraction route answers
      its text under `text`, not `plainText`, so the report's JSON is always
      what is sent as the plain text. */
  function PayloadOf(report: ParsedReport, json: JsonText): (p: Payload)
    requires FieldError(report).None?
    ensures p.sampleId == p.patientDetails.sampleId == report.patientDetails.sampleId.value
    ensures p.patientDetails.nhsNumber == report.patientDetails.nhsNumber.value
    ensures p.patientDetails.name == report.patientDetails.name.value
    ensures p.patientDetails.dateOfBirth == OrNotSpecified(report.patientDetails.dateOfBirth)
    ensures p.patientDetails.gp == OrNotSpecified(report.patientDetails.gp)
    ensures p.plainText == json && p.testResults == report.testResults
  {
    var d := report.patientDetails;
    Payload(PayloadDetails(d.nhsNumber.value, d.name.value, OrNotSpecified(d.dateOfBirth), OrNotSpecified(d.gp), d.sampleId.value),
            json, d.sampleId.value, report.testResults)
  }

  /** The request the result-ai route reads from the payload. */
  function RequestOf(p: Payload): ResultAi.Request {
    var d := p.patientDetails;
    ResultAi.Request(
      Some(ResultAi.RequestDetails(Some(d.nhsNumber), Some(d.name), Some(d.dateOfBirth), Some(d.gp))),
      Some(p.plainText), Some(p.sampleId))
  }

  /** A payload built from a report that passes the field checks passes the
      route's own request checks: the route never answers it with 400. */
  lemma PayloadPassesRouteChecks(report: ParsedReport, json: JsonText)
    requires FieldError(report).None?
    ensures ResultAi.RequestError(RequestOf(PayloadOf(report, json))).None?
  {
  }

  // ---------------------------------------------------------------------
  // The responses
  // ---------------------------------------------------------------------

  /** `error || fallback` */
  function ErrorOr(error: string, fallback: string): string {
    if error != "" then error else fallback
  }

  /** The message thrown for a failed call to the result-ai route: a 409
      keeps the route's message behind a fixed prefix. */
  function AnalyzerError(status: nat, error: string): (m: string)
    ensures status == 409 ==> m == AlreadyProcessed + error
    ensures status != 409 && error != "" ==> m == error
    ensures status != 409 && error == "" ==> m == "Failed to analyze the report"
  {
    if status == 409 then AlreadyProcessed + error else ErrorOr(error, "Failed to analyze the report")
  }

  /** How far an upload gets: how many of the success stages it sets, and
      what it resolves to. */
  datatype Run = Run(reached: nat, result: UploadResult)

  /** `uploadPdf` on values: the extraction route's answer for the file, the
      result-ai route's answer for a payload, and the report's JSON. */
  function Outcome(file: PdfUpload, extract: PdfUpload -> ExtractResponse,
                   analyze: Payload -> ApiResponse.Response, json: ParsedReport -> JsonText): (run: Run)
    ensures 2 <= run.reached <= 5
    ensures run.result.Uploaded? <==> run.reached == 5
    ensures run.reached == 4 ==> run.result.UploadFailed?
  {
    match extract(file)
    case Rejected(_, error, _) => Run(2, UploadFailed(ErrorOr(error, "Failed to extract PDF text")))
    case Extracted(_, report, _, _) =>
      match FieldError(report)
      case Some(e) => Run(2, UploadFailed(e))
      case None =>
        var answer := analyze(PayloadOf(report, json(report)));
        if answer.Failure? then Run(4, UploadFailed(AnalyzerError(answer.status, answer.error)))
        else Run(5, Uploaded(UploadData(answer.data, report.patientDetails.sampleId.value, report, file.name, file.size)))
  }

  /** The progress values an upload sets, in order: the success stages it
      reaches, then the error state when it fails. */
  function Trace(run: Run): seq<Progress>
    requires run.reached <= 5
  {
    SuccessStages[..run.reached] +
      match run.result
      case Uploaded(_) => []
      case UploadFailed(e) => [Progress(Failed, 0, Some(e))]
  }

  /** The success stages are set with strictly increasing percentages, from
      5 to 100. */
  lemma SuccessStagesIncrease()
    ensures forall i, j :: 0 <= i < j < |SuccessStages| ==> SuccessStages[i].progress < SuccessStages[j].progress
    ensures SuccessStages[0].progress == 5 && SuccessStages[|SuccessStages| - 1].progress == 100
  {
  }

  /** Every upload starts by validating and extracting; it ends in Complete
      exactly when it succeeds, and otherwise in the error state at 0% with
      the error it resolves to. */
  lemma TraceShape(run: Run)
    requires 2 <= run.reached <= 5
    requires run.result.Uploaded? <==> run.reached == 5
    ensures Trace(run)[..2] == SuccessStages[..2]
    ensures run.result.Uploaded? ==> Trace(run) == SuccessStages
    ensures run.result.UploadFailed? ==>
      Trace(run)[|Trace(run)| - 1] == Progress(Failed, 0, Some(run.result.error))
  {
    var t := Trace(run);
    assert t[..2] == SuccessStages[..run.reached][..2];
  }

  // ---------------------------------------------------------------------
  // The hook's state
  // ---------------------------------------------------------------------

  /** The state of `usePdfUpload`. `trace` records, for the proofs, every
      progress value the current upload has set. */
  class Uploader {
    var uploadProgress: Progress
    var isUploading: bool
    ghost var trace: seq<Progress>

    constructor()
      ensures uploadProgress == Start && !isUploading && trace == []
    {
      uploadProgress := Start;
      isUploading := false;
      trace := [];
    }

    /** `resetProgress` */
    method ResetProgress()
      modifies this
      ensures uploadProgress == Start
      ensures isUploading == old(isUploading) && trace == old(trace)
    {
      uploadProgress := Start;
    }

    /** `setUploadProgress` during an upload. */
    method SetProgress(p: Progress)
      requires isUploading
      modifies this
      ensures uploadProgress == p && trace == old(trace) + [p]
      ensures isUploading
    {
      uploadProgress := p;
      trace := trace + [p];
    }

    /** `uploadPdf`: the progress is set stage by stage while `isUploading`
        holds, and `isUploading` is cleared whatever the outcome. */
    method UploadPdf(file: PdfUpload, extract: PdfUpload -> ExtractResponse,
                     analyze: Payload -> ApiResponse.Response, json: ParsedReport -> JsonText)
      returns (result: UploadResult)
      modifies this
      ensures result == Outcome(file, extract, analyze, json).result
      ensures trace == Trace(Outcome(file, extract, analyze, json))
      ensures uploadProgress == trace[|trace| - 1]
      ensures !isUploading
    {
      isUploading := true;
      trace := [];
      SetProgress(SuccessStages[0]);
      SetProgress(SuccessStages[1]);
      assert trace == SuccessStages[..2];
      var extracted := extract(file);
      match extracted {
      case Rejected(_, error, _) =>
        result := UploadFailed(ErrorOr(error, "Failed to extract PDF text"));
      case Extracted(_, report, _, _) =>
        var missing := FieldError(report);
        if missing.Some? {
          result := UploadFailed(missing.value);
        } else {
          SetProgress(SuccessStages[2]);
          var payload := PayloadOf(report, json(report));
          SetProgress(SuccessStages[3]);
          assert trace == SuccessStages[..4];
          var answer := analyze(payload);
          if answer.Failure? {
            result := UploadFailed(AnalyzerError(answer.status, answer.error));
          } else {
            SetProgress(SuccessStages[4]);
            assert trace == SuccessStages[..5];
            result := Uploaded(UploadData(answer.data, report.patientDetails.sampleId.value, report, file.name, file.size));
          }
        }
      }
      if result.UploadFailed? {
        SetProgress(Progress(Failed, 0, Some(result.error)));
      }
      isUploading := false;
    }
  }
}

=== FILE: uri.dfy ===
/** JavaScript's `decodeURIComponent`, which the PDF text flattening applies to
    every text run, and `encodeURIComponent`, its inverse: percent-encoding of
    UTF-8 octets as in section 2.1 of RFC 3986, with the decoding algorithm and
    its URIError cases as in section 19.2.6.5 (Decode) of ECMA-262.

    Characters are Unicode scalar values, so the lone surrogates a JavaScript
    string may hold do not arise. */
module Uri {
  import opened Wrappers

  /** The value of a hexadecimal digit, either case. */
  function HexValue(c: char): Option<nat> {
    if '0' <= c <= '9' then Some(c as nat - '0' as nat)
    else if 'A' <= c <= 'F' then Some(c as nat - 'A' as nat + 10)
    else if 'a' <= c <= 'f' then Some(c as nat - 'a' as nat + 10)
    else None
  }

  /** The octet of an escape "%XY" at the start of s, if there is one there. */
  function EscapeAt(s: string): (b: Option<nat>)
    ensures b.Some? ==> |s| >= 3 && s[0] == '%' && b.value < 256
  {
    if |s| < 3 || s[0] != '%' then None
    else match (HexValue(s[1]), HexValue(s[2]))
      case (Some(hi), Some(lo)) => Some(hi * 16 + lo)
      case _ => None
  }

  /** The number of octets a UTF-8 sequence has, read from its first octet
      (0 for an octet that cannot start a sequence). */
  function SequenceLength(b: nat): nat {
    if b < 0x80 then 1
    else if 0xC0 <= b < 0xE0 then 2
    else if 0xE0 <= b < 0xF0 then 3
    else if 0xF0 <= b < 0xF8 then 4
    else 0
  }

  predicate IsContinuation(b: nat) {
    0x80 <= b < 0xC0
  }

  /** `count` escapes "%XY" of continuation octets at the start of s. */
  function Continuations(s: string, count: nat): (r: Option<seq<nat>>)
    ensures r.Some? ==> |r.value| == count && |s| >= 3 * count
    ensures r.Some? ==> forall i :: 0 <= i < count ==> IsContinuation(r.value[i])
  {
    if count == 0 then Some([])
    else match EscapeAt(s)
      case Some(b) =>
        if !IsContinuation(b) then None
        else (match Continuations(s[3..], count - 1)
          case Some(rest) => Some([b] + rest)
          case None => None)
      case None => None
  }

  /** The code point a lead octet and its continuation octets encode, if the
      encoding is a valid (shortest, non-surrogate, in-range) one. */
  function CodePoint(lead: nat, cont: seq<nat>): (c: Option<char>)
    requires 2 <= SequenceLength(lead) <= 4 && |cont| == SequenceLength(lead) - 1
    requires forall i :: 0 <= i < |cont| ==> IsContinuation(cont[i])
  {
    assert IsContinuation(cont[0]);
    if |cont| == 1 then
      assert 0xC0 <= lead < 0xE0;
      var cp: int := (lead as int - 0xC0) * 64 + (cont[0] as int - 0x80);
      if cp < 0x80 then None else Some(cp as char)
    else if |cont| == 2 then
      assert 0xE0 <= lead < 0xF0 && IsContinuation(cont[1]);
      var cp: int := (lead as int - 0xE0) * 4096 + (cont[0] as int - 0x80) * 64 + (cont[1] as int - 0x80);
      if cp < 0x800 || 0xD800 <= cp < 0xE000 then None else Some(cp as char)
    else
      var cp: int := (lead as int - 0xF0) * 262144 + (cont[0] as int - 0x80) * 4096 + (cont[1] as int - 0x80) * 64 + (cont[2] as int - 0x80);
      if cp < 0x10000 || cp > 0x10FFFF then None else Some(cp as char)
  }

  /** `decodeURIComponent(s)`; None is the URIError it throws. */
  function Decode(s: string): (r: Option<string>)
    ensures r.Some? ==> |r.value| <= |s|
    decreases |s|
  {
    if s == [] then Some([])
    else if s[0] != '%' then
      (match Decode(s[1..]) case Some(rest) => Some([s[0]] + rest) case None => None)
    else match EscapeAt(s)
      case None => None
      case Some(b) =>
        if b < 0x80 then
          (match Decode(s[3..]) case Some(rest) => Some([b as char] + rest) case None => None)
        else if SequenceLength(b) == 0 then None
        else (match Continuations(s[3..], SequenceLength(b) - 1)
          case None => None
          case Some(cont) =>
            (match CodePoint(b, cont)
              case None => None
              case Some(c) =>
                (match Decode(s[3 * SequenceLength(b)..])
                  case Some(rest) => Some([c] + rest)
                  case None => None)))
  }

  // ---------------------------------------------------------------------
  // The encoder, which the PDF reader applies to every text run.

  /** The characters `encodeURIComponent` leaves as they are. */
  predicate IsUnreserved(c: char) {
    ('A' <= c <= 'Z') || ('a' <= c <= 'z') || ('0' <= c <= '9')
    || c == '-' || c == '_' || c == '.' || c == '!' || c == '~' || c == '*'
    || c == '\'' || c == '(' || c == ')'
  }

  /** The upper-case hexadecimal digit of a value below 16. */
  function HexDigit(v: nat): (c: char)
    requires v < 16
    ensures HexValue(c) == Some(v)
  {
    if v < 10 then ('0' as nat + v) as char else ('A' as nat + v - 10) as char
  }

  /** "%XY" for one octet, upper-case hexadecimal. */
  function EscapeOf(b: nat): (e: string)
    requires b < 256
    ensures |e| == 3 && EscapeAt(e) == Some(b)
  {
    ['%', HexDigit(b / 16), HexDigit(b % 16)]
  }

  /** An escape is read from the front of whatever follows it. */
  lemma EscapeAtFront(b: nat, t: string)
    requires b < 256
    ensures EscapeAt(EscapeOf(b) + t) == Some(b)
    ensures (EscapeOf(b) + t)[3..] == t
  {
    var s := EscapeOf(b) + t;
    assert s[0] == '%' && s[1] == EscapeOf(b)[1] && s[2] == EscapeOf(b)[2];
  }

  /** The UTF-8 octets of a code point. */
  function Utf8(c: char): (bytes: seq<nat>)
    ensures 1 <= |bytes| <= 4
    ensures forall i :: 0 <= i < |bytes| ==> bytes[i] < 256
  {
    var cp := c as nat;
    if cp < 0x80 then [cp]
    else if cp < 0x800 then [0xC0 + cp / 64, 0x80 + cp % 64]
    else if cp < 0x10000 then [0xE0 + cp / 4096, 0x80 + (cp / 64) % 64, 0x80 + cp % 64]
    else [0xF0 + cp / 262144, 0x80 + (cp / 4096) % 64, 0x80 + (cp / 64) % 64, 0x80 + cp % 64]
  }

  function EscapeAll(bytes: seq<nat>): (e: string)
    requires forall i :: 0 <= i < |bytes| ==> bytes[i] < 256
    ensures |e| == 3 * |bytes|
  {
    if bytes == [] then [] else EscapeOf(bytes[0]) + EscapeAll(bytes[1..])
  }

  /** `encodeURIComponent(s)`. */
  function Encode(s: string): (e: string)
    ensures |e| >= |s|
  {
    if s == [] then []
    else (if IsUnreserved(s[0]) then [s[0]] else EscapeAll(Utf8(s[0]))) + Encode(s[1..])
  }

  // ---------------------------------------------------------------------
  // Properties.

  /** Text without '%' decodes to itself. */
  lemma {:induction false} DecodeWithoutPercent(s: string)
    requires '%' !in s
    ensures Decode(s) == Some(s)
    decreases |s|
  {
    if s != [] {
      assert s[0] != '%' by { assert s[0] in s; }
      assert '%' !in s[1..] by {
        forall c | c in s[1..] ensures c in s {
          var i :| 0 <= i < |s[1..]| && s[1..][i] == c;
          assert s[i + 1] == c;
        }
      }
      DecodeWithoutPercent(s[1..]);
      assert [s[0]] + s[1..] == s;
    }
  }

  /** A '%' that does not begin "%XY" with two hexadecimal digits is a URIError,
      wherever it stands: "100%" cannot be decoded. */
  lemma {:induction false} MalformedEscapeFails(s: string, k: nat)
    requires k < |s| && s[k] == '%' && EscapeAt(s[k..]).None?
    requires '%' !in s[..k]
    ensures Decode(s).None?
    decreases k
  {
    if k > 0 {
      assert s[0] != '%' by { assert s[0] == s[..k][0]; }
      assert s[1..][k - 1..] == s[k..];
      assert s[1..][..k - 1] == s[..k][1..];
      assert '%' !in s[..k][1..] by {
        forall c | c in s[..k][1..] ensures c in s[..k] {
          var i :| 0 <= i < k - 1 && s[..k][1..][i] == c;
          assert s[..k][i + 1] == c;
        }
      }
      MalformedEscapeFails(s[1..], k - 1);
    }
  }

  /** Decoding an escaped character reads it and goes on with what follows. */
  lemma {:induction false} DecodeEscapedChar(c: char, rest: string)
    requires !IsUnreserved(c)
    ensures Decode(EscapeAll(Utf8(c)) + rest) ==
      (match Decode(rest) case Some(r) => Some([c] + r) case None => None)
  {
    var bytes := Utf8(c);
    var tail := EscapeAll(bytes[1..]) + rest;
    var s := EscapeAll(bytes) + rest;
    assert s == EscapeOf(bytes[0]) + tail;
    EscapeAtFront(bytes[0], tail);
    Utf8Lead(c);
    if |bytes| > 1 {
      ContinuationsOfEscapes(bytes[1..], rest);
      assert s[3 * |bytes|..] == rest by {
        assert s[3..] == tail;
        assert tail[3 * (|bytes| - 1)..] == rest;
      }
      Utf8Decodes(c);
    }
  }

  /** The first octet of a code point's encoding announces its length. */
  lemma Utf8Lead(c: char)
    ensures SequenceLength(Utf8(c)[0]) == |Utf8(c)|
    ensures (Utf8(c)[0] < 0x80) <==> |Utf8(c)| == 1
    ensures forall i :: 1 <= i < |Utf8(c)| ==> IsContinuation(Utf8(c)[i])
  {
  }

  /** Decoding the octets of a code point's encoding gives the code point back. */
  lemma Utf8Decodes(c: char)
    requires |Utf8(c)| > 1
    ensures SequenceLength(Utf8(c)[0]) == |Utf8(c)|
    ensures CodePoint(Utf8(c)[0], Utf8(c)[1..]) == Some(c)
  {
    Utf8Lead(c);
    var cp := c as nat;
    if cp < 0x800 {
      DecodesTwo(c);
    } else if cp < 0x10000 {
      DecodesThree(c);
    } else {
      DecodesFour(c);
    }
  }

  lemma DecodesTwo(c: char)
    requires 0x80 <= c as nat < 0x800
    ensures CodePoint(Utf8(c)[0], Utf8(c)[1..]) == Some(c)
  {
    var cp := c as nat;
    var b := Utf8(c);
    assert b == [0xC0 + cp / 64, 0x80 + cp % 64];
    assert (cp / 64) * 64 + cp % 64 == cp;
  }

  lemma DecodesThree(c: char)
    requires 0x800 <= c as nat < 0x10000
    ensures CodePoint(Utf8(c)[0], Utf8(c)[1..]) == Some(c)
  {
    var cp := c as nat;
    var b := Utf8(c);
    assert b == [0xE0 + cp / 4096, 0x80 + (cp / 64) % 64, 0x80 + cp % 64];
    assert ((cp / 64) / 64) * 64 + (cp / 64) % 64 == cp / 64;
    assert cp / 4096 == (cp / 64) / 64;
    assert (cp / 4096) * 4096 + ((cp / 64) % 64) * 64 + cp % 64 == cp;
  }

  lemma DecodesFour(c: char)
    requires 0x10000 <= c as nat
    ensures CodePoint(Utf8(c)[0], Utf8(c)[1..]) == Some(c)
  {
    var cp := c as nat;
    var b := Utf8(c);
    assert b == [0xF0 + cp / 262144, 0x80 + (cp / 4096) % 64, 0x80 + (cp / 64) % 64, 0x80 + cp % 64];
    assert cp / 4096 == (cp / 64) / 64;
    assert cp / 262144 == (cp / 4096) / 64;
    assert ((cp / 4096) / 64) * 64 + (cp / 4096) % 64 == cp / 4096;
    assert ((cp / 64) / 64) * 64 + (cp / 64) % 64 == cp / 64;
  }

  lemma {:induction false} ContinuationsOfEscapes(bytes: seq<nat>, rest: string)
    requires forall i :: 0 <= i < |bytes| ==> IsContinuation(bytes[i])
    ensures forall i :: 0 <= i < |bytes| ==> bytes[i] < 256
    ensures Continuations(EscapeAll(bytes) + rest, |bytes|) == Some(bytes)
  {
    if bytes != [] {
      var tail := EscapeAll(bytes[1..]) + rest;
      assert EscapeAll(bytes) + rest == EscapeOf(bytes[0]) + tail;
      EscapeAtFront(bytes[0], tail);
      ContinuationsOfEscapes(bytes[1..], rest);
      assert [bytes[0]] + bytes[1..] == bytes;
    }
  }

  /** decodeURIComponent undoes encodeURIComponent. */
  lemma {:induction false} DecodeEncode(s: string)
    ensures Decode(Encode(s)) == Some(s)
  {
    if s != [] {
      var c := s[0];
      DecodeEncode(s[1..]);
      if IsUnreserved(c) {
        assert ([c] + Encode(s[1..]))[1..] == Encode(s[1..]);
      } else {
        DecodeEscapedChar(c, Encode(s[1..]));
      }
      assert [c] + s[1..] == s;
    }
  }
}

=== FILE: wrappers.dfy ===
/** Optional values and error-carrying results, standing for JavaScript's
    `null`/`undefined` and for thrown exceptions. */
module Wrappers {

  datatype Option<+T> = None | Some(value: T) {
    function GetOr(default: T): T {
      match this
      case Some(v) => v
      case None => default
    }
  }

  datatype Result<+T, +E> = Ok(value: T) | Err(error: E)
}
